=== FILE: README.md ===
# pacview: a Dafny model of the package browser's logic

pacview is a graphical browser for the packages of an Arch Linux system. It
lists the packages of every configured repository and of the AUR, shows their
properties, and lets the user filter, search, sort and navigate between them.
The code comes in three generations: a Python prototype (`pacview.py`), a
second Python version (`app/*.py`) and a Rust/GTK rewrite (`src/*.rs`). Behind
the widgets each generation has a layer of pure, sequential logic, and that
layer is what this project models and proves properties of. Each source file
is one Dafny module, except src/pkg_object.rs, whose views are spread over
five modules (`PkgObjects`, `PkgObjectVersion`, `PkgObjectStatus`,
`PkgObjectUrls`, `PkgObjectFiles`):

- **Package records and their views.** These are `PkgData`, the five
  `PkgObject` modules, `AppObjects` and `AppObjectTypes`. They cover the status bit set and the
  install-reason classification, the AUR record, and the "update available"
  overlay on flags and version. They also cover status and icon names, the
  package page and PKGBUILD URLs, the zero-date sentinel, cache-file
  ownership, sorted file and backup lists, and dependency-specifier splitting
  and rendering.
- **The list's filters and population.** These are `AppPacview` and
  `ProtoPacview`: the repository, status-mask and multi-field search
  predicates, case-insensitive string sorting, repository names taken from the
  sync directory, and the classification of every package.
- **Navigation.** `HistoryList`, `PkgHistory` and `InfoPane` are the
  back/forward histories and the info pane's link handler. Every operation
  keeps the "index is unset or inside the list" invariant.
- **Text widgets.** `Utf8`, `TextWidget`, `TextLayout` and `InfoRow` cover
  byte offsets and character boundaries, and the double-click word rule. They
  also cover selections, link focus and link hit-testing, the link and
  comment lists built by `set_text`, and a property row's visibility and CSS
  rules.
- **Windows and dialogs.**
  - `GroupsWindow`, `StatsDialog`, `StatsWindow` and `DetailsDialog` cover
    their filters, folds, headers, blacklists and Markdown copies.
  - `SearchBar` and `Traits` cover the search bar's mode and property
    cycling and the signals it emits.
  - `PackageView` covers column reordering and sort state.
  - `LogDialog` and `LogWindow` cover the log parsing order, ANSI stripping,
    package filters and copies.

Helper modules hold the shared vocabulary: `Wrappers` (Option and Result),
`Strings` (substring search, split and join, ASCII case, decimal rendering)
and `Sorting` (lexicographic order, sorting, filter and map).

Everything libalpm, pyalpm, GTK, the file system or a regular expression
would supply becomes a parameter of the model. That covers install reasons,
reverse dependencies, versions, the configured repositories, the log file's
text, glob results, the byte index under the pointer, and the matches of the
link, e-mail and log-line patterns. Integer widths are written out where the
source casts: `as u32`, `i32` with -1 for "unset", `as usize` of a negative
`i32`, and `u32::MAX` as the invalid history position.

Where the generations of the program differ, each module follows its own
source:

- Rust joins licenses and groups with " | ". The Python versions join them
  with ", ".
- The search predicate of `app/pacview.py` compares the package name
  case-sensitively. It looks at five fields only (name, description, group,
  depends, optdepends) and has no exact-match mode. The prototype
  `pacview.py` does not lower-case the search text at all.

Two further points follow the code as written:

- No version comparison is implemented here. Ordering versions is delegated
  to pyalpm's `vercmp`.
- The log dialog's package pattern is modelled with the regular expression's
  real precedence, in which alternation binds loosest (see `LogDialog`).

## Model

| member | source | states |
|---|---|---|
| PkgData.FlagConstants | src/pkg_data.rs:10-24 | INSTALLED is the four installed bits (0x0F), ALL adds NONE (0x1F), UPDATES lies outside ALL, NONE outside INSTALLED, and the default is the empty set |
| PkgData.InstalledStatus | src/pkg_data.rs:99-104 | exactly one installed flag is set: EXPLICIT iff the reason is explicit, else DEPENDENCY iff required-by is non-empty, else OPTIONAL iff optional-for is non-empty, else ORPHAN |
| PkgData.JoinSorted | src/pkg_data.rs:87-89 | the text is some sorted permutation of the members joined with " \| " |
| PkgData.AlpmFlags | src/pkg_data.rs:96-107 | NONE without a local package, its installed classification with one; an installed flag is set exactly when there is a local package |
| PkgData.Validation | src/pkg_data.rs:135 | the undefined validation bits are cleared and the four defined ones kept |
| PkgData.FromAlpm | src/pkg_data.rs:85-137 | no local package gives NONE, the sync version and install date 0; a local one gives its classification, version and install date (missing gives 0); the record is installed iff a local package exists; dependency lists are sorted permutations; a missing packager is "Unknown Packager"; validation is the truncated sync bits |
| PkgData.FromAur | src/pkg_data.rs:142-180 | flags NONE (never installed), repository "aur", install date and both sizes 0, empty architecture, a missing maintainer is "Unknown Packager", the popularity reads "<popularity> (<votes> votes)", every list a sorted permutation of the AUR answer |
| PkgData.AurVotesReadBack | src/pkg_data.rs:159 | the vote count is recovered from the popularity text: the part between " (" and " votes)" is all digits and denotes the count |
| PkgData.JoinSortedSplits | src/pkg_data.rs:87-89 | splitting a joined field at " \| " gives back a sorted permutation of the members when no member contains the separator |
| PkgObjects.DisplayFlags | src/pkg_object.rs:136-141 | without an update the stored flags; with one UPDATES is set; no bit other than UPDATES differs from the stored flags |
| PkgObjectVersion.DisplayVersion | src/pkg_object.rs:143-150 | without an update the stored version; with one the stored version followed by the arrow separator (space, U+2192, space) and the update version |
| PkgObjectVersion.DisplayVersionRoundTrip | src/pkg_object.rs:143-150 | splitting the displayed version at the first arrow separator recovers the stored version and the update (or its absence), when the stored version holds no arrow |
| PkgObjectStatus.Status | src/pkg_object.rs:270-278 | the name is "not installed" exactly when the flags are not one single installed flag |
| PkgObjectStatus.StatusRoundTrip | src/pkg_object.rs:270-278 | a status name maps back to the single installed flag it came from, and "not installed" maps to none |
| PkgObjectStatus.StatusIcon | src/pkg_object.rs:280-288 | empty exactly when the flags are not one single installed flag, otherwise "pkg-" plus the status name |
| PkgObjectStatus.StatusIconSymbolic | src/pkg_object.rs:290-298 | empty exactly when the flags are not one single installed flag, otherwise "status-<status>-symbolic" |
| PkgObjectStatus.StatusIgnoresUpdateOverlay | src/pkg_object.rs:270-278 | a locally installed record keeps its status name when an update is known, although its displayed flags then read as "not installed" |
| PkgObjectUrls.PackageUrl | src/pkg_object.rs:210-227 | the AUR page for "aur", the archlinux.org repo/arch/name/ page for a configured repository, and "" exactly for any other repository |
| PkgObjectUrls.PkgbuildName | src/pkg_object.rs:231 | the base name when non-empty, else the package name |
| PkgObjectUrls.PkgbuildUrls | src/pkg_object.rs:229-268 | "aur" is checked first, then configured repositories, each with its fixed URL pair; an unconfigured "local" gives two empty strings; any other repository gives "file://" + raw path, which is empty iff paru is absent |
| PkgObjectUrls.DateToString | src/pkg_object.rs:579-588 | date 0 renders as "" for every format; any other date is the formatter's rendering |
| PkgObjectFiles.CacheFiles | src/pkg_object.rs:549-572 | exactly the cache paths whose file name ends in ".pkg.tar.zst" and whose rsplitn(4, '-') remainder is the package name, kept in cache order: the list is the cache with the other paths deleted |
| PkgObjectFiles.CacheFileNameOwner | src/pkg_object.rs:558-563 | a pacman-style cache file name "name-version-release-arch.pkg.tar.zst" leaves exactly the package name, even when the name contains dashes |
| PkgObjectFiles.LookupDb | src/pkg_object.rs:395-403 | the local database is consulted exactly when the flags intersect INSTALLED |
| PkgObjectFiles.SortedNames | src/pkg_object.rs:414-450 | a failed lookup gives the empty list; otherwise a sorted permutation of the database's answer |
| PkgObjectFiles.Files | src/pkg_object.rs:452-476 | a failed lookup gives nothing; otherwise a sorted permutation of the root-prefixed names, each starting with the root directory |
| PkgObjectFiles.Backup | src/pkg_object.rs:478-506 | a failed lookup gives nothing; otherwise a permutation of the root-prefixed entries, sorted by file name, each tagged with the package |
| PkgObjectFiles.PackageLog | src/pkg_object.rs:519-545 | an unreadable log gives nothing; otherwise the lines mentioning the package whose captured name equals it, rendered from the captures, newest first |
| AppObjects.PkgStatusValues | app/objects.py:12-20 | the flag values equal the Rust ones, INSTALLED is 15, ALL is 31 and UPDATES (32) lies outside ALL |
| AppObjects.Status | app/objects.py:63-68 | "" exactly when no installed bit is set; otherwise the first set bit in the order explicit, dependency, optional, orphan names the status |
| AppObjects.StatusIcon | app/objects.py:71-76 | "" exactly when no installed bit is set, otherwise "pkg-" plus the status of the same priority chain |
| AppObjects.StatusIgnoresOtherBits | app/objects.py:63-76 | adding UPDATES or NONE changes neither the status nor its icon |
| AppObjects.StatusAgreesWithRust | app/objects.py:63-68 | on a single installed flag the second Python version and the Rust getter agree; with UPDATES added the Python getter still names the state while the Rust exact match reads "not installed" |
| AppObjects.Repository | app/objects.py:79-80 | the database name, except that "local" is shown as "AUR" |
| AppObjects.Version | app/objects.py:47-48 | the local version when installed, the sync version otherwise |
| AppObjects.InstallDateRaw | app/objects.py:127-128 | the local install date when installed, the sync package's otherwise |
| AppObjects.CommaJoinSorted | app/objects.py:59-60 | a sorted permutation of the members joined by ", " |
| AppObjects.SizeUnit | app/objects.py:202-205 | the unit is the first one at which the scaled value drops below 1024, capped at PiB |
| AppObjects.SizeUnitUnique | app/objects.py:202-205 | at most one unit satisfies the stopping rule, so the unit is determined by the value |
| AppObjects.SmallSizeUnit | app/objects.py:202-205 | values below 1024 stay in bytes |
| AppObjects.SizeToStr | app/objects.py:197-207 | exactly "0 B" for zero; otherwise the formatted scaled value, a space and the unit of the stopping rule |
| AppObjects.DownloadSize | app/objects.py:139-140 | "" for an installed package; for an uninstalled one, its download size as `size_to_str` renders it: "0 B" for zero, otherwise the scaled number in the unit whose range holds the size, then that unit's name |
| AppObjects.Files | app/objects.py:155-156 | empty when not installed, otherwise the local package's files |
| AppObjects.Backup | app/objects.py:159-160 | empty when not installed, otherwise the local package's backup list |
| AppObjects.DateToStr | app/objects.py:189-194 | "" for date 0, otherwise the formatter's text |
| AppObjectTypes.FirstPresentDelimiter | app/object_types.py:211-215 | the first delimiter, in the order >=, <=, =, >, <, that occurs in the name part; no earlier one occurs; none when no delimiter occurs |
| AppObjectTypes.SplitDescription | app/object_types.py:207-209 | name part + description reproduces the specifier, the name part holds no ':', and the description is empty or starts with ':' |
| AppObjectTypes.CutAtDelimiter | app/object_types.py:212-214 | name + version reproduces the name part, the version starts with the delimiter, and the name holds no occurrence of it |
| AppObjectTypes.SplitSpecifier | app/object_types.py:202-215 | name + version + description reproduces the specifier; the description is empty or ':'-prefixed; without a version no delimiter occurs in the name; with one it starts with the highest-priority delimiter present |
| AppObjectTypes.DelimiterPriorityExample | app/object_types.py:211-215 | priority beats position: "a>b>=1" splits at the later ">=" into "a>b" and ">=1" |
| AppObjectTypes.Link | app/object_types.py:221 | the link's target and label are the bare name, followed by the version and the description as plain text, and nothing else: the length is that of these pieces |
| AppObjectTypes.LinkStr | app/object_types.py:223 | "None" exactly for an empty list; otherwise the links of a sorted permutation joined by three spaces |
| AppObjectTypes.Status | app/object_types.py:67-71 | a name exactly for a single installed value; every other value gives "" |
| AppObjectTypes.StatusIcon | app/object_types.py:73-77 | an icon exactly for a single installed value, every other value giving "": "package-install" for explicit, "package-installed-updated" for dependency, "package-installed-outdated" for optional, "package-purge" for orphan; each icon appears exactly when `status` gives the matching name |
| AppObjectTypes.StatusVersusNewerObjects | app/object_types.py:67-71 | on single installed values both object modules agree; on EXPLICIT\|DEPENDENCY this one gives "" where app/objects.py says "explicit" |
| AppObjectTypes.InstallScript | app/object_types.py:163-165 | "Yes" iff the package has a scriptlet, "No" iff it has none |
| AppObjectTypes.FilesList | app/object_types.py:167-169 | empty when not installed, otherwise the first field of each local file entry, in order |
| AppObjectTypes.IntToSizestr | app/object_types.py:188-196 | the formatted value and the unit of the stopping rule; zero is rendered in unit B, with no special "0 B" case |
| AppObjectTypes.DownloadSize | app/object_types.py:151-153 | "" when installed, otherwise the size text of the stopping rule |
| AppPacview.PlainLink | app/pacview.py:195-214 | the link target and label are the bare name of the same split as the property grid, followed by version and description, and nothing else: the length is that of these pieces |
| AppPacview.LinkList | app/pacview.py:216 | "None" exactly for an empty list; otherwise the links of a sorted permutation, one per line |
| AppPacview.WithSearchText | app/pacview.py:618-619 | the search becomes the lower-cased entry text and no other filter setting changes |
| AppPacview.DefaultShowsClassified | app/pacview.py:384-400 | with the default repository, mask and search every package carrying one of the five statuses passes all three filters |
| AppPacview.InstalledMaskSelectsInstalled | app/pacview.py:387-388 | the INSTALLED mask passes a classified package exactly when it is installed |
| AppPacview.DescriptionSearchIgnoresCase | app/pacview.py:395 | once the entry text is lower-cased, any occurrence of it in the lower-cased description passes the search |
| AppPacview.SearchMonotone | app/pacview.py:390-400 | enabling more fields never hides a row the search already passed |
| AppPacview.NoFieldsOnlyEmptySearch | app/pacview.py:390-400 | with every field disabled, a row passes exactly when the search is empty |
| AppPacview.SortByStr | app/pacview.py:355-362 | the result is exactly -1, 0 or 1: 0 iff the lower-cased values are equal, -1 iff the first is smaller, 1 iff the second is |
| AppPacview.SortByStrAntisymmetric | app/pacview.py:355-362 | swapping the arguments negates the result |
| AppPacview.RepoName | app/pacview.py:665 | a prefix of the entry that holds no '.': the whole entry when it has no '.', otherwise the part before its first '.' |
| AppPacview.DbNames | app/pacview.py:664-665 | every name comes from an entry ending in ".db", cut at its first '.', and every such entry contributes its name, in directory order and once per entry |
| AppPacview.RepoNameOfDbFile | app/pacview.py:665 | a database file's name is followed by '.' in the entry and holds no '.' |
| AppPacview.Classify | app/pacview.py:684-696 | not local gives NONE; reason 0 gives EXPLICIT; reason 1 gives DEPENDENCY, OPTIONAL or ORPHAN by the reverse dependencies; any other reason keeps NONE |
| AppPacview.ReasonOf | app/pacview.py:688-692 | raw reason 0 stands for explicit, 1 for a dependency install |
| AppPacview.ClassifyAgreesWithRust | app/pacview.py:684-696 | for reasons 0 and 1 the second Python version classifies exactly like the Rust record constructor |
| AppPacview.Populate | app/pacview.py:684-696 | the local package is attached iff the name is in the local database, and the status is its classification; an unknown reason leaves a local package with NONE |
| ProtoPacview.StatusString | pacview.py:52-55 | a name exactly for a single installed value, the same name the second Python version gives |
| ProtoPacview.DateString | pacview.py:64-65 | "" for the zero date, otherwise the formatter's text |
| ProtoPacview.UpperCaseDescriptionSearchFails | pacview.py:247-256 | as written, "GTK" typed into the search misses the description "GTK toolkit" although it occurs there |
| ProtoPacview.UpperCaseNeverInLowered | pacview.py:252 | as written, a search text holding any upper-case letter never matches a description |
| ProtoPacview.DescriptionSearchIgnoresCase | pacview.py:247-256 | with the search lower-cased first, any occurrence in the lower-cased description passes |
| ProtoPacview.CorrectionKeepsLowerCaseSearches | pacview.py:247-256 | for a text that is already lower-case the corrected and the as-written search agree |
| ProtoPacview.DefaultShowsClassified | pacview.py:241-256 | with the default repository, mask and search every classified package is shown |
| ProtoPacview.SortByStr | pacview.py:215-222 | exactly -1, 0 or 1 by the case-sensitive order: 0 iff equal, -1 iff the first is smaller, 1 iff the second is |
| ProtoPacview.SortByStrOnLowerCase | pacview.py:215-222 | on lower-case values the prototype's sorter agrees with the second Python version's case-insensitive one |
| ProtoPacview.DbNames | pacview.py:461-462 | one name per sync-directory entry, whatever its suffix, each the part of its entry before the first '.' (the whole entry when there is none) |
| ProtoPacview.SecondVersionKeepsDbFiles | pacview.py:462 | the second Python version's names are exactly this one's names of the ".db" entries, in order |
| ProtoPacview.Populate | pacview.py:481-493 | a package absent locally keeps NONE and date 0; a local one gets the reason-0/reason-1 classification and its install date |
| ProtoPacview.UnknownReasonKeepsDate | pacview.py:481-493 | a local package with an unknown reason keeps NONE but still gets its install date |
| HistoryList.Len | src/history_list.rs:52-54 | the length read as u32: exact below 2^32 and never more than the list length |
| HistoryList.SetCurrent | src/history_list.rs:56-61 | the index is stored iff it is below the u32 length, otherwise INVALID; the list is untouched and the position stays valid |
| HistoryList.CurrentItem | src/history_list.rs:71-79 | None exactly for INVALID, otherwise the element at the position |
| HistoryList.PeekNextMeaning | src/history_list.rs:87-91 | under the invariant a next entry exists exactly when a position is set and is not the last index |
| HistoryList.Init | src/history_list.rs:106-121 | None leaves an empty list with INVALID; Some(x) leaves [x] at position 0; the current item is the argument |
| HistoryList.MovePrevious | src/history_list.rs:123-127 | one step back exactly when peek-previous holds, otherwise nothing changes; the list is never modified |
| HistoryList.MoveNext | src/history_list.rs:129-133 | one step forward exactly when peek-next holds, otherwise nothing changes; the list is never modified |
| HistoryList.NextThenPrevious | src/history_list.rs:123-133 | a step forward then back returns to the same state |
| HistoryList.PreviousThenNext | src/history_list.rs:123-133 | a step back then forward returns to the same state |
| HistoryList.FindName | src/history_list.rs:138 | the first position whose package has the name, or none when no package has it |
| HistoryList.KeepLength | src/history_list.rs:140-144 | the list is cut just past the position only when that lies inside the list, otherwise kept whole |
| HistoryList.SetCurrentOrMakeLast | src/history_list.rs:135-155 | a listed name only moves the position to its first entry; otherwise the tail after the position is dropped, the item appended and made current; the position stays valid |
| HistoryList.VisitMakesCurrent | src/history_list.rs:135-155 | after a visit the current item carries the visited name |
| HistoryList.VisitThenBack | src/history_list.rs:139-149 | visiting a new package keeps the history up to the position, and moving back returns to that position |
| PkgHistory.DefaultValid | src/pkg_history.rs:102-111 | the default history lists nothing, selects nothing and satisfies the invariant |
| PkgHistory.Init | src/pkg_history.rs:29-41 | the list is cleared, then holds [item] at index 0, or is empty with no index; the selected item is the argument |
| PkgHistory.SelectPrevious | src/pkg_history.rs:47-57 | answers true exactly when a selection above 0 exists, and then moves back one; otherwise nothing changes; the list never changes |
| PkgHistory.SelectNext | src/pkg_history.rs:59-69 | answers true exactly when the selection is not the last entry, and then moves forward one; otherwise nothing changes |
| PkgHistory.NextThenPrevious | src/pkg_history.rs:47-69 | a step forward undone by a step back restores the state |
| PkgHistory.SelectedItem | src/pkg_history.rs:75-78 | the entry at the index, or None without a selection or with an index past the end |
| PkgHistory.SetSelectedItem | src/pkg_history.rs:80-88 | answers true exactly when some entry has the item's name, and then selects the first one; otherwise nothing changes; the list never changes |
| PkgHistory.TruncateAndAppend | src/pkg_history.rs:90-99 | the list is cut just after the selection only when that is not the last entry; the item is appended and selected |
| PkgHistory.AppendThenBack | src/pkg_history.rs:90-99 | appending after a selection keeps the path to it, and one step back returns to it |
| PkgHistory.AgreesWithHistoryList | src/pkg_history.rs:90-99 | appending a package not yet listed does the same to this history and to the GObject history, with None standing for INVALID |
| InfoPane.Select | src/info_pane.rs:209 | a position inside the history becomes the selection; a position past the end leaves the current selection as it was (autoselect is on) |
| InfoPane.SelectedItem | src/info_pane.rs:400 | a package exactly when the selection is inside the history, namely the one there |
| InfoPane.FindFirst | src/info_pane.rs:189-196 | the first package satisfying the test; none satisfies it before; none at all when absent |
| InfoPane.LinkTarget | src/info_pane.rs:187-197 | an exact name match wins whenever one exists; otherwise the first package with a provides entry containing the link; none exactly when neither exists |
| InfoPane.IndexOf | src/info_pane.rs:208 | a position holding the package, and none exactly when the package is not in the history |
| InfoPane.LinkHandler | src/info_pane.rs:187-229 | no match changes nothing; a package already in the history is only selected; a new one replaces the entries after the selection, is appended and selected; the found package is displayed |
| InfoPane.LinkThenBack | src/info_pane.rs:187-229 | following a link to a new package and stepping back shows the package selected before |
| InfoPane.DisplayPrev | src/info_pane.rs:392-404 | the selection moves back one and that package is shown only above 0; at 0 or with no selection nothing changes |
| InfoPane.DisplayNext | src/info_pane.rs:406-418 | the selection moves forward one and that package is shown only below the last index; otherwise nothing changes |
| InfoPane.NextThenPrev | src/info_pane.rs:392-418 | a step forward then back restores the selection and shows the package selected before |
| InfoPane.SetPkg | src/info_pane.rs:445-457 | the history becomes [pkg], selected, or empty for None; the package is displayed |
| InfoPane.PropUrl | src/info_pane.rs:423-435 | the archlinux.org page for core, extra and multilib, the AUR page for "aur", and "" exactly otherwise |
| InfoPane.PropUrlAgreesWithPackageUrl | src/info_pane.rs:423-435 | with the default repositories configured, the pane's URL is the package object's URL without its final '/' |
| TextWidget.MatchIndices | src/text_widget.rs:492 | every listed start is an occurrence at or after the origin, the occurrences do not overlap and come in order, none is skipped before the first, and the list is empty exactly when there is no occurrence |
| TextWidget.CommentTag | src/text_widget.rs:492-500 | a comment covers the twelve bytes of the label from its start while the offsets fit in `u32` |
| TextWidget.PackageLink | src/text_widget.rs:475-484 | a link-list link targets "pkg://" plus the matched name, carries the version text and covers the name's range |
| TextWidget.EmailLink | src/text_widget.rs:450-462 | a packager row gets at most one link, present exactly when the e-mail expression matched; its target is "mailto:" plus the matched address, with no version, over the match's byte range when it ends below the u32 limit |
| TextWidget.NameLinks | src/text_widget.rs:468-487 | a link list gets one link per name match, in match order: "pkg://" plus the matched name, over the name's byte range when it ends below the u32 limit, carrying that match's version text |
| TextWidget.InstalledComments | src/text_widget.rs:489-500 | one comment per non-overlapping " [INSTALLED]" occurrence, in text order, each at an occurrence |
| TextWidget.SetText | src/text_widget.rs:437-531 | a Link row is one link over the whole text; an empty link list shows "None" with no links; a link list has the name links, one per name match, and one comment per " [INSTALLED]" occurrence; a packager has the e-mail link; other types have none; the first link is focused; selection and expansion are cleared; the selecting, clicked, pressed-link and can-expand state is kept |
| TextWidget.CommentsCoverLabels | src/text_widget.rs:490-500 | every comment of a link list covers exactly one " [INSTALLED]" of the text |
| TextWidget.LinksTargetTheirLabels | src/text_widget.rs:450-487 | with a text below the u32 limit, every packager or link-list link lies inside the text and its target is "mailto:" or "pkg://" followed by exactly the bytes the link covers |
| TextWidget.SelectAll | src/text_widget.rs:258-267 | the selection spans the whole text; text, links and focus are unchanged |
| TextWidget.SelectNone | src/text_widget.rs:269-278 | both ends of the selection are cleared; text, links and focus are unchanged |
| TextWidget.SelectedText | src/text_widget.rs:767-773 | no text unless both ends are set; otherwise the slice between the smaller and the larger end, when it is valid |
| TextWidget.SelectAllSelectsText | src/text_widget.rs:258-278 | after select-all the selected text is the whole text; after select-none there is none |
| TextWidget.SelectedTextSymmetric | src/text_widget.rs:767-773 | swapping the two ends of a selection yields the same text |
| TextWidget.Expand | src/text_widget.rs:288-292 | the text is expanded afterwards exactly when it was already or can expand; nothing else changes |
| TextWidget.Contract | src/text_widget.rs:294-298 | the text stays expanded only when it cannot contract; nothing else changes |
| TextWidget.PreviousLink | src/text_widget.rs:301-310 | the focus moves back one when it is above 0; at 0 or unset nothing changes |
| TextWidget.NextLink | src/text_widget.rs:312-324 | the focus moves forward one exactly when the next link exists and ends within the laid-out text; otherwise nothing changes |
| TextWidget.NextThenPreviousLink | src/text_widget.rs:301-324 | a permitted step forward followed by a step back restores the widget |
| TextWidget.FocusLink | src/text_widget.rs:656-663 | a link exactly when the focus index is set and inside the list, namely the link at that index |
| TextWidget.LinkAt | src/text_widget.rs:820-830 | outside the layout there is no link; otherwise the first link covering the index, and none only when no link covers it |
| TextWidget.Pressed | src/text_widget.rs:968-1024 | the link under the pointer is remembered; away from links a double click selects the word around the index, or the whole text off a character boundary, and changes nothing but the click flag, the selection and the pressed link; a triple click selects everything; other presses change nothing else |
| TextWidget.DragBegin | src/text_widget.rs:902-918 | on a link nothing changes; elsewhere selecting starts, anchored at the index unless a multi-click just selected |
| TextWidget.DoubleClickSurvivesDragBegin | src/text_widget.rs:902-918 | a drag starting right after a double or triple click keeps the selection that click made |
| TextWidget.DragUpdate | src/text_widget.rs:920-937 | the selection's moving end follows the pointer and a selection exists |
| TextWidget.DragEnd | src/text_widget.rs:939-958 | selecting stops; a selection with no end or equal ends is dropped, any other is kept |
| TextWidget.DragKeepsSelectionIffMoved | src/text_widget.rs:902-958 | a plain drag keeps a selection exactly when it moved, spanning from the start index to the end index |
| TextWidget.Released | src/text_widget.rs:1026-1038 | the click flag and the pressed link are cleared; the pressed link is activated exactly when the pointer is still on it |
| Utf8.I32AsUsize | src/text_layout.rs:474 | a non-negative `i32` keeps its value as `usize`; a negative one wraps to an offset beyond any text |
| Utf8.Ascii | src/text_widget.rs:24 | a literal's bytes are its characters' codes, one per character |
| Utf8.Get | src/text_widget.rs:772 | a slice exactly when both ends are ordered, in range and on character boundaries, holding the bytes between them |
| Utf8.SplitAtChecked | src/text_widget.rs:983 | two halves exactly when the offset is a character boundary; they concatenate to the text and the first has the offset's length |
| Utf8.WordBounds | src/text_widget.rs:983-1004 | at a boundary, a range containing the offset, free of whitespace and ASCII punctuation, delimited by a separator or the text's end on both sides; elsewhere the whole text |
| Utf8.WordAroundUnique | src/text_widget.rs:983-1004 | the word around an offset is determined: two ranges meeting the description coincide |
| TextLayout.AsI32 | src/text_layout.rs:430 | a length below 2^31 keeps its value as `i32` |
| TextLayout.SetText | src/text_layout.rs:293-363 | a Link row is one link over the text; a packager gets one "mailto:" link over the matched address's range when an address matches; an empty link list shows "None" with no links; a link list has one "pkg://" link per name match over its range; other types have none; both selection ends become -1, while the selecting flag and the pressed link are kept |
| TextLayout.LinkAtIndex | src/text_layout.rs:471-479 | outside the layout there is no link; otherwise the URL of the first link covering the index, and none exactly when no link covers it |
| TextLayout.NegativeIndexHitsNothing | src/text_layout.rs:474 | a negative index read as `usize` lies on no link of a realistic text |
| TextLayout.SelectAll | src/text_layout.rs:427-434 | the selection runs from 0 to the text's length; nothing else changes |
| TextLayout.Pressed | src/text_layout.rs:539-587 | the link under the pointer is remembered; away from links one click anchors at the index with the end unset and starts selecting, two select the word around the index or the whole text off a boundary, three select everything; one and two clicks change nothing else in the layout |
| TextLayout.Released | src/text_layout.rs:589-612 | selecting stops and the pressed link is cleared; a selection in progress with no end or equal ends becomes (-1, -1), any other is kept; the pressed link fires exactly when still under the pointer |
| TextLayout.DoubleClickKeepsWord | src/text_layout.rs:539-600 | a double click away from links, released with no selection in progress, leaves the word around the index selected |
| TextLayout.ClickWithoutDragSelectsNothing | src/text_layout.rs:539-600 | a single click away from links released without a drag leaves both ends at -1 |
| TextLayout.CopyText | src/text_layout.rs:437-444 | for set ends, the valid slice between the smaller and the larger end; with both ends unset there is nothing to copy |
| TextLayout.CopyAfterSetTextAndSelectAll | src/text_layout.rs:621-629 | copying is disabled right after new text is set; after select-all on a non-empty text it is enabled and copies the whole text |
| Traits.FirstIndex | src/traits.rs:60-72 | the first position holding the value |
| Traits.LastIndex | src/traits.rs:45-58 | the last position holding the value |
| Traits.NextOf | src/traits.rs:60-72 | the value after the first occurrence, wrapping from the last to the first |
| Traits.PreviousOf | src/traits.rs:45-58 | the value before the last occurrence, wrapping from the first to the last |
| Traits.DistinctIndices | src/traits.rs:45-72 | for an enum's distinct values the forward and reversed searches find the same position |
| Traits.NextPreviousInverse | src/traits.rs:45-72 | stepping back then forward, or forward then back, returns to the value |
| Traits.Iterate | src/traits.rs:60-72 | repeated forward steps stay among the values |
| Traits.NextAt | src/traits.rs:60-72 | for distinct values the forward step from position p reaches the next position, wrapping at the end |
| Traits.PreviousAt | src/traits.rs:45-58 | for distinct values the backward step from position p reaches the previous position, wrapping at the start |
| Traits.IterateIndex | src/traits.rs:60-72 | k forward steps from position p reach position p + k, wrapping once past the end |
| Traits.FullCycle | src/traits.rs:60-72 | a full round of forward steps returns to the start |
| InfoRow.ValueText | src/info_row.rs:444-457 | a list value shows its entries joined with the five-space link spacer; any other value shows its string |
| InfoRow.SetValue | src/info_row.rs:431-467 | the row is visible exactly for the plain variants, a non-empty optional string, a non-zero number or a non-empty optional list; a hidden row keeps its content; a visible row shows the value's text and its image only for an icon value with an icon; the Version row gains "success"; the Status row has "error" exactly when its icon is "pkg-orphan"; other rows keep their classes |
| InfoRow.InvisibleKeepsContent | src/info_row.rs:434-443 | an empty optional string, a zero number or an empty optional list hides the row and changes nothing else |
| InfoRow.SpaceFreeAvoidsSpacer | src/info_row.rs:455 | a space-free name followed by four spaces holds no link spacer |
| InfoRow.ListTextRoundTrip | src/info_row.rs:453-456 | a non-empty list of space-free names is shown, and its text splits at the spacer back into exactly those names |
| GroupsWindow.SearchIgnoresCase | src/groups_window.rs:174-201 | text occurring in a row's group passes the search in modes All and Groups, whatever its letter case |
| GroupsWindow.InstalledFilterFollowsFlags | src/groups_window.rs:204-219 | with the button active a package's rows pass exactly when its flags hold one installed status; with it off every row passes |
| GroupsWindow.AllIsUnion | src/groups_window.rs:186-197 | mode All passes exactly the rows Groups or Packages would pass |
| GroupsWindow.RowsOf | src/groups_window.rs:377-386 | a package without groups has no rows; otherwise one row per " \| "-separated group carrying its name, status and symbolic icon |
| GroupsWindow.ExpandRowsComeFromGroups | src/groups_window.rs:375-388 | every row comes from a package with groups and names one of its groups |
| GroupsWindow.JoinedGroupsRows | src/groups_window.rs:380-382 | for a groups field built as a sorted join, the rows' groups are exactly the items, sorted |
| GroupsWindow.Show | src/groups_window.rs:370-393 | the rows are built from the package list only while the model is empty; otherwise it is kept |
| GroupsWindow.ShowIdempotent | src/groups_window.rs:370-393 | showing again after the rows were built changes nothing |
| GroupsWindow.RemoveAll | src/groups_window.rs:363-365 | the model is emptied |
| GroupsWindow.RemoveAllThenShow | src/groups_window.rs:363-393 | after emptying, showing rebuilds the rows from the current packages |
| GroupsWindow.Block | src/groups_window.rs:315-327 | a row's lines are its table line, preceded by a group header exactly when its group differs from the previous one |
| GroupsWindow.CopyLineCount | src/groups_window.rs:310-328 | the copy has one line per row plus one header per change of group |
| GroupsWindow.CopyHasEveryRow | src/groups_window.rs:310-328 | every shown row's line is in the copy |
| GroupsWindow.OneGroupOneHeader | src/groups_window.rs:315-321 | rows of a single group get exactly one header |
| GroupsWindow.SameGroupNoChange | src/groups_window.rs:315-321 | rows continuing the previous group add no header |
| GroupsWindow.CopyText | src/groups_window.rs:330-332 | the copy starts with the title and the two-column table header |
| GroupsWindow.GroupSetSize | src/groups_window.rs:342-350 | there are never more distinct groups than rows, and at least one whenever there are rows |
| GroupsWindow.UpdateHeader | src/groups_window.rs:340-357 | the empty page shows exactly when there are no rows; the copy button is enabled exactly when there are; the label is exactly "<n> packages in <k> group", followed by a single "s" exactly when k is not 1 and by nothing else |
| StatsDialog.InstalledIgnoresUpdates | src/stats_dialog.rs:85 | a package counts as installed exactly when its own flags have an installed bit; the update overlay never changes that |
| StatsDialog.RepoCounts | src/stats_dialog.rs:80-91 | a repository's installed count never exceeds its package count |
| StatsDialog.RepoCountsMeaning | src/stats_dialog.rs:80-91 | the package count is how many packages belong to the repository, and the installed count how many installed ones do |
| StatsDialog.RepoCountsAppend | src/stats_dialog.rs:82-91 | the fold over one more package adds exactly that package's share |
| StatsDialog.RepoLabel | src/stats_dialog.rs:94 | "aur" is labelled "AUR"; any other repository by its title-cased name |
| StatsDialog.Titlecase | src/stats_dialog.rs:94 | the name with the first letter of every hyphen- or space-separated word upper-cased and every other character kept, so "core-testing" becomes "Core-Testing" |
| StatsDialog.UpdateUi | src/stats_dialog.rs:73-112 | one row per listed repository, in order, with its label and numbers, then a "Total" row holding the sum of those rows |
| StatsDialog.TotalsAreSums | src/stats_dialog.rs:77-103 | the running totals of the outer fold are the sums of the repository rows |
| StatsDialog.InstalledAtMostPackages | src/stats_dialog.rs:105-111 | the total installed count never exceeds the total package count |
| StatsDialog.UnlistedPackageIgnored | src/stats_dialog.rs:81 | a package of a repository that is not listed changes no row |
| StatsDialog.SkipOtherRepo | src/stats_dialog.rs:81 | a package of another repository adds nothing to a repository's numbers |
| StatsWindow.CountRepo | src/stats_window.rs:101-117 | one pass over the packages yields the repository's package count, installed count and installed size |
| StatsWindow.New | src/stats_window.rs:89-137 | one row per repository with its title-cased label and numbers, then the total row; the numbers agree with the dialog's and only the label of "aur" differs |
| DetailsDialog.UpdateUiStack | src/details_dialog.rs:289-301 | all four tab buttons are enabled exactly for an installed package, and only then is the files tab activated |
| DetailsDialog.ShowStack | src/details_dialog.rs:456 | the tabs are enabled exactly when the package's flags intersect INSTALLED |
| DetailsDialog.UpdateFilesPage | src/details_dialog.rs:306-337 | the shown files are the package's files the search lets through, in file order and one per passing file (the files list with the others deleted); the header reads "Files (<number of passing files> of <all>)"; both buttons need a shown file |
| DetailsDialog.EmptySearchShowsAllFiles | src/details_dialog.rs:313-325 | with nothing filtered every file is shown and the header counts n of n |
| DetailsDialog.LogsPage | src/details_dialog.rs:342-372 | an unreadable log shows the overlay and no lines; otherwise the matching lines from last to first, rewritten; copying needs a line |
| DetailsDialog.LogsNewestFirst | src/details_dialog.rs:351-359 | the page lists the matching lines in reverse file order |
| DetailsDialog.Blacklist | src/details_dialog.rs:383-390 | exactly the snapshot names that start with the package's name and differ from it |
| DetailsDialog.GlobKept | src/details_dialog.rs:396-413 | for one cache directory: nothing when the glob fails; otherwise exactly the globbed paths that contain no blacklisted name |
| DetailsDialog.KeptFiles | src/details_dialog.rs:395-413 | every listed file holds no blacklisted name and comes from some successful glob, and every such globbed file is listed: the list is exactly the successful globs' files holding no blacklisted name |
| DetailsDialog.KeptFilesInOrder | src/details_dialog.rs:395-413 | the kept files are the successful globs' files, in the order the globs return them, that hold no blacklisted name, once per globbed occurrence |
| DetailsDialog.UpdateCachePage | src/details_dialog.rs:377-426 | the kept files, a "Cache Files (<n>)" header whose n counts the globbed files holding no blacklisted name, buttons enabled exactly with a file, and the overlay exactly when some glob failed |
| DetailsDialog.OtherPackageFileDropped | src/details_dialog.rs:383-407 | the cache file of a longer-named package in the snapshot is never listed for this package |
| DetailsDialog.KeptFileAvoidsLongerNames | src/details_dialog.rs:403-407 | no listed cache file contains a longer package name from the snapshot |
| DetailsDialog.UpdateBackupPage | src/details_dialog.rs:431-447 | the header reads "Backup Files (<n>)" and both buttons are enabled exactly when there is a backup file |
| DetailsDialog.Banner | src/details_dialog.rs:281-284 | the banner reads the repository, a slash, then the name, and nothing else |
| SearchBar.EnumsListed | src/search_bar.rs:20-58 | every mode and every property is among the values the enum iterators yield |
| SearchBar.EnumsDistinct | src/search_bar.rs:20-58 | no mode or property is yielded twice |
| SearchBar.ChangedIfText | src/search_bar.rs:344-363 | "changed" is emitted, once, exactly when the search text is non-empty |
| SearchBar.SetMode | src/search_bar.rs:344-352 | setting the mode stores it and redoes the search only when there is text |
| SearchBar.SetProp | src/search_bar.rs:355-363 | setting the property stores it and redoes the search only when there is text |
| SearchBar.ResetParams | src/search_bar.rs:144-149 | the mode and the property return to their defaults, with one possible "changed" for each |
| SearchBar.CycleTablesAgree | src/search_bar.rs:155-220 | the forward and reverse steps of the mode and property bindings are the next and previous values of the declaration-order cycle |
| SearchBar.ModeTableAgrees | src/search_bar.rs:154-175 | Ctrl+M and Ctrl+Shift+M step to the next and previous mode of the declaration-order cycle |
| SearchBar.PropTableAgrees | src/search_bar.rs:198-219 | Ctrl+P and Ctrl+Shift+P step to the next and previous property of the declaration-order cycle |
| SearchBar.ModeIndices | src/search_bar.rs:20-31 | each mode sits at its declaration position, once |
| SearchBar.PropIndices | src/search_bar.rs:37-58 | each property sits at its declaration position, once |
| SearchBar.KeyPress | src/search_bar.rs:155-234 | Ctrl+M and Ctrl+Shift+M step the mode, Ctrl+P and Ctrl+Shift+P the property, Ctrl+1 to Ctrl+7 pick that property, other digits do nothing, Ctrl+R resets both; the text is untouched and a single-parameter key emits at most one "changed" |
| SearchBar.ShiftUndoes | src/search_bar.rs:155-220 | a step and its shifted counterpart undo each other, for mode and property |
| SearchBar.PropCycleLength | src/search_bar.rs:199-208 | seven forward steps bring the property back, and no fewer do |
| SearchBar.EmptyTextKeysSilent | src/search_bar.rs:344-363 | no key emits a signal while the text is empty |
| SearchBar.SetAurStatus | src/search_bar.rs:297-313 | an error sets the error class and shows the message without its last character on a visible button; success clears all three; nothing else changes |
| SearchBar.OkClearsError | src/search_bar.rs:297-313 | success after an error leaves the indicator as if there had been none |
| SearchBar.TextChanged | src/search_bar.rs:366-401 | the clear button shows exactly for a non-empty text; an empty text clears the AUR status and emits "changed" then "aur-search" at once; any other text only starts the delay |
| SearchBar.TimerFired | src/search_bar.rs:386-396 | a pending delay emits "changed" once and is gone |
| SearchBar.EditsAreDebounced | src/search_bar.rs:375-398 | two edits before the delay runs out produce one "changed", for the later text |
| SearchBar.Activate | src/search_bar.rs:404-411 | Enter asks for an AUR search exactly when there is text |
| SearchBar.SetEnabled | src/search_bar.rs:322-334 | the revealer follows the flag; disabling empties the text, running the changed handler when there was text |
| SearchBar.ClearClicked | src/search_bar.rs:414-424 | the clear button empties the text, with the effect of deleting it |
| SearchBar.KeyCaptured | src/search_bar.rs:429-451 | a key forwarded to the entry while the bar is hidden and neither Alt nor Ctrl is held enables the bar; otherwise nothing changes |
| PackageView.FindColumn | src/package_view.rs:149 | the position of the first column with the id, and none exactly when no column has it |
| PackageView.MoveIndex | src/package_view.rs:150 | moving a column yields a view of the same length where every position holds the column it was moved from |
| PackageView.MoveSourceInjective | src/package_view.rs:150 | no two positions of a moved view come from the same column |
| PackageView.MoveMultiset | src/package_view.rs:150 | moving keeps the same columns |
| PackageView.InsertColumn | src/package_view.rs:150 | re-inserting a column of the view puts it at the position, keeps the columns before it and the set of columns, and keeps ids distinct; a position past the end leaves the view as it was |
| PackageView.HasColumnPermuted | src/package_view.rs:147-152 | rearranging the columns keeps every id |
| PackageView.PlaceFrom | src/package_view.rs:147-152 | the reordering loop only rearranges the columns and keeps ids distinct |
| PackageView.ShowListed | src/package_view.rs:156-158 | every column keeps its id and is visible exactly when its id is listed |
| PackageView.SortColumns | src/package_view.rs:143-159 | the column count is kept, a column is visible exactly when listed, and ids stay distinct |
| PackageView.SortColumnsKeepsIds | src/package_view.rs:143-159 | sorting loses and invents no column id |
| PackageView.ResetColumns | src/package_view.rs:164-166 | exactly the six default columns are visible |
| PackageView.Columns | src/package_view.rs:172-180 | the ids of the visible columns, one per visible column, in view order: the column ids with those of hidden columns deleted |
| PackageView.PlaceFromFront | src/package_view.rs:147-152 | for distinct ids that all exist, the loop leaves each listed id at its list position |
| PackageView.SortColumnsLayout | src/package_view.rs:143-159 | for distinct existing ids, the listed columns come first in list order and shown, and every other column is hidden |
| PackageView.SetThenGetColumns | src/package_view.rs:168-180 | reading the columns back after setting distinct existing ids yields exactly those ids, in order |
| PackageView.ShownPrefix | src/package_view.rs:172-180 | when the first n columns are the visible ones, they are what is read back |
| PackageView.ResetShowsDefaults | src/package_view.rs:164-180 | after a reset the visible columns read back as the six defaults, in their order |
| PackageView.GetSorting | src/package_view.rs:192-208 | the primary column's id and whether the order is ascending; "" and ascending without a primary column |
| PackageView.SetSorting | src/package_view.rs:182-190 | the first column with the id becomes primary, none when there is no such column; the order follows the flag |
| PackageView.SortingRoundTrip | src/package_view.rs:182-208 | a stored sorting reads back as the same id and order; an unknown id reads back as "" and ascending |
| LogDialog.Shown | src/log_dialog.rs:136-146 | the shown entries are exactly the model's entries the package filter lets through, in model order and once per passing entry |
| LogDialog.ButtonOffShowsAll | src/log_dialog.rs:144-146 | with the package button off every entry is shown, in order |
| LogDialog.MentionPasses | src/log_dialog.rs:133-142 | with the button on, any message mentioning "removed" anywhere passes |
| LogDialog.InstalledNeedsPrefix | src/log_dialog.rs:133 | "removed" passes on its own while "installed foo" does not: only the first alternative carries the "[ALPM] " prefix |
| LogDialog.DowngradeNeedsMore | src/log_dialog.rs:133 | "[ALPM] downgraded " alone does not pass but with one more character it does: ".+" belongs to the last alternative |
| LogDialog.NoDowngradeWithout | src/log_dialog.rs:133 | a message lacking one of the letters of "downgraded " never matches the last alternative |
| LogDialog.Header | src/log_dialog.rs:109-114 | the label is exactly "<n> line", followed by a single "s" exactly when n is not 1 and by nothing else |
| LogDialog.CopyText | src/log_dialog.rs:150-163 | nothing is copied when no entry is shown; otherwise the copy starts with the first shown entry's "[date time] message" line |
| LogDialog.CopyLinesRoundTrip | src/log_dialog.rs:151-160 | for entries without newlines the copy splits back into one line per shown entry, in order |
| LogDialog.Populate | src/log_dialog.rs:169-195 | an unreadable file adds nothing; otherwise the parsed lines, last line first, are appended to the model |
| LogDialog.PopulateNewestFirst | src/log_dialog.rs:183-191 | on an empty model entry k is the k-th parsed line from the end, and every entry is the parse of a line of the file |
| LogDialog.PopulateWrittenLog | src/log_dialog.rs:183-191 | a log written as newline-terminated lines yields its parsed lines in reverse order |
| LogWindow.ParamEnd | src/log_window.rs:277 | the end of the run of digits and semicolons starting at the position |
| LogWindow.EscapeLength | src/log_window.rs:277 | a sequence is recognised only at an escape character and spans at least three characters of the text |
| LogWindow.StripAnsi | src/log_window.rs:274-281 | stripping never lengthens the text |
| LogWindow.StripKeepsCharacters | src/log_window.rs:274-281 | every character left after stripping was in the text: the replacement is empty |
| LogWindow.PlainTextUnchanged | src/log_window.rs:274-281 | text without an escape character is left as it is |
| LogWindow.StripPlainPrefix | src/log_window.rs:274-281 | plain text before the rest is kept, and the rest is stripped on its own |
| LogWindow.StripSgr | src/log_window.rs:277 | a colour sequence of digits and semicolons ending in 'm' is removed whole |
| LogWindow.ParamEndAt | src/log_window.rs:277 | the parameters of a colour sequence end at the first character that is neither digit nor semicolon |
| LogWindow.StripCharsetReset | src/log_window.rs:277 | the charset reset ESC "(B" is removed whole |
| LogWindow.ColouredWord | src/log_window.rs:274-281 | a plain word between two colour sequences is exactly what remains |
| LogWindow.SinglePass | src/log_window.rs:281 | stripping is a single pass: removing an inner sequence does not make its surroundings a sequence again |
| LogWindow.Shown | src/log_window.rs:199-211 | the shown lines are exactly the model's lines the package filter lets through, in model order and once per passing line |
| LogWindow.ButtonOffShowsAll | src/log_window.rs:208-210 | with the package button off every line is shown, in order |
| LogWindow.WindowFilterWithinDialogFilter | src/log_window.rs:206 | a newline-free message other than the bare "downgraded " that the window's prefix filter passes would also pass the dialog's package pattern, once its "[ALPM] " category is put back (the bare "downgraded " passes the window's filter but not the dialog's, whose pattern needs a character after it) |
| LogWindow.MentionDoesNotPass | src/log_window.rs:206 | the window filters by prefix: "foo removed bar" is rejected although the dialog's pattern accepts it |
| LogWindow.Show | src/log_window.rs:257-325 | a non-empty model is kept; with no log nothing is added; otherwise the stripped log's parsed lines, last first |
| LogWindow.Clear | src/log_window.rs:245-251 | the model is emptied |
| LogWindow.ShowIdempotent | src/log_window.rs:262 | showing again after lines were added changes nothing, whatever the log |
| LogWindow.ClearThenShow | src/log_window.rs:245-307 | after clearing, showing rebuilds the lines from the given log |
| LogWindow.ShowNewestFirst | src/log_window.rs:291-307 | on an empty model line k is the k-th parsed line from the end, and each is the parse of a line of the log |
| LogWindow.ShowWrittenLog | src/log_window.rs:274-307 | a plain log written as newline-terminated lines yields its parsed lines in reverse order |
| LogWindow.PlainTerminated | src/log_window.rs:283 | terminating plain lines with newlines adds no escape character |
| LogWindow.Header | src/log_window.rs:311-314 | the label is exactly "<n> line", followed by a single "s" exactly when n is not 1 and by nothing else |
| LogWindow.CopyText | src/log_window.rs:216-237 | the copy starts with the title, the four-column header and its rule |
| LogWindow.CopyRowsRoundTrip | src/log_window.rs:219-236 | for rows without newlines the copy splits back into the title, header, rule and one row per shown line, in order |
| LogWindow.CopyEmpty | src/log_window.rs:234-236 | with no line shown the copy is the title, header and rule, each ending in a newline |

## Left out

- Widget plumbing is not modelled: templates, property bindings, popovers, cursors, redraws and clipboard access. Only the state a handler sets is modelled.
- Regular expressions are not interpreted. This covers the packager e-mail pattern, the link-list patterns of `set_text` and the log-line patterns of both log views and the details dialog. Their matches and parses are parameters, because the model has no regex engine. The exceptions are the ANSI pattern of `src/log_window.rs` and the log dialog's package pattern, which are written out by hand.
- Search filters set up in the windows' templates are not modelled. This covers the text filters of the log views and of the details dialog's files page; the model takes the filter as a parameter, because its configuration is not part of the source.
- libalpm and pyalpm calls are parameters: reverse-dependency lists, install reasons, versions, md5 sums and the configured repositories. Their implementations are not part of this model.
- Reading the log and PKGBUILD files, globbing the cache directories and listing the sync directory are parameters, because they are I/O.
- Floating point is left out. Sizes are rendered only as far as unit selection and "0 B"; the decimal digits of sizes come from float division and formatting crates.
- Date formatting is left out except for the zero-date sentinel, because it goes through datetime or GLib.
- Concurrency is left out: async loading, `spawn_blocking` and the parallel `par_lines`. `par_lines` is modelled as sequential `str::lines`, because rayon's `collect` keeps the order.
- The search bar's delay timer is a pending flag that fires when `TimerFired` is applied. The spinner and the search icon are not modelled.
- Pango's point-to-index mapping is an input: each gesture receives the byte index and whether the point is inside the layout.
- TextLayout: the pointer-motion handler `set_motion_cursor` (src/text_layout.rs:486-498) is not modelled, because it mostly sets the cursor. It is also where a drag moves `selection_end` while `is_selecting` holds. Without it, a layout reaches a selection with two different ends only through `SelectAll`, and that is the only way `Released` sees such a selection in the model.
- Markup escaping is taken to be the identity.
- Lower-casing and title-casing are ASCII approximations. This is enough for repository names and package names, which are ASCII.
- StatsDialog.Titlecase: the title-case library's English style rules (small words such as "of" or "and" kept lower-case inside a phrase, words with inner capitals left alone) are not modelled; repository names are single lower-case words or hyphenated compounds, where those rules do not apply.
- GTK's `insert_column` with a position past the end leaves the view unchanged in the model; `sort_columns` only passes positions of ids with a column.
- PackageView.GetSorting: reports ascending when there is no primary sort column. This is taken to be GTK's default; the toolkit is not part of this model.
- InfoPane.PropUrl: the source reads the repository through `repo_show()`, which is defined outside the source shown. The model reads the record's repository field.
- InfoPane.LinkHandler: requires a non-empty history with a selection, because the source computes `n_items() - 1` and `hist_index + 1` and would underflow otherwise.
- InfoPane.Select: of the selection's autoselect behaviour only the out-of-range case is modelled; the automatic selection GTK makes when items arrive while nothing is selected is not, since every history change in the pane sets the selection itself.
- Traits.NextOf: requires the value to be in the enum. The source searches an endless cycle and never returns for an absent value.
- LogDialog.Populate: entries have three fields (date, time, message), as the dialog builds them. The `caps.len() == 4` check is always true for a pattern with three groups, so it is not modelled.
- SearchBar.KeyCaptured: the forwarded key's effect on the text is left to the entry. It reaches the model as a separate `TextChanged`.
- PkgObjectFiles.Backup: `sort_unstable_by` is modelled by a stable sort. The source leaves the order of equal file names unspecified.
- HistoryList and PkgHistory: the list length is bounded by 2^32 so that `len() as u32` is exact; an append needs room under that bound.

## Findings

| source | as written | input that shows it | evidently intended | confidence | as-written member | corrected member |
|---|---|---|---|---|---|---|
| pacview.py:247-256 | the search text is compared as typed against the lower-cased description, because `on_search` (pacview.py:429) does not lower-case it | the search "GTK" and the description "GTK toolkit": the description lower-cases to "gtk toolkit", which does not contain "GTK" | the search text is lower-cased too, as the later `app/pacview.py:619` does, so the description search ignores case | not executed | ProtoPacview.UpperCaseDescriptionSearchFails | ProtoPacview.DescriptionSearchIgnoresCase |

=== FILE: app_object_types.dfy ===
/**
 * The earlier package object module of the second Python version
 * (app/object_types.py): its exact-value status lookup, and the rendering
 * of dependency lists as links. A dependency specifier such as
 * "python>=3.11: for the bindings" is split into the bare package name, the
 * version constraint and the description; only the name becomes a link.
 * Markup escaping is treated as the identity.
 */
module AppObjectTypes {
  import opened Wrappers
  import opened Strings
  import opened Sorting
  import opened PkgData
  import AppObjects

  /** The comparison operators, in the order the splitter tries them. */
  const DELIMITERS: seq<string> := [">=", "<=", "=", ">", "<"]

  /** A specifier split into bare name, version constraint and description. */
  datatype Specifier = Specifier(name: string, version: string, description: string)

  /** The first delimiter, in priority order from `from` on, that occurs anywhere in `s`. */
  function FirstPresentDelimiter(s: string, from: nat): (k: Option<nat>)
    requires from <= |DELIMITERS|
    decreases |DELIMITERS| - from
    ensures k.Some? ==> from <= k.value < |DELIMITERS| && Contains(s, DELIMITERS[k.value])
    ensures k.Some? ==> forall j :: from <= j < k.value ==> !Contains(s, DELIMITERS[j])
    ensures k.None? ==> forall j :: from <= j < |DELIMITERS| ==> !Contains(s, DELIMITERS[j])
  {
    if from == |DELIMITERS| then None
    else if Contains(s, DELIMITERS[from]) then Some(from)
    else FirstPresentDelimiter(s, from + 1)
  }

  /** An occurrence inside `a` is also one inside `a + b`. */
  lemma OccursInExtension(a: string, b: string, sub: string, i: nat)
    requires OccursAt(a, sub, i)
    ensures OccursAt(a + b, sub, i)
  {
    assert (a + b)[i..i + |sub|] == a[i..i + |sub|];
  }

  /** The first step of the split: the part before the first ':' and the ':'-prefixed rest. */
  function SplitDescription(s: string): (r: (string, string))
    ensures r.0 + r.1 == s
    ensures ':' !in r.0
    ensures r.1 == "" || r.1[0] == ':'
  {
    var (head, rest) := SplitOnce(s, ":");
    var description := if rest.Some? then ":" + rest.value else "";
    assert head + description == s;
    HeadHasNoColon(s);
    (head, description)
  }

  /** The part before the first ':' holds no ':'. */
  lemma HeadHasNoColon(s: string)
    ensures ':' !in SplitOnce(s, ":").0
  {
    var split := SplitOnce(s, ":");
    var head := split.0;
    forall i | 0 <= i < |head|
      ensures head[i] != ':'
    {
      if split.1.Some? {
        assert s[i] == (head + ":" + split.1.value)[i] == head[i];
      }
      assert !OccursAt(s, ":", i);
      assert s[i..i + 1] == [s[i]];
    }
  }

  /** The second step: the name part cut at the first occurrence of delimiter `k`. */
  function CutAtDelimiter(head: string, k: nat): (r: (string, string))
    requires k < |DELIMITERS| && Contains(head, DELIMITERS[k])
    ensures r.0 + r.1 == head
    ensures StartsWith(r.1, DELIMITERS[k])
    ensures !Contains(r.0, DELIMITERS[k])
  {
    var d := DELIMITERS[k];
    DelimiterNonEmpty(k);
    SplitAtFirst(head, d);
    var split := SplitOnce(head, d);
    (split.0, d + split.1.value)
  }

  /** No delimiter is empty. */
  lemma DelimiterNonEmpty(k: nat)
    requires k < |DELIMITERS|
    ensures |DELIMITERS[k]| > 0
  {
  }

  /** Splitting at the first `d` of a text containing it: the text is the part before, then `d`, then the rest. */
  lemma SplitAtFirst(head: string, d: string)
    requires |d| > 0 && Contains(head, d)
    ensures var split := SplitOnce(head, d);
      split.1.Some? && split.0 + (d + split.1.value) == head
      && !Contains(split.0, d) && StartsWith(d + split.1.value, d)
  {
    var split := SplitOnce(head, d);
    var name := split.0;
    var version := d + split.1.value;
    assert name + version == head by {
      assert name + d + split.1.value == name + (d + split.1.value);
    }
    FreeBeforeFirst(name, version, d);
    assert version[..|d|] == d;
  }

  /** The part before the first occurrence of a non-empty `d` does not contain `d`. */
  lemma FreeBeforeFirst(name: string, rest: string, d: string)
    requires |d| > 0
    requires forall j: nat :: j < |name| ==> !OccursAt(name + rest, d, j)
    ensures !Contains(name, d)
  {
    if Contains(name, d) {
      var i: nat :| i <= |name| && OccursAt(name, d, i);
      OccursInExtension(name, rest, d, i);
    }
  }

  /**
   * What the split promises: the three parts put back together give the
   * specifier; the description is empty or starts at the first ':'; the
   * version is empty when no delimiter occurs in the name part, and
   * otherwise starts with the delimiter of highest priority present in the
   * name part, which does not occur before it.
   */
  predicate IsSplitOf(r: Specifier, s: string)
  {
    && r.name + r.version + r.description == s
    && (r.description == "" || r.description[0] == ':')
    && ':' !in r.name + r.version
    && (r.version == "" ==> forall j :: 0 <= j < |DELIMITERS| ==> !Contains(r.name, DELIMITERS[j]))
    && (r.version != "" ==>
      exists k :: 0 <= k < |DELIMITERS| &&
        StartsWith(r.version, DELIMITERS[k]) && !Contains(r.name, DELIMITERS[k]) &&
        forall j :: 0 <= j < k ==> !Contains(r.name + r.version, DELIMITERS[j]))
  }

  /**
   * The `link` helper's split: at the first ':' into name part and
   * ':'-prefixed description, then the name part at the first occurrence of
   * the first delimiter (in the order >=, <=, =, >, <) it contains.
   */
  function SplitSpecifier(s: string): (r: Specifier)
    ensures IsSplitOf(r, s)
  {
    var (head, description) := SplitDescription(s);
    match FirstPresentDelimiter(head, 0)
    case None =>
      UncutIsSplit(s, head, description);
      Specifier(head, "", description)
    case Some(k) =>
      CutIsSplit(s, head, description, k);
      var (name, version) := CutAtDelimiter(head, k);
      Specifier(name, version, description)
  }

  /** Without any delimiter in the name part the whole name part is the name. */
  lemma UncutIsSplit(s: string, head: string, description: string)
    requires (head, description) == SplitDescription(s)
    requires forall j :: 0 <= j < |DELIMITERS| ==> !Contains(head, DELIMITERS[j])
    ensures IsSplitOf(Specifier(head, "", description), s)
  {
    assert head + "" == head;
  }

  /** Cutting the name part at the first delimiter present gives a split. */
  lemma CutIsSplit(s: string, head: string, description: string, k: nat)
    requires (head, description) == SplitDescription(s)
    requires k < |DELIMITERS| && Contains(head, DELIMITERS[k])
    requires forall j :: 0 <= j < k ==> !Contains(head, DELIMITERS[j])
    ensures var (name, version) := CutAtDelimiter(head, k);
      IsSplitOf(Specifier(name, version, description), s)
  {
    var (name, version) := CutAtDelimiter(head, k);
    DelimiterNonEmpty(k);
    assert name + version == head;
    assert name + version + description == s;
  }

  /** The delimiter priority beats position: in "a>b>=1" the later ">=" wins. */
  lemma DelimiterPriorityExample()
    ensures SplitSpecifier("a>b>=1") == Specifier("a>b", ">=1", "")
  {
    ExampleHasNoDescription();
    ExampleFirstDelimiter();
    ExampleCut();
  }

  /** "a>b>=1" has no ':', so all of it is the name part. */
  lemma ExampleHasNoDescription()
    ensures SplitDescription("a>b>=1") == ("a>b>=1", "")
  {
    NotInNotContains("a>b>=1", ':');
  }

  /** ">=" occurs in "a>b>=1", so it is the delimiter chosen. */
  lemma ExampleFirstDelimiter()
    ensures FirstPresentDelimiter("a>b>=1", 0) == Some(0)
  {
    var s := "a>b>=1";
    assert OccursAt(s, ">=", 3) by { assert s[3..5] == [s[3], s[4]]; }
  }

  /** The cut happens at the first ">=", position 3, not at the earlier ">". */
  lemma ExampleCut()
    ensures Contains("a>b>=1", DELIMITERS[0])
    ensures CutAtDelimiter("a>b>=1", 0) == ("a>b", ">=1")
  {
    var s := "a>b>=1";
    assert OccursAt(s, ">=", 3) by { assert s[3..5] == [s[3], s[4]]; }
    assert !OccursAt(s, ">=", 0) && !OccursAt(s, ">=", 1) && !OccursAt(s, ">=", 2) by {
      assert s[0..2] == [s[0], s[1]] && s[1..3] == [s[1], s[2]] && s[2..4] == [s[2], s[3]];
    }
    assert Find(s, ">=") == Some(3);
    assert s[..3] == "a>b" && ">=" + s[5..] == ">=1";
  }

  /** The opening of every rendered link, up to the target name. */
  const LINK_PREFIX: string := "<a href=\"pkg://"

  /**
   * The rendering of one specifier: a link whose target and label are the
   * bare name, followed by the constraint and the description as plain text.
   */
  function Link(spec: string): (r: string)
    ensures var p := SplitSpecifier(spec);
      StartsWith(r, LINK_PREFIX + p.name + "\">") &&
      EndsWith(r, p.name + "</a>" + p.version + p.description)
    ensures var p := SplitSpecifier(spec);
      |r| == |LINK_PREFIX + p.name + "\">"| + |p.name + "</a>" + p.version + p.description|
  {
    var p := SplitSpecifier(spec);
    var tail := p.name + "</a>" + p.version + p.description;
    AppendStartsEnds(LINK_PREFIX + p.name + "\">", tail);
    LINK_PREFIX + p.name + "\">" + tail
  }

  /** The separator between rendered links. */
  const LINK_SEPARATOR: string := "   "

  /** `pkglist_to_linkstr`: "None" for an empty list, else the sorted entries' links joined by three spaces. */
  function LinkStr(list: seq<string>): (r: string)
    ensures r == "None" <==> |list| == 0
    ensures |list| > 0 ==> exists sorted :: IsSortedPermutation(sorted, list) && r == Join(Map(sorted, Link), LINK_SEPARATOR)
  {
    if |list| == 0 then "None"
    else
      var links := Map(Sort(list), Link);
      assert |links| > 0;
      JoinStartsWithFirst(links, LINK_SEPARATOR);
      assert links[0][0] == LINK_PREFIX[0] == '<';
      assert Join(links, LINK_SEPARATOR)[0] == '<';
      Join(links, LINK_SEPARATOR)
  }

  /** `status`: a name only for an exact single installed value; every other value gives "". */
  function Status(flags: Flags): (s: string)
    ensures s != "" <==> IsSingleInstalledFlag(flags)
  {
    if flags == EXPLICIT then "explicit"
    else if flags == DEPENDENCY then "dependency"
    else if flags == OPTIONAL then "optional"
    else if flags == ORPHAN then "orphan"
    else ""
  }

  /**
   * `status_icon`: the stock icon for an exact single installed value, else "".
   * Each icon goes with exactly one status name.
   */
  function StatusIcon(flags: Flags): (s: string)
    ensures s != "" <==> IsSingleInstalledFlag(flags)
    ensures flags == EXPLICIT ==> s == "package-install"
    ensures flags == DEPENDENCY ==> s == "package-installed-updated"
    ensures flags == OPTIONAL ==> s == "package-installed-outdated"
    ensures flags == ORPHAN ==> s == "package-purge"
    ensures s == "package-install" <==> Status(flags) == "explicit"
    ensures s == "package-installed-updated" <==> Status(flags) == "dependency"
    ensures s == "package-installed-outdated" <==> Status(flags) == "optional"
    ensures s == "package-purge" <==> Status(flags) == "orphan"
  {
    if flags == EXPLICIT then "package-install"
    else if flags == DEPENDENCY then "package-installed-updated"
    else if flags == OPTIONAL then "package-installed-outdated"
    else if flags == ORPHAN then "package-purge"
    else ""
  }

  /** Where both object modules name a status they agree; for several bits at once only app/objects.py does. */
  lemma StatusVersusNewerObjects(flags: Flags)
    ensures IsSingleInstalledFlag(flags) ==> Status(flags) == AppObjects.Status(flags)
    ensures Status(EXPLICIT | DEPENDENCY) == "" && AppObjects.Status(EXPLICIT | DEPENDENCY) == "explicit"
  {
  }

  /** `install_script`: "Yes" or "No" from the scriptlet flag. */
  function InstallScript(hasScriptlet: bool): (s: string)
    ensures s == "Yes" <==> hasScriptlet
    ensures s == "No" <==> !hasScriptlet
  {
    if hasScriptlet then "Yes" else "No"
  }

  /** `files_list`: the first field of each local file entry, or empty when not installed. */
  function FilesList(localFiles: Option<seq<(string, int, int)>>): (r: seq<string>)
    ensures localFiles.None? ==> r == []
    ensures localFiles.Some? ==> |r| == |localFiles.value| && forall i :: 0 <= i < |r| ==> r[i] == localFiles.value[i].0
  {
    match localFiles
    case None => []
    case Some(files) => Map(files, (f: (string, int, int)) => f.0)
  }

  /** `int_to_sizestr`: like the later `size_to_str` but without the "0 B" case, so zero shows in unit B. */
  method IntToSizestr(value: int, formatScaled: (int, nat) -> string) returns (s: string)
    ensures exists unit: nat ::
      AppObjects.IsSizeUnit(value, unit) && s == formatScaled(value, unit) + " " + AppObjects.SIZE_UNITS[unit]
    ensures value == 0 ==> s == formatScaled(0, 0) + " B"
  {
    var unit := AppObjects.SizeUnit(value);
    if value == 0 {
      AppObjects.SmallSizeUnit(value);
      AppObjects.SizeUnitUnique(value, unit, 0);
    }
    s := formatScaled(value, unit) + " " + AppObjects.SIZE_UNITS[unit];
  }

  /** `download_size`: empty for installed packages, else the size text. */
  method DownloadSize(installed: bool, size: int, formatScaled: (int, nat) -> string) returns (s: string)
    ensures installed ==> s == ""
    ensures !installed ==> exists unit: nat ::
      AppObjects.IsSizeUnit(size, unit) && s == formatScaled(size, unit) + " " + AppObjects.SIZE_UNITS[unit]
  {
    if installed {
      return "";
    }
    s := IntToSizestr(size, formatScaled);
  }
}

=== FILE: app_objects.dfy ===
/**
 * The package object of the second Python version (app/objects.py). Its
 * `PkgStatus` flags have the same values as the Rust `PkgFlags`, so the
 * constants of PkgData are reused; the pyalpm package and its local
 * counterpart are inputs.
 */
module AppObjects {
  import opened Wrappers
  import opened Strings
  import opened Sorting
  import opened PkgData
  import RustPkg = PkgObjects
  import RustStatus = PkgObjectStatus

  /**
   * The pyalpm answers `PkgObject` reads. `files` already holds the file
   * names: pyalpm lists each file as a (name, size, mode) entry and the
   * `files` property keeps only the first field, a projection folded into
   * this input here and modelled by `AppObjectTypes.FilesList`.
   */
  datatype AlpmPkg = AlpmPkg(
    name: string,
    version: string,
    dbName: string,
    licenses: seq<string>,
    groups: seq<string>,
    size: int,
    installSize: int,
    installDate: int,
    files: seq<string>,
    backup: seq<string>)

  /** The `PkgObject` class: `PkgObject(pkg, (local_pkg, status_flags))`. */
  datatype AppPkgObject = AppPkgObject(pkg: AlpmPkg, localPkg: Option<AlpmPkg>, statusFlags: Flags)

  /** `PkgStatus` has the values of `PkgFlags`, and UPDATES lies outside ALL. */
  lemma PkgStatusValues()
    ensures EXPLICIT == 1 && DEPENDENCY == 2 && OPTIONAL == 4 && ORPHAN == 8
    ensures INSTALLED == 15 && NONE == 16 && ALL == 31 && UPDATES == 32
    ensures ALL & UPDATES == 0
  {
  }

  /** `status`: the name of the first set bit among explicit, dependency, optional, orphan, else "". */
  function Status(flags: Flags): (s: string)
    ensures s == "" <==> !Intersects(flags, INSTALLED)
    ensures s == "explicit" <==> Intersects(flags, EXPLICIT)
    ensures s == "dependency" <==> !Intersects(flags, EXPLICIT) && Intersects(flags, DEPENDENCY)
    ensures s == "optional" <==> flags & (EXPLICIT | DEPENDENCY) == 0 && Intersects(flags, OPTIONAL)
    ensures s == "orphan" <==> flags & (EXPLICIT | DEPENDENCY | OPTIONAL) == 0 && Intersects(flags, ORPHAN)
  {
    if Intersects(flags, EXPLICIT) then "explicit"
    else if Intersects(flags, DEPENDENCY) then "dependency"
    else if Intersects(flags, OPTIONAL) then "optional"
    else if Intersects(flags, ORPHAN) then "orphan"
    else ""
  }

  /** `status_icon`: "pkg-" + the status name, in the same priority order, else "". */
  function StatusIcon(flags: Flags): (s: string)
    ensures s == "" <==> !Intersects(flags, INSTALLED)
    ensures s != "" ==> s == "pkg-" + Status(flags)
  {
    InstalledBits(flags);
    IconNames();
    if Intersects(flags, EXPLICIT) then "pkg-explicit"
    else if Intersects(flags, DEPENDENCY) then "pkg-dependency"
    else if Intersects(flags, OPTIONAL) then "pkg-optional"
    else if Intersects(flags, ORPHAN) then "pkg-orphan"
    else ""
  }

  /** The icon names are the status names behind "pkg-". */
  lemma IconNames()
    ensures "pkg-explicit" == "pkg-" + "explicit" && "pkg-dependency" == "pkg-" + "dependency"
    ensures "pkg-optional" == "pkg-" + "optional" && "pkg-orphan" == "pkg-" + "orphan"
  {
  }

  /** Adding or removing UPDATES (or NONE) never changes the status or its icon. */
  lemma StatusIgnoresOtherBits(flags: Flags)
    ensures Status(flags | UPDATES) == Status(flags) && Status(flags | NONE) == Status(flags)
    ensures StatusIcon(flags | UPDATES) == StatusIcon(flags)
  {
  }

  /**
   * On the four single installed flags the priority chain agrees with the
   * Rust exact match (apart from "not installed" versus ""), but unlike the
   * Rust getter it still names the state once UPDATES is added.
   */
  lemma StatusAgreesWithRust(flags: Flags)
    requires IsSingleInstalledFlag(flags)
    ensures Status(flags) == RustStatus.Status(flags)
    ensures Status(flags | UPDATES) == RustStatus.Status(flags)
    ensures RustStatus.Status(flags | UPDATES) == "not installed"
  {
  }

  /** `repository`: the database name, with the local database shown as "AUR". */
  function Repository(o: AppPkgObject): (r: string)
    ensures o.pkg.dbName == "local" ==> r == "AUR"
    ensures o.pkg.dbName != "local" ==> r == o.pkg.dbName
  {
    if o.pkg.dbName != "local" then o.pkg.dbName else "AUR"
  }

  /** `version`: the installed version when installed, else the sync version. */
  function Version(o: AppPkgObject): (v: string)
    ensures o.localPkg.Some? ==> v == o.localPkg.value.version
    ensures o.localPkg.None? ==> v == o.pkg.version
  {
    match o.localPkg
    case Some(local) => local.version
    case None => o.pkg.version
  }

  /** `install_date_raw`: the local install date when installed, else the sync package's. */
  function InstallDateRaw(o: AppPkgObject): (d: int)
    ensures o.localPkg.Some? ==> d == o.localPkg.value.installDate
    ensures o.localPkg.None? ==> d == o.pkg.installDate
  {
    match o.localPkg
    case Some(local) => local.installDate
    case None => o.pkg.installDate
  }

  /** `licenses` and `group`: sorted members joined by ", ". */
  function CommaJoinSorted(items: seq<string>): (r: string)
    ensures exists sorted :: IsSortedPermutation(sorted, items) && r == Join(sorted, ", ")
  {
    Join(Sort(items), ", ")
  }

  /** Units of `size_to_str`, each 1024 times the previous. */
  const SIZE_UNITS: seq<string> := ["B", "KiB", "MiB", "GiB", "TiB", "PiB"]

  function Pow1024(k: nat): (p: nat)
    ensures p >= 1
  {
    if k == 0 then 1 else 1024 * Pow1024(k - 1)
  }

  /** `value` is still at least 1024 after scaling down to unit `k`, so the loop moves past it. */
  predicate PassesUnit(value: int, k: nat)
  {
    value >= Pow1024(k + 1)
  }

  /** `unit` is the first unit at which the scaled value is below 1024, or PiB. */
  predicate IsSizeUnit(value: int, unit: nat)
  {
    unit < |SIZE_UNITS|
    && (unit < |SIZE_UNITS| - 1 ==> !PassesUnit(value, unit))
    && (forall k :: 0 <= k < unit ==> PassesUnit(value, k))
  }

  /**
   * The unit `size_to_str` stops at. Division by 1024.0 is exact in binary
   * floating point, so the float test `value / 1024^k < 1024` is
   * `value < 1024^(k+1)`.
   */
  method SizeUnit(value: int) returns (unit: nat)
    ensures IsSizeUnit(value, unit)
  {
    unit := 0;
    while unit < |SIZE_UNITS| - 1 && PassesUnit(value, unit)
      invariant unit < |SIZE_UNITS|
      invariant forall k :: 0 <= k < unit ==> PassesUnit(value, k)
    {
      unit := unit + 1;
    }
  }

  /** The unit is determined by the value: at most one unit satisfies the rule. */
  lemma SizeUnitUnique(value: int, u1: nat, u2: nat)
    requires IsSizeUnit(value, u1) && IsSizeUnit(value, u2)
    ensures u1 == u2
  {
  }

  /** Values below 1024 stay in bytes. */
  lemma SmallSizeUnit(value: int)
    requires value < 1024
    ensures IsSizeUnit(value, 0)
  {
  }

  /**
   * `size_to_str`: exactly "0 B" for zero, otherwise the scaled number
   * (rendered by `formatScaled`, the float formatting) and the unit name.
   */
  method SizeToStr(value: int, formatScaled: (int, nat) -> string) returns (s: string)
    ensures value == 0 ==> s == "0 B"
    ensures value != 0 ==> exists unit: nat :: IsSizeUnit(value, unit) && s == formatScaled(value, unit) + " " + SIZE_UNITS[unit]
  {
    if value == 0 {
      return "0 B";
    }
    var unit := SizeUnit(value);
    s := formatScaled(value, unit) + " " + SIZE_UNITS[unit];
  }

  /**
   * `download_size`: empty for installed packages, otherwise the package's
   * download size rendered by `size_to_str`.
   */
  method DownloadSize(o: AppPkgObject, formatScaled: (int, nat) -> string) returns (s: string)
    ensures o.localPkg.Some? ==> s == ""
    ensures o.localPkg.None? && o.pkg.size == 0 ==> s == "0 B"
    ensures o.localPkg.None? && o.pkg.size != 0 ==> exists unit: nat ::
      IsSizeUnit(o.pkg.size, unit) && s == formatScaled(o.pkg.size, unit) + " " + SIZE_UNITS[unit]
  {
    if o.localPkg.Some? {
      return "";
    }
    s := SizeToStr(o.pkg.size, formatScaled);
  }

  /** `files`: the local package's file list, or empty when not installed. */
  function Files(o: AppPkgObject): (r: seq<string>)
    ensures o.localPkg.None? ==> r == []
    ensures o.localPkg.Some? ==> r == o.localPkg.value.files
  {
    match o.localPkg
    case Some(local) => local.files
    case None => []
  }

  /** `backup`: the local package's backup list, or empty when not installed. */
  function Backup(o: AppPkgObject): (r: seq<string>)
    ensures o.localPkg.None? ==> r == []
    ensures o.localPkg.Some? ==> r == o.localPkg.value.backup
  {
    match o.localPkg
    case Some(local) => local.backup
    case None => []
  }

  /** `date_to_str_short`/`date_to_str_long`: "" for 0, else the formatter's text. */
  function DateToStr(value: int, format: string, render: (int, string) -> string): (s: string)
    ensures value == 0 ==> s == ""
    ensures value != 0 ==> s == render(value, format)
  {
    if value != 0 then render(value, format) else ""
  }
}

=== FILE: app_pacview.dfy ===
/**
 * The main window logic of the second Python version (app/pacview.py):
 * the dependency links of the property grid, the three filters and the
 * string sorter of the package column view, and the part of
 * `populate_pkg_objects` that derives repository names from the sync
 * directory listing and classifies installed packages. pyalpm answers
 * (install reason, reverse dependencies) are inputs.
 */
module AppPacview {
  import opened Wrappers
  import opened Strings
  import opened Sorting
  import opened PkgData
  import AppObjectTypes

  /** One dependency link: target and label are the bare name, the rest follows as text. */
  function PlainLink(spec: string): (r: string)
    ensures var p := AppObjectTypes.SplitSpecifier(spec);
      StartsWith(r, "<a href=\"" + p.name + "\">") &&
      EndsWith(r, p.name + "</a>" + p.version + p.description)
    ensures var p := AppObjectTypes.SplitSpecifier(spec);
      |r| == |"<a href=\"" + p.name + "\">"| + |p.name + "</a>" + p.version + p.description|
  {
    var p := AppObjectTypes.SplitSpecifier(spec);
    var tail := p.name + "</a>" + p.version + p.description;
    AppendStartsEnds("<a href=\"" + p.name + "\">", tail);
    "<a href=\"" + p.name + "\">" + tail
  }

  /** `pkglist_to_linklist`: "None" for an empty list, else the sorted entries' links, one per line. */
  function LinkList(list: seq<string>): (r: string)
    ensures r == "None" <==> |list| == 0
    ensures |list| > 0 ==> exists sorted :: IsSortedPermutation(sorted, list) && r == Join(Map(sorted, PlainLink), "\n")
  {
    if |list| == 0 then "None"
    else
      var links := Map(Sort(list), PlainLink);
      JoinStartsWithFirst(links, "\n");
      assert links[0][0] == '<';
      assert Join(links, "\n")[0] == '<';
      Join(links, "\n")
  }

  /** The fields of a package object the column view filters on. */
  datatype Item = Item(
    name: string,
    description: string,
    group: string,
    repository: string,
    status: Flags,
    depends: seq<string>,
    optdepends: seq<string>)

  /** The filter state of `PkgColumnView`. */
  datatype ViewFilter = ViewFilter(
    repo: string,
    status: Flags,
    search: string,
    byName: bool,
    byDesc: bool,
    byGroup: bool,
    byDeps: bool,
    byOptdeps: bool)

  /** The property defaults: every repository, every status, no search, searching by name only. */
  const DEFAULT_FILTER: ViewFilter := ViewFilter("", ALL, "", true, false, false, false, false)

  /** `on_search_changed`: the entry text is lower-cased before it becomes the search. */
  function WithSearchText(f: ViewFilter, entryText: string): (r: ViewFilter)
    ensures r.search == Lower(entryText)
    ensures r.(search := f.search) == f
  {
    f.(search := Lower(entryText))
  }

  /** `filter_by_repo`: everything for "", otherwise the lower-cased repository must equal the selection. */
  predicate FilterByRepo(item: Item, f: ViewFilter)
  {
    f.repo == "" || Lower(item.repository) == f.repo
  }

  /** `filter_by_status`: the status bits share at least one bit with the selected mask. */
  predicate FilterByStatus(item: Item, f: ViewFilter)
  {
    Intersects(item.status, f.status)
  }

  /** Some member of `list` contains `text` (the non-empty list comprehension). */
  predicate AnyContains(list: seq<string>, text: string)
  {
    exists k :: 0 <= k < |list| && Contains(list[k], text)
  }

  /**
   * `filter_by_search`: everything for empty text, else a substring test on
   * each enabled field: the raw name, the lower-cased description and group,
   * and every depends or optdepends entry.
   */
  predicate FilterBySearch(item: Item, f: ViewFilter)
  {
    f.search == ""
    || (f.byName && Contains(item.name, f.search))
    || (f.byDesc && Contains(Lower(item.description), f.search))
    || (f.byGroup && Contains(Lower(item.group), f.search))
    || (f.byDeps && AnyContains(item.depends, f.search))
    || (f.byOptdeps && AnyContains(item.optdepends, f.search))
  }

  /** The three filters of the view's every-filter. */
  predicate Shown(item: Item, f: ViewFilter)
  {
    FilterByRepo(item, f) && FilterByStatus(item, f) && FilterBySearch(item, f)
  }

  /** With the defaults every classified package is shown: each of the five statuses lies inside ALL. */
  lemma DefaultShowsClassified(item: Item)
    requires IsSingleInstalledFlag(item.status) || item.status == NONE
    ensures Shown(item, DEFAULT_FILTER)
  {
  }

  /** The INSTALLED mask passes a classified package exactly when it is installed. */
  lemma InstalledMaskSelectsInstalled(item: Item, f: ViewFilter)
    requires IsSingleInstalledFlag(item.status) || item.status == NONE
    requires f.status == INSTALLED
    ensures FilterByStatus(item, f) <==> item.status != NONE
  {
  }

  /**
   * The description test ignores the case of what was typed: once the entry
   * text is lower-cased, any occurrence of it in the description, in any
   * case, is a match.
   */
  lemma DescriptionSearchIgnoresCase(item: Item, f: ViewFilter, entryText: string, i: nat)
    requires f.byDesc && OccursAt(Lower(item.description), Lower(entryText), i)
    ensures FilterBySearch(item, WithSearchText(f, entryText))
  {
  }

  /** Enabling more fields never hides a row the search already passed. */
  lemma SearchMonotone(item: Item, f: ViewFilter, g: ViewFilter)
    requires g.search == f.search
    requires (f.byName ==> g.byName) && (f.byDesc ==> g.byDesc) && (f.byGroup ==> g.byGroup)
    requires (f.byDeps ==> g.byDeps) && (f.byOptdeps ==> g.byOptdeps)
    requires FilterBySearch(item, f)
    ensures FilterBySearch(item, g)
  {
  }

  /** With every field disabled only the empty search passes. */
  lemma NoFieldsOnlyEmptySearch(item: Item, f: ViewFilter)
    requires !f.byName && !f.byDesc && !f.byGroup && !f.byDeps && !f.byOptdeps
    ensures FilterBySearch(item, f) <==> f.search == ""
  {
  }

  /** `sort_by_str`: -1, 1 or 0 as the lower-cased values are ordered. */
  function SortByStr(a: string, b: string): (r: int)
    ensures r == -1 || r == 0 || r == 1
    ensures r == 0 <==> Lower(a) == Lower(b)
    ensures r == -1 <==> LexLt(Lower(a), Lower(b))
    ensures r == 1 <==> LexLt(Lower(b), Lower(a))
  {
    var x, y := Lower(a), Lower(b);
    LexLeTotal(x, y);
    LexLtAsymmetric(x, y);
    if LexLt(x, y) then -1
    else if LexLt(y, x) then 1
    else 0
  }

  /** The comparator is antisymmetric, so the column sorts consistently. */
  lemma SortByStrAntisymmetric(a: string, b: string)
    ensures SortByStr(a, b) == -SortByStr(b, a)
  {
    LexLtAsymmetric(Lower(a), Lower(b));
  }

  /** A sync-directory entry that names a database file. */
  predicate IsDbFile(entry: string)
  {
    EndsWith(entry, ".db")
  }

  /** The repository name of an entry: the text before its first '.'. */
  function RepoName(entry: string): (r: string)
    ensures StartsWith(entry, r) && !Contains(r, ".")
    ensures r == entry || OccursAt(entry, ".", |r|)
  {
    BeforeFirst(entry, ".")
  }

  /** `populate_pkg_objects`: the sync-directory entries ending in ".db", each cut at its first '.'. */
  function DbNames(entries: seq<string>): (r: seq<string>)
    ensures |r| <= |entries|
    ensures forall i :: 0 <= i < |r| ==> !Contains(r[i], ".")
    ensures forall i :: 0 <= i < |r| ==> exists j :: 0 <= j < |entries| && IsDbFile(entries[j]) && r[i] == RepoName(entries[j])
    ensures forall j :: 0 <= j < |entries| && IsDbFile(entries[j]) ==> RepoName(entries[j]) in r
    ensures IsSubsequence(r, Map(entries, RepoName)) && |r| == CountWhere(entries, IsDbFile)
  {
    var files := Filter(entries, IsDbFile);
    MapFilterIsSubsequence(entries, IsDbFile, RepoName);
    FilterLength(entries, IsDbFile);
    var r := Map(files, RepoName);
    forall j | 0 <= j < |entries| && IsDbFile(entries[j])
      ensures RepoName(entries[j]) in r
    {
      var k :| 0 <= k < |files| && files[k] == entries[j];
      assert r[k] == RepoName(entries[j]);
    }
    r
  }

  /** A database file's repository name is followed by a '.' and holds no '.' itself. */
  lemma RepoNameOfDbFile(e: string)
    requires IsDbFile(e)
    ensures '.' !in RepoName(e)
    ensures StartsWith(e, RepoName(e) + ".")
  {
    var name := RepoName(e);
    assert OccursAt(e, ".", |e| - 3) by { assert e[|e| - 3..|e| - 2] == [e[|e| - 3]]; }
    assert Contains(e, ".");
    assert OccursAt(e, ".", |name|);
    assert e[..|name| + 1] == name + "." by { assert e[|name|..|name| + 1] == "."; }
    forall i | 0 <= i < |name|
      ensures name[i] != '.'
    {
      assert name[i..i + 1] == [name[i]];
      assert !OccursAt(name, ".", i);
    }
  }

  /** What the local database answers about an installed package; `reason` is pyalpm's raw integer. */
  datatype LocalInfo = LocalInfo(reason: int, requiredBy: seq<string>, optionalFor: seq<string>)

  /**
   * The status `populate_pkg_objects` assigns: NONE when not installed;
   * reason 0 is explicit; reason 1 is decided by the reverse dependencies;
   * any other reason keeps the NONE default although the package is local.
   */
  function Classify(local: Option<LocalInfo>): (f: Flags)
    ensures local.None? ==> f == NONE
    ensures local.Some? && local.value.reason == 0 ==> f == EXPLICIT
    ensures local.Some? && local.value.reason == 1 ==>
      (f == DEPENDENCY <==> |local.value.requiredBy| > 0) &&
      (f == OPTIONAL <==> |local.value.requiredBy| == 0 && |local.value.optionalFor| > 0) &&
      (f == ORPHAN <==> |local.value.requiredBy| == 0 && |local.value.optionalFor| == 0)
    ensures local.Some? && local.value.reason != 0 && local.value.reason != 1 ==> f == NONE
  {
    match local
    case None => NONE
    case Some(info) =>
      if info.reason == 0 then EXPLICIT
      else if info.reason == 1 then
        if |info.requiredBy| > 0 then DEPENDENCY
        else if |info.optionalFor| > 0 then OPTIONAL
        else ORPHAN
      else NONE
  }

  /** The libalpm reason a raw pyalpm reason stands for (0 explicit, 1 dependency). */
  function ReasonOf(reason: int): (r: Reason)
    requires reason == 0 || reason == 1
    ensures r == Explicit <==> reason == 0
  {
    if reason == 0 then Explicit else Depend
  }

  /** For the two reasons libalpm defines, the second Python version classifies like the Rust record constructor. */
  lemma ClassifyAgreesWithRust(info: LocalInfo, version: string, installDate: Option<int>)
    requires info.reason == 0 || info.reason == 1
    ensures Classify(Some(info)) ==
      InstalledStatus(LocalPkg(ReasonOf(info.reason), info.requiredBy, info.optionalFor, version, installDate))
  {
  }

  /** One object after the status pass: its local package (if listed locally) and its status. */
  function Populate(name: string, localDb: map<string, LocalInfo>): (r: (Option<LocalInfo>, Flags))
    ensures r.0.Some? <==> name in localDb
    ensures r.0.Some? ==> r.0.value == localDb[name]
    ensures r.1 == Classify(r.0)
    ensures name in localDb && localDb[name].reason != 0 && localDb[name].reason != 1 ==> r.0.Some? && r.1 == NONE
  {
    if name in localDb then (Some(localDb[name]), Classify(Some(localDb[name])))
    else (None, NONE)
  }
}

=== FILE: details_dialog.dfy ===
/**
 * The package details dialog (src/details_dialog.rs): which tabs are
 * usable, the log page (newest line first), and the cache page with its
 * blacklist of longer package names. Reading the log file, globbing the
 * cache directories and the log-line pattern are inputs.
 */
module DetailsDialog {
  import opened Wrappers
  import opened Strings
  import opened Sorting
  import opened PkgData
  import RustPkg = PkgObjects
  import RustFiles = PkgObjectFiles

  /** The tab buttons: sensitivity of files, log, cache and backup, and whether files is active. */
  datatype Stack = Stack(files: bool, log: bool, cache: bool, backup: bool, filesActive: bool)

  /** `update_ui_stack`: all four tabs follow `installed`; files is activated only for an installed package. */
  function UpdateUiStack(s: Stack, installed: bool): (r: Stack)
    ensures r.files == installed && r.log == installed && r.cache == installed && r.backup == installed
    ensures installed ==> r.filesActive
    ensures !installed ==> r.filesActive == s.filesActive
  {
    Stack(installed, installed, installed, installed, if installed then true else s.filesActive)
  }

  /** `show` passes whether the package intersects INSTALLED, on the flags with the update overlay. */
  function ShowStack(s: Stack, pkg: RustPkg.PkgObject): (r: Stack)
    ensures r.files <==> Intersects(RustPkg.DisplayFlags(pkg), INSTALLED)
  {
    UpdateUiStack(s, Intersects(RustPkg.DisplayFlags(pkg), INSTALLED))
  }

  /** The files page: the files the search lets through, the header, the two buttons. */
  datatype FilesPage = FilesPage(shown: seq<string>, header: string, openSensitive: bool, copySensitive: bool)

  /**
   * `update_ui_files_page`: every file of the package goes into the model;
   * the header and the buttons follow the number the search filter (an
   * input, configured in the dialog's template) lets through.
   */
  function UpdateFilesPage(files: seq<string>, visible: string -> bool): (p: FilesPage)
    ensures forall k :: 0 <= k < |p.shown| ==> p.shown[k] in files && visible(p.shown[k])
    ensures forall k :: 0 <= k < |files| && visible(files[k]) ==> files[k] in p.shown
    ensures IsSubsequence(p.shown, files) && |p.shown| == CountWhere(files, visible)
    ensures p.header == "Files (" + Decimal(CountWhere(files, visible)) + " of " + Decimal(|files|) + ")"
    ensures p.openSensitive <==> |p.shown| > 0
    ensures p.copySensitive == p.openSensitive
  {
    var shown := Filter(files, visible);
    FilterIsSubsequence(files, visible);
    FilterLength(files, visible);
    FilesPage(shown, "Files (" + Decimal(|shown|) + " of " + Decimal(|files|) + ")", |shown| > 0, |shown| > 0)
  }

  /** With an empty search every file is shown and the header reads "Files (n of n)". */
  lemma EmptySearchShowsAllFiles(files: seq<string>)
    ensures UpdateFilesPage(files, _ => true).shown == files
    ensures UpdateFilesPage(files, _ => true).header == "Files (" + Decimal(|files|) + " of " + Decimal(|files|) + ")"
  {
    FilterAll(files, _ => true);
  }

  /** The log page: the shown lines, the copy button, the error overlay. */
  datatype LogPage = LogPage(lines: seq<string>, copySensitive: bool, overlayVisible: bool)

  /**
   * `update_ui_logs_page` on a fresh model: the file's lines from last to
   * first, those matching the package's pattern rewritten for display.
   * An unreadable file shows the overlay and no lines.
   */
  function LogsPage(log: Option<seq<string>>, matches: string -> bool, rewrite: string -> string): (p: LogPage)
    ensures log.None? ==> p == LogPage([], false, true)
    ensures log.Some? ==> p.lines == Map(Filter(Reverse(log.value), matches), rewrite) && !p.overlayVisible
    ensures p.copySensitive <==> |p.lines| > 0
  {
    match log
    case None => LogPage([], false, true)
    case Some(lines) =>
      var shown := Map(Filter(Reverse(lines), matches), rewrite);
      LogPage(shown, |shown| > 0, false)
  }

  /** The log page lists the matching lines newest first: the file order of the kept lines, reversed. */
  lemma LogsNewestFirst(lines: seq<string>, matches: string -> bool, rewrite: string -> string)
    ensures LogsPage(Some(lines), matches, rewrite).lines == Reverse(Map(Filter(lines, matches), rewrite))
  {
    FilterReverse(lines, matches);
    RustFiles.MapReverse(Filter(lines, matches), rewrite);
  }

  /** Names of the snapshot packages that are this name followed by something more. */
  function Blacklist(name: string, snapshot: seq<RustPkg.PkgObject>): (r: seq<string>)
    ensures forall k :: 0 <= k < |r| ==> StartsWith(r[k], name) && r[k] != name
    ensures forall j :: 0 <= j < |snapshot| && StartsWith(snapshot[j].data.name, name) && snapshot[j].data.name != name ==>
      snapshot[j].data.name in r
  {
    var names := Map(snapshot, (p: RustPkg.PkgObject) => p.data.name);
    Filter(names, (n: string) => StartsWith(n, name) && n != name)
  }

  /** A cache file is kept unless its path contains a blacklisted name. */
  predicate Kept(path: string, blacklist: seq<string>)
  {
    forall k :: 0 <= k < |blacklist| ==> !Contains(path, blacklist[k])
  }

  /** The cache page: the files, the header, the two buttons, the error overlay. */
  datatype CachePage = CachePage(files: seq<string>, header: string, openSensitive: bool, copySensitive: bool,
                                 overlayVisible: bool)

  /** The kept-file test for a blacklist. */
  function KeptTest(blacklist: seq<string>): string -> bool
  {
    (p: string) => Kept(p, blacklist)
  }

  /** The paths of one glob result; a failed glob has none. */
  function GlobPaths(glob: Option<seq<string>>): seq<string>
  {
    match glob
    case None => []
    case Some(paths) => paths
  }

  /** The paths of every successful glob, in directory order. */
  function Globbed(globs: seq<Option<seq<string>>>): seq<string>
  {
    if |globs| == 0 then [] else GlobPaths(globs[0]) + Globbed(globs[1..])
  }

  /** The kept files of one directory's glob result; a failed glob gives none. */
  function GlobKept(glob: Option<seq<string>>, blacklist: seq<string>): (r: seq<string>)
    ensures forall k :: 0 <= k < |r| ==> Kept(r[k], blacklist) && glob.Some? && r[k] in glob.value
    ensures glob.Some? ==> forall k :: 0 <= k < |glob.value| && Kept(glob.value[k], blacklist) ==> glob.value[k] in r
  {
    match glob
    case None => []
    case Some(paths) => Filter(paths, KeptTest(blacklist))
  }

  /** The path is among the results of some glob that succeeded. */
  predicate FromSomeGlob(path: string, globs: seq<Option<seq<string>>>)
  {
    exists d :: 0 <= d < |globs| && globs[d].Some? && path in globs[d].value
  }

  /** A path found by a glob after the first is found by a glob of the whole list. */
  lemma FromLaterGlob(path: string, globs: seq<Option<seq<string>>>)
    requires |globs| > 0 && FromSomeGlob(path, globs[1..])
    ensures FromSomeGlob(path, globs)
  {
    var d :| 0 <= d < |globs[1..]| && globs[1..][d].Some? && path in globs[1..][d].value;
    assert globs[d + 1] == globs[1..][d];
  }

  /** The kept files of each directory's glob result, in directory order; a failed glob adds none. */
  function KeptFiles(globs: seq<Option<seq<string>>>, blacklist: seq<string>): (r: seq<string>)
    ensures forall k :: 0 <= k < |r| ==> Kept(r[k], blacklist)
    ensures forall d, k :: 0 <= d < |globs| && globs[d].Some? && 0 <= k < |globs[d].value| && Kept(globs[d].value[k], blacklist) ==>
      globs[d].value[k] in r
    ensures forall k :: 0 <= k < |r| ==> FromSomeGlob(r[k], globs)
  {
    if |globs| == 0 then []
    else
      var here := GlobKept(globs[0], blacklist);
      var rest := KeptFiles(globs[1..], blacklist);
      assert forall d :: 0 < d < |globs| ==> globs[d] == globs[1..][d - 1];
      assert forall k :: 0 <= k < |here| ==> FromSomeGlob(here[k], globs) by {
        forall k | 0 <= k < |here|
          ensures FromSomeGlob(here[k], globs)
        {
          assert globs[0].Some? && here[k] in globs[0].value;
        }
      }
      assert forall k :: 0 <= k < |rest| ==> FromSomeGlob(rest[k], globs) by {
        forall k | 0 <= k < |rest| {
          FromLaterGlob(rest[k], globs);
        }
      }
      here + rest
  }

  /**
   * The kept files are the successful globs' paths, in directory order and
   * then glob order, with the blacklisted ones deleted: one entry per kept
   * path, which is the number the header shows.
   */
  lemma {:induction false} KeptFilesInOrder(globs: seq<Option<seq<string>>>, blacklist: seq<string>)
    ensures KeptFiles(globs, blacklist) == Filter(Globbed(globs), KeptTest(blacklist))
    ensures IsSubsequence(KeptFiles(globs, blacklist), Globbed(globs))
    ensures |KeptFiles(globs, blacklist)| == CountWhere(Globbed(globs), KeptTest(blacklist))
    decreases |globs|
  {
    if |globs| > 0 {
      KeptFilesInOrder(globs[1..], blacklist);
      assert KeptFiles(globs, blacklist) == GlobKept(globs[0], blacklist) + KeptFiles(globs[1..], blacklist);
      assert GlobKept(globs[0], blacklist) == Filter(GlobPaths(globs[0]), KeptTest(blacklist));
      FilterAppend(GlobPaths(globs[0]), Globbed(globs[1..]), KeptTest(blacklist));
    }
    FilterIsSubsequence(Globbed(globs), KeptTest(blacklist));
    FilterLength(Globbed(globs), KeptTest(blacklist));
  }

  /**
   * `update_ui_cache_page` on a fresh model: the glob results (one per cache
   * directory, None when the pattern fails) without blacklisted files; the
   * header counts them; the buttons need at least one; any failed glob
   * shows the overlay.
   */
  function UpdateCachePage(name: string, globs: seq<Option<seq<string>>>, snapshot: seq<RustPkg.PkgObject>): (p: CachePage)
    ensures p.files == KeptFiles(globs, Blacklist(name, snapshot))
    ensures p.header == "Cache Files (" + Decimal(|p.files|) + ")"
    ensures p.openSensitive <==> |p.files| > 0
    ensures p.copySensitive <==> |p.files| > 0
    ensures p.overlayVisible <==> exists d :: 0 <= d < |globs| && globs[d].None?
    ensures p.header == "Cache Files (" + Decimal(CountWhere(Globbed(globs), KeptTest(Blacklist(name, snapshot)))) + ")"
  {
    var files := KeptFiles(globs, Blacklist(name, snapshot));
    KeptFilesInOrder(globs, Blacklist(name, snapshot));
    CachePage(files, "Cache Files (" + Decimal(|files|) + ")", |files| > 0, |files| > 0,
              exists d :: 0 <= d < |globs| && globs[d].None?)
  }

  /**
   * The cache file of a longer-named package in the snapshot (say
   * "foo-bar" for "foo") is never listed for this package, although the
   * glob "foo*.zst" matches it.
   */
  lemma OtherPackageFileDropped(name: string, snapshot: seq<RustPkg.PkgObject>, j: nat,
                                dir: string, version: string, release: string, arch: string)
    requires j < |snapshot| && StartsWith(snapshot[j].data.name, name) && snapshot[j].data.name != name
    ensures !Kept(dir + RustFiles.CacheFileName(snapshot[j].data.name, version, release, arch), Blacklist(name, snapshot))
  {
    var other := snapshot[j].data.name;
    var path := dir + RustFiles.CacheFileName(other, version, release, arch);
    var blacklist := Blacklist(name, snapshot);
    var k :| 0 <= k < |blacklist| && blacklist[k] == other;
    assert path[|dir|..|dir| + |other|] == other;
    assert OccursAt(path, other, |dir|);
  }

  /** A file kept for the package holds none of the longer names, so only the package's own files remain. */
  lemma KeptFileAvoidsLongerNames(name: string, globs: seq<Option<seq<string>>>, snapshot: seq<RustPkg.PkgObject>,
                                  k: nat, j: nat)
    requires k < |UpdateCachePage(name, globs, snapshot).files|
    requires j < |snapshot| && StartsWith(snapshot[j].data.name, name) && snapshot[j].data.name != name
    ensures !Contains(UpdateCachePage(name, globs, snapshot).files[k], snapshot[j].data.name)
  {
    var blacklist := Blacklist(name, snapshot);
    var i :| 0 <= i < |blacklist| && blacklist[i] == snapshot[j].data.name;
  }

  /** The backup page's header and buttons, for its `n` files. */
  datatype BackupPage = BackupPage(header: string, openSensitive: bool, copySensitive: bool)

  function UpdateBackupPage(backups: seq<RustFiles.PkgBackup>): (p: BackupPage)
    ensures p.header == "Backup Files (" + Decimal(|backups|) + ")"
    ensures p.openSensitive <==> |backups| > 0
    ensures p.copySensitive == p.openSensitive
  {
    BackupPage("Backup Files (" + Decimal(|backups|) + ")", |backups| > 0, |backups| > 0)
  }

  /** The banner: "<repository>/<name>". */
  function Banner(pkg: RustPkg.PkgObject): (s: string)
    ensures StartsWith(s, pkg.data.repository + "/") && EndsWith(s, pkg.data.name)
    ensures |s| == |pkg.data.repository| + 1 + |pkg.data.name|
  {
    AppendStartsEnds(pkg.data.repository + "/", pkg.data.name);
    pkg.data.repository + "/" + pkg.data.name
  }
}

=== FILE: groups_window.dfy ===
/**
 * The package-groups window (src/groups_window.rs): one row per
 * (package, group) pair, its search and installed filters, the Markdown
 * copy of the selection, and the header label.
 */
module GroupsWindow {
  import opened Wrappers
  import opened Strings
  import opened Sorting
  import opened PkgData
  import RustPkg = PkgObjects
  import RustStatus = PkgObjectStatus

  /** A row: package name, status text, status icon, and one group. */
  datatype GroupsObject = GroupsObject(package: string, status: string, icon: string, group: string)

  /** Which columns the search looks at. */
  datatype GroupsSearchMode = All | Groups | Packages

  /**
   * The search filter: an empty term (after lower-casing) passes every row;
   * otherwise the lower-cased package and/or group must contain it.
   */
  predicate SearchFilter(o: GroupsObject, mode: GroupsSearchMode, text: string)
  {
    var term := Lower(text);
    term == ""
    || match mode
      case All => Contains(Lower(o.package), term) || Contains(Lower(o.group), term)
      case Groups => Contains(Lower(o.group), term)
      case Packages => Contains(Lower(o.package), term)
  }

  /** The installed filter: when the button is active, rows whose status is "not installed" are hidden. */
  predicate InstalledFilter(o: GroupsObject, active: bool)
  {
    !active || o.status != "not installed"
  }

  /** A search in any letter case finds a group or package name that contains the text. */
  lemma SearchIgnoresCase(o: GroupsObject, mode: GroupsSearchMode, text: string, i: nat)
    requires mode != Packages && OccursAt(o.group, text, i)
    ensures SearchFilter(o, mode, text)
  {
    LowerKeepsOccurrence(o.group, text, i);
  }

  /** With the button active, a package's rows pass exactly when it has a single installed status. */
  lemma InstalledFilterFollowsFlags(p: RustPkg.PkgObject, k: nat)
    requires k < |RowsOf(p)|
    ensures InstalledFilter(RowsOf(p)[k], true) <==> IsSingleInstalledFlag(p.data.flags)
    ensures InstalledFilter(RowsOf(p)[k], false)
  {
  }

  /** Mode All passes exactly what Groups or Packages would pass. */
  lemma AllIsUnion(o: GroupsObject, text: string)
    ensures SearchFilter(o, All, text) <==> SearchFilter(o, Groups, text) || SearchFilter(o, Packages, text)
  {
  }

  /** The rows of one package: one per " | "-separated group, none when it has no groups. */
  function RowsOf(p: RustPkg.PkgObject): (r: seq<GroupsObject>)
    ensures p.data.groups == "" ==> r == []
    ensures p.data.groups != "" ==> |r| == |Split(p.data.groups, LIST_SEPARATOR)|
    ensures forall k :: 0 <= k < |r| ==>
      r[k] == GroupsObject(p.data.name, RustStatus.Status(p.data.flags), RustStatus.StatusIconSymbolic(p.data.flags),
                           Split(p.data.groups, LIST_SEPARATOR)[k])
  {
    if p.data.groups == "" then []
    else
      var groups := Split(p.data.groups, LIST_SEPARATOR);
      seq(|groups|, k requires 0 <= k < |groups| =>
        GroupsObject(p.data.name, RustStatus.Status(p.data.flags), RustStatus.StatusIconSymbolic(p.data.flags), groups[k]))
  }

  /** All packages' rows, in package order. */
  function Expand(pkgs: seq<RustPkg.PkgObject>): seq<GroupsObject>
  {
    if |pkgs| == 0 then [] else RowsOf(pkgs[0]) + Expand(pkgs[1..])
  }

  /** Every row comes from a package with groups, and names one of its groups. */
  lemma {:induction false} ExpandRowsComeFromGroups(pkgs: seq<RustPkg.PkgObject>, k: nat)
    requires k < |Expand(pkgs)|
    ensures
      exists j :: 0 <= j < |pkgs| && pkgs[j].data.groups != "" && Expand(pkgs)[k].package == pkgs[j].data.name
        && Expand(pkgs)[k].group in Split(pkgs[j].data.groups, LIST_SEPARATOR)
  {
    var first := RowsOf(pkgs[0]);
    if k < |first| {
      assert pkgs[0].data.groups != "";
      assert first[k].group == Split(pkgs[0].data.groups, LIST_SEPARATOR)[k];
    } else {
      assert Expand(pkgs)[k] == Expand(pkgs[1..])[k - |first|];
      ExpandRowsComeFromGroups(pkgs[1..], k - |first|);
      var j :| 0 <= j < |pkgs[1..]| && pkgs[1..][j].data.groups != "" && Expand(pkgs[1..])[k - |first|].package == pkgs[1..][j].data.name
        && Expand(pkgs[1..])[k - |first|].group in Split(pkgs[1..][j].data.groups, LIST_SEPARATOR);
      assert pkgs[j + 1] == pkgs[1..][j];
    }
  }

  /**
   * A package whose groups field is a sorted join (as `PkgData::from_alpm`
   * builds it) gets one row per group, in sorted order.
   */
  lemma JoinedGroupsRows(p: RustPkg.PkgObject, items: seq<string>)
    requires p.data.groups == JoinSorted(items) && |items| > 0
    requires forall k :: 0 <= k < |items| ==> SeparatorFree(items[k]) && items[k] != ""
    ensures IsSortedPermutation(Map(RowsOf(p), (o: GroupsObject) => o.group), items)
  {
    JoinSortedSplits(items);
    var sorted := Sort(items);
    JoinStartsWithFirst(sorted, LIST_SEPARATOR);
    assert sorted[0] in multiset(items);
    assert |p.data.groups| >= |sorted[0]| > 0;
    assert Map(RowsOf(p), (o: GroupsObject) => o.group) == Split(p.data.groups, LIST_SEPARATOR);
  }

  /** `show`: the model is filled from the package list only while it is empty. */
  function Show(model: seq<GroupsObject>, pkgs: seq<RustPkg.PkgObject>): (r: seq<GroupsObject>)
    ensures |model| > 0 ==> r == model
    ensures |model| == 0 ==> r == Expand(pkgs)
  {
    if |model| == 0 then Expand(pkgs) else model
  }

  /** Showing twice fills the model once. */
  lemma ShowIdempotent(model: seq<GroupsObject>, pkgs: seq<RustPkg.PkgObject>)
    requires |Expand(pkgs)| > 0
    ensures Show(Show(model, pkgs), pkgs) == Show(model, pkgs)
  {
  }

  /** `remove_all`: the model is emptied. */
  function RemoveAll(model: seq<GroupsObject>): (r: seq<GroupsObject>)
    ensures |r| == 0
  {
    []
  }

  /** After `remove_all`, `show` rebuilds the rows from the current package list. */
  lemma RemoveAllThenShow(model: seq<GroupsObject>, pkgs: seq<RustPkg.PkgObject>)
    ensures Show(RemoveAll(model), pkgs) == Expand(pkgs)
  {
  }

  /** The Markdown header line of a group. */
  function HeaderLine(group: string): string
  {
    "|**" + group + "**||"
  }

  /** The Markdown line of a row. */
  function RowLine(o: GroupsObject): string
  {
    "|" + o.package + "|" + o.status + "|"
  }

  /** The copy loop's lines: a header whenever the group differs from the previous row's (initially ""), then the row. */
  function CopyLines(rows: seq<GroupsObject>, previous: string): seq<string>
  {
    if |rows| == 0 then []
    else Block(rows[0], previous) + CopyLines(rows[1..], rows[0].group)
  }

  /** The lines for one row, given the group before it. */
  function Block(o: GroupsObject, previous: string): (r: seq<string>)
    ensures |r| == (if o.group != previous then 2 else 1)
    ensures r[|r| - 1] == RowLine(o)
  {
    (if o.group != previous then [HeaderLine(o.group)] else []) + [RowLine(o)]
  }

  /** The number of rows whose group differs from the row before (the first compared with `previous`). */
  function Changes(rows: seq<GroupsObject>, previous: string): nat
  {
    if |rows| == 0 then 0
    else (if rows[0].group != previous then 1 else 0) + Changes(rows[1..], rows[0].group)
  }

  /** The copy has exactly one line per row plus one header per change of group. */
  lemma {:induction false} CopyLineCount(rows: seq<GroupsObject>, previous: string)
    ensures |CopyLines(rows, previous)| == |rows| + Changes(rows, previous)
  {
    if |rows| > 0 {
      CopyLineCount(rows[1..], rows[0].group);
    }
  }

  /** Every row's line is in the copy. */
  lemma {:induction false} CopyHasEveryRow(rows: seq<GroupsObject>, previous: string, k: nat)
    requires k < |rows|
    ensures RowLine(rows[k]) in CopyLines(rows, previous)
  {
    var b := Block(rows[0], previous);
    if k == 0 {
      assert CopyLines(rows, previous)[|b| - 1] == b[|b| - 1];
    } else {
      CopyHasEveryRow(rows[1..], rows[0].group, k - 1);
      assert rows[1..][k - 1] == rows[k];
    }
  }

  /** Rows that all belong to one non-empty group get exactly one header. */
  lemma {:induction false} OneGroupOneHeader(rows: seq<GroupsObject>, g: string, previous: string)
    requires |rows| > 0 && previous != g
    requires forall k :: 0 <= k < |rows| ==> rows[k].group == g
    ensures Changes(rows, previous) == 1
  {
    SameGroupNoChange(rows[1..], g);
  }

  lemma {:induction false} SameGroupNoChange(rows: seq<GroupsObject>, g: string)
    requires forall k :: 0 <= k < |rows| ==> rows[k].group == g
    ensures Changes(rows, g) == 0
  {
    if |rows| > 0 {
      SameGroupNoChange(rows[1..], g);
    }
  }

  /** The clipboard text: a title and table header, then one newline-terminated line each. */
  function CopyText(rows: seq<GroupsObject>): (r: string)
    ensures StartsWith(r, "## Pacman Groups\n|Package Name|Status|\n|---|---|\n")
  {
    var head := "## Pacman Groups\n|Package Name|Status|\n|---|---|\n";
    AppendStartsEnds(head, Lines(CopyLines(rows, "")));
    head + Lines(CopyLines(rows, ""))
  }

  /** Lines joined with a newline after each. */
  function Lines(lines: seq<string>): string
  {
    if |lines| == 0 then "" else lines[0] + "\n" + Lines(lines[1..])
  }

  /** The distinct groups among the rows. */
  function GroupSet(rows: seq<GroupsObject>): set<string>
  {
    set k | 0 <= k < |rows| :: rows[k].group
  }

  /** There are never more distinct groups than rows, and some whenever there are rows. */
  lemma {:induction false} GroupSetSize(rows: seq<GroupsObject>)
    ensures |GroupSet(rows)| <= |rows|
    ensures |rows| > 0 ==> |GroupSet(rows)| > 0
  {
    if |rows| > 0 {
      GroupSetSize(rows[1..]);
      assert GroupSet(rows) == GroupSet(rows[1..]) + {rows[0].group} by {
        forall x | x in GroupSet(rows)
          ensures x in GroupSet(rows[1..]) + {rows[0].group}
        {
          var k :| 0 <= k < |rows| && rows[k].group == x;
          if k > 0 {
            assert rows[1..][k - 1] == rows[k];
          }
        }
        forall x | x in GroupSet(rows[1..])
          ensures x in GroupSet(rows)
        {
          var k :| 0 <= k < |rows[1..]| && rows[1..][k].group == x;
          assert rows[k + 1] == rows[1..][k];
        }
      }
      assert rows[0].group in GroupSet(rows);
    }
  }

  /** What the selection-changed handler sets: the empty page, the header label and the copy button. */
  datatype Header = Header(emptyVisible: bool, subtitle: string, copySensitive: bool)

  /** The header after a selection change: "<n> packages in <k> group(s)" with k the number of distinct groups. */
  function UpdateHeader(rows: seq<GroupsObject>): (h: Header)
    ensures h.emptyVisible <==> |rows| == 0
    ensures h.copySensitive <==> |rows| > 0
    ensures StartsWith(h.subtitle, Decimal(|rows|) + " packages in " + Decimal(|GroupSet(rows)|) + " group")
    ensures EndsWith(h.subtitle, "s") <==> |GroupSet(rows)| != 1
    ensures |h.subtitle| == |Decimal(|rows|) + " packages in " + Decimal(|GroupSet(rows)|) + " group"| +
      (if |GroupSet(rows)| == 1 then 0 else 1)
  {
    var sections := CountLabel(|GroupSet(rows)|, "group");
    var prefix := Decimal(|rows|) + " packages in ";
    PrefixUnderPrefix(prefix, sections, Decimal(|GroupSet(rows)|) + " group");
    SuffixUnderPrefix(prefix, sections, "s");
    assert prefix + (Decimal(|GroupSet(rows)|) + " group") == prefix + Decimal(|GroupSet(rows)|) + " group";
    Header(|rows| == 0, prefix + sections, |rows| > 0)
  }
}

=== FILE: history_list.dfy ===
/**
 * The back/forward history of the Rust details window (src/history_list.rs):
 * a list of packages and a `u32` current position, with GTK's
 * `INVALID_LIST_POSITION` (u32::MAX) for "nothing selected". Lengths are
 * read through `len() as u32`, which the model writes out as a remainder.
 */
module HistoryList {
  import opened Wrappers
  import opened Utf8
  import RustPkg = PkgObjects

  /** gtk::INVALID_LIST_POSITION. */
  const INVALID: nat := 0xFFFF_FFFF

  type U32 = n: nat | n < U32_LIMIT

  /** The list and the current position. */
  datatype HistoryState = HistoryState(list: seq<RustPkg.PkgObject>, current: U32)

  /** What `pkg.name()` reads. */
  function Name(p: RustPkg.PkgObject): string
  {
    p.data.name
  }

  /** The position is either INVALID or an index into the list. */
  predicate Valid(h: HistoryState)
  {
    h.current == INVALID || h.current < |h.list|
  }

  /** The constructed object: an empty list and the INVALID default. */
  const EMPTY: HistoryState := HistoryState([], INVALID)

  /** `len`: the length as `u32`. */
  function Len(h: HistoryState): (n: U32)
    ensures |h.list| < U32_LIMIT ==> n == |h.list|
    ensures n <= |h.list|
  {
    AsU32(|h.list|)
  }

  /** `set_current`: the index when it is below `len`, else INVALID; the list is untouched. */
  function SetCurrent(h: HistoryState, index: U32): (r: HistoryState)
    ensures r.list == h.list && Valid(r)
    ensures index < Len(h) ==> r.current == index
    ensures index >= Len(h) ==> r.current == INVALID
  {
    if index < Len(h) then h.(current := index) else h.(current := INVALID)
  }

  /** `current_item`: None exactly for INVALID, else the element at the position. */
  function CurrentItem(h: HistoryState): (r: Option<RustPkg.PkgObject>)
    requires Valid(h)
    ensures r.None? <==> h.current == INVALID
    ensures r.Some? ==> h.current < |h.list| && r.value == h.list[h.current]
  {
    if h.current == INVALID then None
    else Some(h.list[h.current])
  }

  /** `peek_previous`: a position exists and is not the first. */
  predicate PeekPrevious(h: HistoryState)
  {
    h.current != INVALID && h.current > 0
  }

  /** `peek_next`: `current + 1` does not overflow `u32` and is below `len`. */
  predicate PeekNext(h: HistoryState)
  {
    h.current + 1 < U32_LIMIT && h.current + 1 < Len(h)
  }

  /** Under the invariant, a next entry exists exactly when the position is not the last index. */
  lemma PeekNextMeaning(h: HistoryState)
    requires Valid(h) && |h.list| < U32_LIMIT
    ensures PeekNext(h) <==> h.current != INVALID && h.current + 1 < |h.list|
  {
  }

  /** `init`: the list becomes [item] at position 0, or empty with no position. */
  function Init(item: Option<RustPkg.PkgObject>): (r: HistoryState)
    ensures Valid(r)
    ensures item.None? ==> r == EMPTY
    ensures item.Some? ==> r.list == [item.value] && r.current == 0
    ensures CurrentItem(r) == item
  {
    match item
    case None => SetCurrent(HistoryState([], INVALID), INVALID)
    case Some(x) => SetCurrent(HistoryState([x], INVALID), 0)
  }

  /** `move_previous`: one step back when possible, else nothing changes. */
  function MovePrevious(h: HistoryState): (r: HistoryState)
    requires Valid(h)
    ensures Valid(r) && r.list == h.list
    ensures PeekPrevious(h) && |h.list| < U32_LIMIT ==> r.current + 1 == h.current
    ensures !PeekPrevious(h) ==> r == h
  {
    if PeekPrevious(h) then SetCurrent(h, h.current - 1) else h
  }

  /** `move_next`: one step forward when possible, else nothing changes. */
  function MoveNext(h: HistoryState): (r: HistoryState)
    requires Valid(h)
    ensures Valid(r) && r.list == h.list
    ensures PeekNext(h) ==> r.current == h.current + 1
    ensures !PeekNext(h) ==> r == h
  {
    if PeekNext(h) then SetCurrent(h, h.current + 1) else h
  }

  /** Stepping forward and back again returns to the same state. */
  lemma NextThenPrevious(h: HistoryState)
    requires Valid(h) && PeekNext(h)
    ensures MovePrevious(MoveNext(h)) == h
  {
  }

  /** Stepping back and forward again returns to the same state. */
  lemma PreviousThenNext(h: HistoryState)
    requires Valid(h) && PeekPrevious(h) && |h.list| < U32_LIMIT
    ensures MoveNext(MovePrevious(h)) == h
  {
  }

  /** The first position whose package has the given name. */
  function FindName(list: seq<RustPkg.PkgObject>, name: string): (r: Option<nat>)
    ensures r.Some? ==> r.value < |list| && Name(list[r.value]) == name
    ensures r.Some? ==> forall j :: 0 <= j < r.value ==> Name(list[j]) != name
    ensures r.None? ==> forall j :: 0 <= j < |list| ==> Name(list[j]) != name
  {
    if |list| == 0 then None
    else if Name(list[0]) == name then Some(0)
    else match FindName(list[1..], name)
      case None => None
      case Some(i) => Some(i + 1)
  }

  /** The length the list is cut to before an append: just past the position, when that is inside the list. */
  function KeepLength(h: HistoryState): (n: nat)
    ensures n <= |h.list|
    ensures PeekNext(h) ==> n == h.current + 1
    ensures !PeekNext(h) ==> n == |h.list|
  {
    if h.current + 1 < U32_LIMIT && h.current + 1 < Len(h) then h.current + 1 else |h.list|
  }

  /**
   * `set_current_or_make_last`: a package already listed (by name) only
   * becomes current; otherwise the entries after the position are dropped,
   * the package is appended and becomes current.
   */
  function SetCurrentOrMakeLast(h: HistoryState, item: RustPkg.PkgObject): (r: HistoryState)
    requires Valid(h)
    ensures Valid(r)
    ensures FindName(h.list, Name(item)).Some? ==>
      r.list == h.list && (|h.list| < U32_LIMIT ==> r.current == FindName(h.list, Name(item)).value)
    ensures FindName(h.list, Name(item)).None? ==>
      r.list == h.list[..KeepLength(h)] + [item] &&
      (|r.list| < U32_LIMIT ==> r.current == |r.list| - 1)
  {
    match FindName(h.list, Name(item))
    case Some(index) =>
      SetCurrent(h, AsU32(index))
    case None =>
      var list := h.list[..KeepLength(h)] + [item];
      SetCurrent(HistoryState(list, h.current), AsU32(|list| - 1))
  }

  /** After visiting a package it is the current item, whether it was listed or appended. */
  lemma VisitMakesCurrent(h: HistoryState, item: RustPkg.PkgObject)
    requires Valid(h) && |h.list| + 1 < U32_LIMIT
    ensures var r := SetCurrentOrMakeLast(h, item);
      CurrentItem(r).Some? && Name(CurrentItem(r).value) == Name(item)
  {
  }

  /** Visiting a new package from a valid position keeps the history up to it, so "back" returns there. */
  lemma VisitThenBack(h: HistoryState, item: RustPkg.PkgObject)
    requires Valid(h) && h.current != INVALID && |h.list| + 1 < U32_LIMIT
    requires FindName(h.list, Name(item)).None?
    ensures var r := SetCurrentOrMakeLast(h, item);
      r.list[..h.current + 1] == h.list[..h.current + 1] &&
      MovePrevious(r).current == h.current
  {
  }
}

=== FILE: info_pane.dfy ===
/**
 * The navigation logic of the Rust info pane (src/info_pane.rs): a history
 * list behind a `gtk::SingleSelection`, the handler that follows a
 * dependency link to a package, back/forward display, and the package-page
 * URL of its property list. The package model the handler searches is an
 * input; history membership is object identity, modelled as equality.
 */
module InfoPane {
  import opened Wrappers
  import opened Strings
  import opened Utf8
  import opened PkgData
  import RustPkg = PkgObjects
  import RustUrls = PkgObjectUrls
  import HistoryList

  /** The history, the selected position (INVALID for none) and the package on display. */
  datatype Pane = Pane(history: seq<RustPkg.PkgObject>, selected: nat, displayed: Option<RustPkg.PkgObject>)

  /** The selection is none or an index, and the length fits a `u32`. */
  predicate Valid(p: Pane)
  {
    |p.history| < U32_LIMIT && (p.selected == HistoryList.INVALID || p.selected < |p.history|)
  }

  /**
   * `SingleSelection::set_selected` on a selection with autoselect on (the
   * default the pane keeps): a position inside the list becomes the
   * selection; a position past the end changes nothing.
   */
  function Select(history: seq<RustPkg.PkgObject>, current: nat, position: nat): (s: nat)
    ensures position < |history| ==> s == position
    ensures position >= |history| ==> s == current
  {
    if position < |history| then position else current
  }

  /** `SingleSelection::selected_item`. */
  function SelectedItem(p: Pane): (r: Option<RustPkg.PkgObject>)
    ensures r.Some? <==> p.selected < |p.history|
    ensures r.Some? ==> r.value == p.history[p.selected]
  {
    if p.selected < |p.history| then Some(p.history[p.selected]) else None
  }

  /** A package that provides something whose text contains the link. */
  predicate ProvidesMatch(pkg: RustPkg.PkgObject, link: string)
  {
    exists k :: 0 <= k < |pkg.data.providesList| && Contains(pkg.data.providesList[k], link)
  }

  /** The first package of the model satisfying `matches`. */
  function FindFirst(model: seq<RustPkg.PkgObject>, matches: RustPkg.PkgObject -> bool): (r: Option<nat>)
    ensures r.Some? ==> r.value < |model| && matches(model[r.value])
    ensures r.Some? ==> forall j :: 0 <= j < r.value ==> !matches(model[j])
    ensures r.None? ==> forall j :: 0 <= j < |model| ==> !matches(model[j])
  {
    if |model| == 0 then None
    else if matches(model[0]) then Some(0)
    else match FindFirst(model[1..], matches)
      case None => None
      case Some(i) => Some(i + 1)
  }

  /** The package a link leads to: an exact name match first, then the first provider of a containing name. */
  function LinkTarget(model: seq<RustPkg.PkgObject>, link: string): (r: Option<RustPkg.PkgObject>)
    ensures (exists j :: 0 <= j < |model| && HistoryList.Name(model[j]) == link) ==>
      r.Some? && HistoryList.Name(r.value) == link
    ensures r.Some? && HistoryList.Name(r.value) != link ==>
      ProvidesMatch(r.value, link) && forall j :: 0 <= j < |model| ==> HistoryList.Name(model[j]) != link
    ensures r.None? <==> forall j :: 0 <= j < |model| ==> HistoryList.Name(model[j]) != link && !ProvidesMatch(model[j], link)
    ensures r.Some? ==> r.value in model
    ensures r.Some? ==>
      exists i :: 0 <= i < |model| && r.value == model[i] &&
        (HistoryList.Name(model[i]) == link ==> forall j :: 0 <= j < i ==> HistoryList.Name(model[j]) != link) &&
        (HistoryList.Name(model[i]) != link ==> forall j :: 0 <= j < i ==> !ProvidesMatch(model[j], link))
  {
    match FindFirst(model, pkg => HistoryList.Name(pkg) == link)
    case Some(i) =>
      assert forall j :: 0 <= j < i ==> HistoryList.Name(model[j]) != link;
      Some(model[i])
    case None =>
      match FindFirst(model, pkg => ProvidesMatch(pkg, link))
      case Some(i) =>
        assert forall j :: 0 <= j < i ==> !ProvidesMatch(model[j], link);
        Some(model[i])
      case None => None
  }

  /** The first history position holding exactly this package object. */
  function IndexOf(history: seq<RustPkg.PkgObject>, pkg: RustPkg.PkgObject): (r: Option<nat>)
    ensures r.Some? ==> r.value < |history| && history[r.value] == pkg
    ensures r.None? <==> pkg !in history
  {
    FindFirst(history, p => p == pkg)
  }

  /**
   * `link_handler`: follow a link. Nothing happens when no package matches.
   * A package already in the history is only selected; otherwise the entries
   * after the selection are removed, the package is appended and selected.
   * The handler reads `n_items() - 1` and writes `selected + 1` in `u32`, so
   * it relies on a non-empty history with a selection.
   */
  function LinkHandler(p: Pane, model: seq<RustPkg.PkgObject>, link: string): (r: Pane)
    requires Valid(p) && |p.history| > 0 && p.selected < |p.history| && |p.history| + 1 < U32_LIMIT
    ensures Valid(r)
    ensures LinkTarget(model, link).None? ==> r == p
    ensures LinkTarget(model, link).Some? ==> r.displayed == LinkTarget(model, link) && SelectedItem(r) == LinkTarget(model, link)
    ensures LinkTarget(model, link).Some? && LinkTarget(model, link).value in p.history ==> r.history == p.history
    ensures LinkTarget(model, link).Some? && LinkTarget(model, link).value !in p.history ==>
      r.history == p.history[..p.selected + 1] + [LinkTarget(model, link).value] && r.selected == p.selected + 1
  {
    match LinkTarget(model, link)
    case None => p
    case Some(pkg) =>
      match IndexOf(p.history, pkg)
      case Some(i) =>
        Pane(p.history, Select(p.history, p.selected, i), Some(pkg))
      case None =>
        var kept := if p.selected < |p.history| - 1 then p.history[..p.selected + 1] else p.history;
        assert kept == p.history[..p.selected + 1];
        var history := kept + [pkg];
        Pane(history, Select(history, p.selected, p.selected + 1), Some(pkg))
  }

  /** A link that is followed and then undone with "previous" brings back the package shown before. */
  lemma LinkThenBack(p: Pane, model: seq<RustPkg.PkgObject>, link: string)
    requires Valid(p) && |p.history| > 0 && p.selected < |p.history| && |p.history| + 1 < U32_LIMIT
    requires LinkTarget(model, link).Some? && LinkTarget(model, link).value !in p.history
    ensures DisplayPrev(LinkHandler(p, model, link)).displayed == SelectedItem(p)
  {
  }

  /** `display_prev`: select the previous entry when the selection is above 0, and show it if there is one. */
  function DisplayPrev(p: Pane): (r: Pane)
    requires Valid(p)
    ensures Valid(r) && r.history == p.history
    ensures p.selected == 0 ==> r == p
    ensures 0 < p.selected < |p.history| ==> r.selected == p.selected - 1 && r.displayed == Some(p.history[p.selected - 1])
    ensures p.selected == HistoryList.INVALID && |p.history| + 1 < U32_LIMIT ==> r == p
  {
    if p.selected > 0 then
      var s := Select(p.history, p.selected, p.selected - 1);
      var q := p.(selected := s);
      match SelectedItem(q)
      case Some(pkg) => q.(displayed := Some(pkg))
      case None => q
    else p
  }

  /** `display_next`: select the next entry when the selection is not the last, and show it. */
  function DisplayNext(p: Pane): (r: Pane)
    requires Valid(p)
    ensures Valid(r) && r.history == p.history
    ensures p.selected + 1 < |p.history| ==> r.selected == p.selected + 1 && r.displayed == Some(p.history[p.selected + 1])
    ensures p.selected + 1 >= |p.history| ==> r == p
  {
    if |p.history| > 0 && p.selected < |p.history| - 1 then
      var q := p.(selected := Select(p.history, p.selected, p.selected + 1));
      q.(displayed := Some(q.history[q.selected]))
    else p
  }

  /** A step forward then back restores selection and display to the entry selected before. */
  lemma NextThenPrev(p: Pane)
    requires Valid(p) && p.selected + 1 < |p.history|
    ensures DisplayPrev(DisplayNext(p)).selected == p.selected
    ensures DisplayPrev(DisplayNext(p)).displayed == SelectedItem(p)
  {
  }

  /** `set_pkg`: the history becomes [pkg] with it auto-selected, or empty; the package is shown. */
  function SetPkg(pkg: Option<RustPkg.PkgObject>): (r: Pane)
    ensures Valid(r) && r.displayed == pkg
    ensures pkg.Some? ==> r.history == [pkg.value] && r.selected == 0
    ensures pkg.None? ==> r.history == [] && r.selected == HistoryList.INVALID
    ensures SelectedItem(r) == pkg
  {
    match pkg
    case Some(x) => Pane([x], 0, pkg)
    case None => Pane([], HistoryList.INVALID, None)
  }

  /** The repositories whose packages have an archlinux.org page. */
  const DEFAULT_REPOS: seq<string> := ["core", "extra", "multilib"]

  /** `prop_to_package_url`: the archlinux.org page (no trailing '/') for default repositories, the AUR page for "aur", else "". */
  function PropUrl(data: PkgData): (url: string)
    ensures data.repository in DEFAULT_REPOS ==>
      url == "https://www.archlinux.org/packages/" + data.repository + "/" + data.architecture + "/" + data.name
    ensures data.repository == "aur" ==> url == "https://aur.archlinux.org/packages/" + data.name
    ensures url == "" <==> data.repository !in DEFAULT_REPOS && data.repository != "aur"
  {
    if data.repository in DEFAULT_REPOS then
      "https://www.archlinux.org/packages/" + data.repository + "/" + data.architecture + "/" + data.name
    else if data.repository == "aur" then
      "https://aur.archlinux.org/packages/" + data.name
    else ""
  }

  /** With the default repositories configured, the pane's URL is the package object's URL without its final '/'. */
  lemma PropUrlAgreesWithPackageUrl(data: PkgData)
    ensures data.repository in DEFAULT_REPOS ==> RustUrls.PackageUrl(data, DEFAULT_REPOS) == PropUrl(data) + "/"
    ensures data.repository !in DEFAULT_REPOS ==> RustUrls.PackageUrl(data, DEFAULT_REPOS) == PropUrl(data)
  {
  }
}

=== FILE: info_row.dfy ===
/**
 * One property row of the Rust info pane (src/info_row.rs): `set_value`
 * decides from the value's variant whether the row is visible, and only a
 * visible row takes the new text, icon and CSS classes.
 */
module InfoRow {
  import opened Wrappers
  import opened Strings
  import TextWidget

  /** The property a row shows. */
  datatype PropId =
    Name | Version | Description | Popularity | OutOfDate | PackageUrl | Url | Status | Repository
    | Groups | Dependencies | Optional | Make | RequiredBy | OptionalFor | Provides | ConflictsWith
    | Replaces | Licenses | Architecture | Packager | BuildDate | InstallDate | DownloadSize
    | InstalledSize | InstallScript | Validation

  /** The value handed to `set_value`. */
  datatype ValueType =
    | Str(s: string)
    | StrIcon(s: string, icon: Option<string>)
    | StrOpt(s: string)
    | StrOptNum(s: string, n: int)
    | Vec(v: seq<string>)
    | VecOpt(v: seq<string>)

  /** What the model tracks of a row: visibility, the value text, the image and its CSS classes. */
  datatype Row = Row(
    id: PropId,
    visible: bool,
    text: string,
    imageVisible: bool,
    iconName: Option<string>,
    classes: set<string>)

  /** The optional variants are shown only when they carry something. */
  predicate Visible(value: ValueType)
  {
    match value
    case StrOpt(s) => s != ""
    case StrOptNum(_, n) => n != 0
    case VecOpt(v) => v != []
    case _ => true
  }

  /** The text a visible row takes: the string, or the list joined with the link spacer. */
  function ValueText(value: ValueType): (t: string)
    ensures value.Vec? || value.VecOpt? ==> t == Join(value.v, TextWidget.LINK_SPACER)
    ensures !(value.Vec? || value.VecOpt?) ==> t == value.s
  {
    match value
    case Vec(v) => Join(v, TextWidget.LINK_SPACER)
    case VecOpt(v) => Join(v, TextWidget.LINK_SPACER)
    case Str(s) => s
    case StrIcon(s, _) => s
    case StrOpt(s) => s
    case StrOptNum(s, _) => s
  }

  /**
   * `set_value`. Visibility always follows the value. A visible row shows
   * the value's text; its image is shown only for a `StrIcon` with an icon.
   * The Version row then gets the "success" class, and the Status row has
   * "error" exactly when its current icon is "pkg-orphan".
   */
  function SetValue(row: Row, value: ValueType): (r: Row)
    ensures r.id == row.id
    ensures r.visible <==> match value
      case Str(_) => true
      case StrIcon(_, _) => true
      case Vec(_) => true
      case StrOpt(s) => s != ""
      case StrOptNum(_, n) => n != 0
      case VecOpt(v) => |v| > 0
    ensures !r.visible ==> r == row.(visible := false)
    ensures r.visible ==> r.text == ValueText(value)
    ensures r.visible ==> (r.imageVisible <==> value.StrIcon? && value.icon.Some?)
    ensures r.visible && value.StrIcon? ==> r.iconName == value.icon
    ensures r.visible && !value.StrIcon? ==> r.iconName == row.iconName
    ensures r.visible && row.id == Version ==> r.classes == row.classes + {"success"}
    ensures r.visible && row.id == Status ==> ("error" in r.classes <==> r.iconName == Some("pkg-orphan"))
    ensures r.visible && row.id == Status ==> r.classes - {"error"} == row.classes - {"error"}
    ensures row.id != Version && row.id != Status ==> r.classes == row.classes
  {
    if !Visible(value) then row.(visible := false)
    else
      var shown :=
        match value
        case StrIcon(s, icon) => row.(visible := true, imageVisible := icon.Some?, iconName := icon, text := s)
        case _ => row.(visible := true, imageVisible := false, text := ValueText(value));
      if row.id == Version then shown.(classes := shown.classes + {"success"})
      else if row.id == Status then
        if shown.iconName == Some("pkg-orphan") then shown.(classes := shown.classes + {"error"})
        else shown.(classes := shown.classes - {"error"})
      else shown
  }

  /** An empty optional value hides the row and leaves its text, image and classes as they were. */
  lemma InvisibleKeepsContent(row: Row, s: string)
    ensures s == "" ==> SetValue(row, StrOpt(s)) == row.(visible := false)
    ensures SetValue(row, StrOptNum(s, 0)) == row.(visible := false)
    ensures SetValue(row, VecOpt([])) == row.(visible := false)
  {
  }

  /** A name free of spaces cannot run into the spacer, even followed by four more spaces. */
  lemma SpaceFreeAvoidsSpacer(p: string)
    requires ' ' !in p
    ensures !Contains(p + "    ", TextWidget.LINK_SPACER)
  {
    var u := p + "    ";
    forall i: nat | i <= |u|
      ensures !OccursAt(u, TextWidget.LINK_SPACER, i)
    {
      if i + 5 <= |u| {
        assert u[i..i + 5][0] == u[i] && u[i] == p[i];
      }
    }
  }

  /** A shown list of space-free names splits back at the spacer into exactly those names. */
  lemma ListTextRoundTrip(row: Row, v: seq<string>)
    requires |v| > 0
    requires forall k :: 0 <= k < |v| ==> ' ' !in v[k]
    ensures SetValue(row, Vec(v)).visible && Split(SetValue(row, Vec(v)).text, TextWidget.LINK_SPACER) == v
    ensures SetValue(row, VecOpt(v)).text == SetValue(row, Vec(v)).text
  {
    var sep := TextWidget.LINK_SPACER;
    forall k | 0 <= k < |v|
      ensures !Contains(v[k] + sep[..|sep| - 1], sep)
    {
      assert sep[..|sep| - 1] == "    ";
      SpaceFreeAvoidsSpacer(v[k]);
    }
    SplitJoin(v, sep);
  }
}

=== FILE: log_dialog.dfy ===
/**
 * The log dialog (src/log_dialog.rs): the pacman log read from a file, one
 * entry per line that matches the timestamp pattern, newest first, with a
 * package-event filter, a line-count header and a plain-text copy. This
 * dialog builds entries from three captures (date, time, message). The
 * timestamp pattern is an input; the text search filter is configured in
 * the dialog's template and is not part of this model.
 */
module LogDialog {
  import opened Wrappers
  import opened Strings
  import opened Sorting

  /** One entry of the dialog. */
  datatype LogObject = LogObject(date: string, time: string, message: string)

  /**
   * "downgraded " followed by one more character of the line. The regex's
   * `.` matches any character but a newline.
   */
  predicate DowngradedFollowed(msg: string)
  {
    exists i: nat | i + 12 <= |msg| :: OccursAt(msg, "downgraded ", i) && msg[i + 11] != '\n'
  }

  /**
   * The package filter's pattern `\[ALPM\] installed|removed|upgraded|downgraded .+`.
   * Alternation binds loosest, so the four branches are separate: the
   * "[ALPM] " prefix belongs to the first and ".+" to the last only, and
   * any message containing "removed" or "upgraded" anywhere matches.
   */
  predicate PackageEvent(msg: string)
  {
    Contains(msg, "[ALPM] installed") || Contains(msg, "removed") || Contains(msg, "upgraded")
    || DowngradedFollowed(msg)
  }

  /** The package button's filter: everything passes while the button is off. */
  predicate PackageFilter(active: bool, o: LogObject)
  {
    !active || PackageEvent(o.message)
  }

  /** The filter's test with the button in the given state. */
  function PackageTest(active: bool): LogObject -> bool
  {
    (o: LogObject) => PackageFilter(active, o)
  }

  /** The entries shown with the button in the given state, in model order, one per passing entry. */
  function Shown(model: seq<LogObject>, active: bool): (r: seq<LogObject>)
    ensures forall k :: 0 <= k < |r| ==> r[k] in model && PackageFilter(active, r[k])
    ensures forall k :: 0 <= k < |model| && PackageFilter(active, model[k]) ==> model[k] in r
    ensures IsSubsequence(r, model) && |r| == CountWhere(model, PackageTest(active))
  {
    FilterIsSubsequence(model, PackageTest(active));
    FilterLength(model, PackageTest(active));
    Filter(model, PackageTest(active))
  }

  /** Turning the package button off removes the filter: every entry is shown again. */
  lemma ButtonOffShowsAll(model: seq<LogObject>)
    ensures Shown(model, false) == model
  {
    FilterAll(model, (o: LogObject) => PackageFilter(false, o));
  }

  /** With the button on, entries pass by substring, not by position: any message mentioning a removal passes. */
  lemma MentionPasses(msg: string, i: nat)
    requires OccursAt(msg, "removed", i)
    ensures PackageEvent(msg)
  {
  }

  /** "removed" passes on its own, while "installed" needs the "[ALPM] " prefix. */
  lemma InstalledNeedsPrefix()
    ensures PackageEvent("removed")
    ensures !PackageEvent("installed foo")
  {
    assert OccursAt("removed", "removed", 0);
    var m := "installed foo";
    assert '[' !in m && 'r' !in m && 'w' !in m;
    NoEventWithout(m);
  }

  /** Without a left bracket, an 'r' and a 'w' no branch of the pattern can match. */
  lemma NoEventWithout(msg: string)
    requires '[' !in msg && 'r' !in msg && 'w' !in msg
    ensures !PackageEvent(msg)
  {
    AbsentCharNoOccurrence(msg, "[ALPM] installed", 0);
    AbsentCharNoOccurrence(msg, "removed", 0);
    AbsentCharNoOccurrence(msg, "upgraded", 3);
    NoDowngradeWithout(msg, 2);
  }

  /** "downgraded " passes only with a character after it: ".+" belongs to that branch. */
  lemma DowngradeNeedsMore()
    ensures !PackageEvent("[ALPM] " + "downgraded ")
    ensures PackageEvent("[ALPM] " + "downgraded x")
  {
    DowngradeAloneFails();
    DowngradeFollowedPasses();
  }

  /** "[ALPM] downgraded " with nothing after it matches no branch. */
  lemma DowngradeAloneFails()
    ensures !PackageEvent("[ALPM] " + "downgraded ")
  {
    var a := "[ALPM] ";
    var d := a + "downgraded ";
    AbsentCharNoOccurrence(d, "[ALPM] installed", 7);
    AbsentCharNoOccurrence(d, "removed", 4);
    AbsentCharNoOccurrence(d, "upgraded", 0);
    forall i: nat | i + 12 <= |d|
      ensures !OccursAt(d, "downgraded ", i)
    {
      FirstAbsentInPrefix(a, "downgraded ", "downgraded ", i);
    }
  }

  /** One more character after "downgraded " makes the last branch match. */
  lemma DowngradeFollowedPasses()
    ensures PackageEvent("[ALPM] " + "downgraded x")
  {
    var a := "[ALPM] ";
    var e := a + "downgraded x";
    PrefixAfter(a, "downgraded x", "downgraded ");
    assert e[18] == 'x';
  }

  /** Without one of its letters there is no "downgraded ". */
  lemma NoDowngradeWithout(msg: string, j: nat)
    requires j < 11 && "downgraded "[j] !in msg
    ensures !DowngradedFollowed(msg)
  {
    AbsentCharNoOccurrence(msg, "downgraded ", j);
  }

  /** The header: "<n> line" for one entry, "<n> lines" otherwise. */
  function Header(n: nat): (r: string)
    ensures StartsWith(r, Decimal(n) + " line")
    ensures EndsWith(r, "s") <==> n != 1
    ensures |r| == |Decimal(n) + " line"| + (if n == 1 then 0 else 1)
  {
    CountLabel(n, "line")
  }

  /** One copied line: "[<date> <time>] <message>". */
  function CopyLine(o: LogObject): string
  {
    "[" + o.date + " " + o.time + "] " + o.message
  }

  /** The clipboard text: the shown entries' lines joined with newlines. */
  function CopyText(shown: seq<LogObject>): (r: string)
    ensures |shown| == 0 ==> r == ""
    ensures |shown| > 0 ==> StartsWith(r, CopyLine(shown[0]))
  {
    var lines := Map(shown, CopyLine);
    if |lines| == 0 then ""
    else
      JoinStartsWithFirst(lines, "\n");
      Join(lines, "\n")
  }

  /** The copy splits back into one line per entry, for entries without newlines. */
  lemma CopyLinesRoundTrip(shown: seq<LogObject>)
    requires |shown| > 0
    requires forall k :: 0 <= k < |shown| ==> '\n' !in CopyLine(shown[k])
    ensures Split(CopyText(shown), "\n") == Map(shown, CopyLine)
  {
    SplitJoinLines(Map(shown, CopyLine));
  }

  /**
   * `populate`: an unreadable file adds nothing; otherwise the file's lines
   * are taken last to first, those the timestamp pattern parses become
   * entries, and they are appended to the model.
   */
  function Populate(model: seq<LogObject>, log: Option<string>, parse: string -> Option<LogObject>)
    : (r: seq<LogObject>)
    ensures log.None? ==> r == model
    ensures log.Some? ==> r == model + Reverse(FilterMap(TextLines(log.value), parse))
  {
    match log
    case None => model
    case Some(text) =>
      FilterMapReverse(TextLines(text), parse);
      model + FilterMap(Reverse(TextLines(text)), parse)
  }

  /**
   * On an empty model the entries are the parsed lines newest first: the
   * last parsed line of the file comes first, and every entry is the parse
   * of some line.
   */
  lemma PopulateNewestFirst(log: string, parse: string -> Option<LogObject>, k: nat)
    requires k < |Populate([], Some(log), parse)|
    ensures exists j :: 0 <= j < |TextLines(log)| && parse(TextLines(log)[j]) == Some(Populate([], Some(log), parse)[k])
    ensures |Populate([], Some(log), parse)| == |FilterMap(TextLines(log), parse)|
    ensures Populate([], Some(log), parse)[k] == FilterMap(TextLines(log), parse)[|FilterMap(TextLines(log), parse)| - 1 - k]
  {
    PopulateFresh(log, parse);
    ReverseFilterMapFrom(TextLines(log), parse, Populate([], Some(log), parse), k);
  }

  /** On an empty model the entries are exactly the parsed lines, reversed. */
  lemma PopulateFresh(log: string, parse: string -> Option<LogObject>)
    ensures Populate([], Some(log), parse) == Reverse(FilterMap(TextLines(log), parse))
  {
    var added := Reverse(FilterMap(TextLines(log), parse));
    assert [] + added == added;
  }

  /** A log written as newline-terminated lines yields the parsed lines in reverse order. */
  lemma PopulateWrittenLog(lines: seq<string>, parse: string -> Option<LogObject>)
    requires forall k :: 0 <= k < |lines| ==> '\n' !in lines[k] && !EndsWith(lines[k], "\r")
    ensures Populate([], Some(Terminated(lines)), parse) == Reverse(FilterMap(lines, parse))
  {
    TextLinesTerminated(lines);
  }
}

=== FILE: log_window.dfy ===
/**
 * The pacman log window (src/log_window.rs): on first show the log text,
 * with its ANSI colour sequences removed, is cut into lines; the lines the
 * log-line pattern parses become entries, newest first. A package filter,
 * a line-count header and a Markdown table copy complete the window. The
 * log-line pattern is an input; the text search filter is configured in the
 * window's template and is not part of this model.
 */
module LogWindow {
  import opened Wrappers
  import opened Strings
  import opened Sorting
  import LogDialog

  /** One entry: the four captures of the log-line pattern. */
  datatype LogLine = LogLine(date: string, time: string, category: string, message: string)

  const ESC: char := 27 as char
  /** The left square bracket, code 91, that opens an SGR sequence. */
  const LEFT_BRACKET: char := 91 as char
  /** The left parenthesis, code 40, that opens a character-set designation. */
  const LEFT_PAREN: char := 40 as char

  /** A character the SGR parameter class `[0-9;]` accepts. */
  predicate SgrParam(c: char)
  {
    '0' <= c <= '9' || c == ';'
  }

  /** The end of the run of SGR parameter characters starting at `i`. */
  function ParamEnd(s: string, i: nat): (j: nat)
    requires i <= |s|
    decreases |s| - i
    ensures i <= j <= |s|
    ensures forall k :: i <= k < j ==> SgrParam(s[k])
    ensures j < |s| ==> !SgrParam(s[j])
  {
    if i == |s| || !SgrParam(s[i]) then i else ParamEnd(s, i + 1)
  }

  /**
   * The length of the match of the ANSI pattern at the start of `s`, or 0
   * when there is none. The pattern is ESC, a left bracket, a run of SGR
   * parameter characters and "m"; or ESC, a left parenthesis and "B". "m"
   * is not a parameter character, so the greedy run never gives characters
   * back: the first branch matches exactly when an "m" follows the longest
   * run.
   */
  function EscapeLength(s: string): (n: nat)
    ensures n == 0 || 3 <= n <= |s|
    ensures n > 0 ==> s[0] == ESC
  {
    if |s| >= 2 && s[0] == ESC && s[1] == LEFT_BRACKET then
      var j := ParamEnd(s, 2);
      if j < |s| && s[j] == 'm' then j + 1 else 0
    else if |s| >= 3 && s[0] == ESC && s[1] == LEFT_PAREN && s[2] == 'B' then 3
    else 0
  }

  /**
   * `replace_all` of the ANSI pattern with nothing: scanning left to right,
   * each match is dropped and every other character kept.
   */
  function StripAnsi(s: string): (r: string)
    decreases |s|
    ensures |r| <= |s|
  {
    if |s| == 0 then ""
    else
      var n := EscapeLength(s);
      if n > 0 then StripAnsi(s[n..]) else [s[0]] + StripAnsi(s[1..])
  }

  /** Stripping only removes: every character left was in the text. */
  lemma {:induction false} StripKeepsCharacters(s: string)
    ensures forall c :: c in StripAnsi(s) ==> c in s
    decreases |s|
  {
    if |s| > 0 {
      var n := EscapeLength(s);
      var tail := if n > 0 then s[n..] else s[1..];
      StripKeepsCharacters(tail);
      assert forall c :: c in tail ==> c in s;
    }
  }

  /** Text without escape characters passes through unchanged. */
  lemma {:induction false} PlainTextUnchanged(s: string)
    requires ESC !in s
    ensures StripAnsi(s) == s
    decreases |s|
  {
    if |s| > 0 {
      NoEscapeHere(s);
      PlainTextUnchanged(s[1..]);
      assert s == [s[0]] + s[1..];
    }
  }

  /** Where no sequence starts, the first character is kept and stripping goes on after it. */
  lemma NoEscapeHere(s: string)
    requires |s| > 0 && (s[0] != ESC || |s| < 2 || (s[1] != LEFT_BRACKET && s[1] != LEFT_PAREN))
    ensures EscapeLength(s) == 0
    ensures StripAnsi(s) == [s[0]] + StripAnsi(s[1..])
  {
  }

  /** A plain prefix is kept as it is, and the rest is stripped on its own. */
  lemma {:induction false} StripPlainPrefix(a: string, rest: string)
    requires ESC !in a
    ensures StripAnsi(a + rest) == a + StripAnsi(rest)
    decreases |a|
  {
    if |a| > 0 {
      var s := a + rest;
      assert a[0] in a;
      AppendTail(a, rest);
      NoEscapeHere(s);
      StripPlainPrefix(a[1..], rest);
      calc {
        StripAnsi(s);
        [a[0]] + StripAnsi(a[1..] + rest);
        [a[0]] + (a[1..] + StripAnsi(rest));
        { ConsAppend(a, StripAnsi(rest)); }
        a + StripAnsi(rest);
      }
    } else {
      assert a + rest == rest;
    }
  }

  /** The SGR sequence: ESC, a left bracket, the parameters, "m". */
  function Sgr(params: string): string
  {
    [ESC, LEFT_BRACKET] + params + "m"
  }

  /** An SGR sequence, whatever its parameters, is removed with nothing left behind. */
  lemma StripSgr(params: string, rest: string)
    requires forall k :: 0 <= k < |params| ==> SgrParam(params[k])
    ensures StripAnsi(Sgr(params) + rest) == StripAnsi(rest)
  {
    var s := Sgr(params) + rest;
    assert s[2..2 + |params|] == params && s[2 + |params|] == 'm';
    ParamEndAt(s, 2, |params|);
    assert EscapeLength(s) == |params| + 3;
    assert s[|params| + 3..] == rest;
  }

  /** `ParamEnd` stops at the first non-parameter character. */
  lemma {:induction false} ParamEndAt(s: string, i: nat, n: nat)
    requires i + n < |s|
    requires forall k :: i <= k < i + n ==> SgrParam(s[k])
    requires !SgrParam(s[i + n])
    ensures ParamEnd(s, i) == i + n
    decreases n
  {
    if n > 0 {
      ParamEndAt(s, i + 1, n - 1);
    }
  }

  /** The character-set reset, ESC, a left parenthesis and "B", is removed as well. */
  lemma StripCharsetReset(rest: string)
    ensures StripAnsi([ESC, LEFT_PAREN, 'B'] + rest) == StripAnsi(rest)
  {
    var s := [ESC, LEFT_PAREN, 'B'] + rest;
    assert EscapeLength(s) == 3;
    assert s[3..] == rest;
  }

  /** Coloured plain text, as pacman writes it, comes out as the plain text. */
  lemma ColouredWord(open: string, w: string, close: string)
    requires forall k :: 0 <= k < |open| ==> SgrParam(open[k])
    requires forall k :: 0 <= k < |close| ==> SgrParam(close[k])
    requires ESC !in w
    ensures StripAnsi(Sgr(open) + w + Sgr(close)) == w
  {
    var tail := w + Sgr(close);
    assert Sgr(open) + w + Sgr(close) == Sgr(open) + tail;
    StripSgr(open, tail);
    StripPlainPrefix(w, Sgr(close));
    assert Sgr(close) == Sgr(close) + "";
    StripSgr(close, "");
  }

  /**
   * The replacement is a single pass: removing an escape sequence can bring
   * another one together, which is left in the result.
   */
  lemma SinglePass()
    ensures StripAnsi([ESC] + Sgr("") + [LEFT_BRACKET, 'm']) == Sgr("")
  {
    var s := [ESC] + Sgr("") + [LEFT_BRACKET, 'm'];
    assert s[0] == ESC && s[1] == ESC;
    NoEscapeHere(s);
    assert s[1..] == Sgr("") + [LEFT_BRACKET, 'm'];
    StripSgr("", [LEFT_BRACKET, 'm']);
    PlainTextUnchanged([LEFT_BRACKET, 'm']);
  }

  /** The package button's filter: the message starts with one of the four package actions. */
  predicate PackageMessage(msg: string)
  {
    StartsWith(msg, "installed ") || StartsWith(msg, "removed ")
    || StartsWith(msg, "upgraded ") || StartsWith(msg, "downgraded ")
  }

  /** Everything passes while the button is off. */
  predicate PackageFilter(active: bool, l: LogLine)
  {
    !active || PackageMessage(l.message)
  }

  /** The filter's test with the button in the given state. */
  function PackageTest(active: bool): LogLine -> bool
  {
    (l: LogLine) => PackageFilter(active, l)
  }

  /** The entries shown with the button in the given state, in model order, one per passing entry. */
  function Shown(model: seq<LogLine>, active: bool): (r: seq<LogLine>)
    ensures forall k :: 0 <= k < |r| ==> r[k] in model && PackageFilter(active, r[k])
    ensures forall k :: 0 <= k < |model| && PackageFilter(active, model[k]) ==> model[k] in r
    ensures IsSubsequence(r, model) && |r| == CountWhere(model, PackageTest(active))
  {
    FilterIsSubsequence(model, PackageTest(active));
    FilterLength(model, PackageTest(active));
    Filter(model, PackageTest(active))
  }

  /** Turning the button off shows every entry again. */
  lemma ButtonOffShowsAll(model: seq<LogLine>)
    ensures Shown(model, false) == model
  {
    FilterAll(model, (l: LogLine) => PackageFilter(false, l));
  }

  /**
   * A package message that passes here also passes the log dialog's filter
   * once the dialog's "[ALPM] " prefix is put back, unless it is a bare
   * "downgraded " with nothing after it.
   */
  lemma WindowFilterWithinDialogFilter(msg: string)
    requires PackageMessage(msg) && '\n' !in msg && msg != "downgraded "
    ensures LogDialog.PackageEvent("[ALPM] " + msg)
  {
    var a := "[ALPM] ";
    var s := a + msg;
    if StartsWith(msg, "installed ") {
      ShorterPrefix(msg, "installed", " ");
      assert s[..|a| + 9] == a + msg[..9];
      assert OccursAt(s, "[ALPM] installed", 0);
    } else if StartsWith(msg, "removed ") {
      ShorterPrefix(msg, "removed", " ");
      PrefixAfter(a, msg, "removed");
    } else if StartsWith(msg, "upgraded ") {
      ShorterPrefix(msg, "upgraded", " ");
      PrefixAfter(a, msg, "upgraded");
    } else {
      assert |msg| > 11;
      PrefixAfter(a, msg, "downgraded ");
      assert s[18] == msg[11];
    }
  }

  /** The window's filter is the stricter one: a mention of a removal later in the message does not pass it. */
  lemma MentionDoesNotPass()
    ensures !PackageMessage("foo removed bar")
    ensures LogDialog.PackageEvent("[ALPM] foo removed bar")
  {
    var m := "foo removed bar";
    assert m[..10][0] == 'f' && m[..8][0] == 'f' && m[..9][0] == 'f' && m[..11][0] == 'f';
    var s := "[ALPM] foo removed bar";
    assert s[11..18] == "removed";
    assert OccursAt(s, "removed", 11);
  }

  /** The lines of a log: colour sequences removed, then cut as `str::lines` does. */
  function LogLines(log: string): seq<string>
  {
    TextLines(StripAnsi(log))
  }

  /**
   * `show`: a window that already has entries keeps them. Otherwise the log
   * (none when it could not be read) gives the parsed lines, inserted last
   * to first.
   */
  function Show(model: seq<LogLine>, log: Option<string>, parse: string -> Option<LogLine>): (r: seq<LogLine>)
    ensures |model| > 0 ==> r == model
    ensures |model| == 0 && log.None? ==> r == []
    ensures |model| == 0 && log.Some? ==> r == Reverse(FilterMap(LogLines(log.value), parse))
  {
    if |model| > 0 then model
    else
      match log
      case None => []
      case Some(text) =>
        FilterMapReverse(LogLines(text), parse);
        FilterMap(Reverse(LogLines(text)), parse)
  }

  /** `clear`: the model is emptied. */
  function Clear(model: seq<LogLine>): (r: seq<LogLine>)
    ensures |r| == 0
  {
    []
  }

  /** Showing a populated window again changes nothing, whatever log is passed. */
  lemma ShowIdempotent(model: seq<LogLine>, log: Option<string>, again: Option<string>, parse: string -> Option<LogLine>)
    requires |Show(model, log, parse)| > 0
    ensures Show(Show(model, log, parse), again, parse) == Show(model, log, parse)
  {
  }

  /** After `clear`, showing reads the new log afresh. */
  lemma ClearThenShow(model: seq<LogLine>, log: string, parse: string -> Option<LogLine>)
    ensures Show(Clear(model), Some(log), parse) == Reverse(FilterMap(LogLines(log), parse))
  {
  }

  /**
   * Newest first: entry k of a fresh window is parsed line |parsed|-1-k, and
   * it comes from some line of the stripped log.
   */
  lemma ShowNewestFirst(log: string, parse: string -> Option<LogLine>, k: nat)
    requires k < |Show([], Some(log), parse)|
    ensures exists j :: 0 <= j < |LogLines(log)| && parse(LogLines(log)[j]) == Some(Show([], Some(log), parse)[k])
    ensures |Show([], Some(log), parse)| == |FilterMap(LogLines(log), parse)|
    ensures Show([], Some(log), parse)[k] == FilterMap(LogLines(log), parse)[|FilterMap(LogLines(log), parse)| - 1 - k]
  {
    ReverseFilterMapFrom(LogLines(log), parse, Show([], Some(log), parse), k);
  }

  /** A plain log written as newline-terminated lines yields the parsed lines in reverse order. */
  lemma ShowWrittenLog(lines: seq<string>, parse: string -> Option<LogLine>)
    requires forall k :: 0 <= k < |lines| ==> '\n' !in lines[k] && !EndsWith(lines[k], "\r") && ESC !in lines[k]
    ensures Show([], Some(Terminated(lines)), parse) == Reverse(FilterMap(lines, parse))
  {
    PlainTerminated(lines);
    PlainTextUnchanged(Terminated(lines));
    TextLinesTerminated(lines);
  }

  /** Newline-terminated plain lines make a plain text. */
  lemma {:induction false} PlainTerminated(lines: seq<string>)
    requires forall k :: 0 <= k < |lines| ==> ESC !in lines[k]
    ensures ESC !in Terminated(lines)
  {
    if |lines| > 0 {
      PlainTerminated(lines[1..]);
    }
  }

  /** The header: "<n> line" for one entry, "<n> lines" otherwise. */
  function Header(n: nat): (r: string)
    ensures StartsWith(r, Decimal(n) + " line")
    ensures EndsWith(r, "s") <==> n != 1
    ensures |r| == |Decimal(n) + " line"| + (if n == 1 then 0 else 1)
  {
    CountLabel(n, "line")
  }

  /** The copy button is usable exactly when some entry is shown. */
  function CopySensitive(n: nat): (r: bool)
    ensures r <==> n > 0
  {
    n > 0
  }

  /** One table row: "|<date>|<time>|<category>|<message>|". */
  function Row(l: LogLine): string
  {
    "|" + l.date + "|" + l.time + "|" + l.category + "|" + l.message + "|"
  }

  const TITLE: string := "## Log Messages"
  const COLUMNS: string := "|Date|Time|Category|Message|"
  const RULE: string := "|---|---|---|---|"

  /** The clipboard text: a Markdown heading and table header, then one row per shown entry. */
  function CopyText(shown: seq<LogLine>): (r: string)
    ensures StartsWith(r, TITLE + "\n" + COLUMNS + "\n" + RULE + "\n")
  {
    var head := TITLE + "\n" + COLUMNS + "\n" + RULE + "\n";
    AppendStartsEnds(head, Join(Map(shown, Row), "\n"));
    head + Join(Map(shown, Row), "\n")
  }

  /**
   * With entries whose fields hold no newline, the copy splits back into the
   * three header lines followed by one row per entry.
   */
  lemma CopyRowsRoundTrip(shown: seq<LogLine>)
    requires |shown| > 0
    requires forall k :: 0 <= k < |shown| ==> '\n' !in Row(shown[k])
    ensures Split(CopyText(shown), "\n") == [TITLE, COLUMNS, RULE] + Map(shown, Row)
  {
    var rows := Map(shown, Row);
    JoinThreeCons(TITLE, COLUMNS, RULE, rows, "\n");
    HeaderLinesPlain();
    SplitJoinLines([TITLE, COLUMNS, RULE] + rows);
  }

  /** The three header lines hold no newline. */
  lemma HeaderLinesPlain()
    ensures '\n' !in TITLE && '\n' !in COLUMNS && '\n' !in RULE
  {
  }

  /** With nothing shown the copy is the header alone, ending in a newline. */
  lemma CopyEmpty()
    ensures CopyText([]) == TITLE + "\n" + COLUMNS + "\n" + RULE + "\n"
  {
  }
}

=== FILE: package_view.dfy ===
/**
 * The package list's columns and sorting (src/package_view.rs): reordering
 * and hiding columns from a list of column ids, reading the visible ids
 * back, and the sort column and order. The column view is reduced to its
 * sequence of columns and its sorter.
 */
module PackageView {
  import opened Wrappers
  import opened Sorting
  import Traits

  /** A column of the view: its id and whether it is shown. */
  datatype Column = Column(id: string, visible: bool)

  /** The column ids of `reset_columns`, in their order. */
  const DEFAULT_IDS: seq<string> := ["package", "version", "repository", "status", "date", "size"]

  /** No id is carried by two columns. */
  predicate DistinctIds(cols: seq<Column>)
  {
    forall a, b :: 0 <= a < b < |cols| ==> cols[a].id != cols[b].id
  }

  /** The position of the first column with the id, as `find` over the view's columns returns it. */
  function FindColumn(cols: seq<Column>, id: string): (r: Option<nat>)
    ensures r.Some? ==> r.value < |cols| && cols[r.value].id == id
    ensures r.Some? ==> forall k :: 0 <= k < r.value ==> cols[k].id != id
    ensures r.None? <==> forall k :: 0 <= k < |cols| ==> cols[k].id != id
  {
    if |cols| == 0 then None
    else if cols[0].id == id then Some(0)
    else match FindColumn(cols[1..], id)
      case None => None
      case Some(k) => Some(k + 1)
  }

  /** The element at `k` taken out and put back in at `i` of what remains. */
  function Move<T>(s: seq<T>, k: nat, i: nat): seq<T>
    requires k < |s| && i < |s|
  {
    var rest := s[..k] + s[k + 1..];
    rest[..i] + [s[k]] + rest[i..]
  }

  /** Where position `j` of `Move(s, k, i)` comes from. */
  function MoveSource(j: nat, k: nat, i: nat): nat
  {
    var j' := if j < i then j else j - 1;
    if j == i then k else if j' < k then j' else j' + 1
  }

  /** Moving is a rearrangement: each position reads the position `MoveSource` names. */
  lemma MoveIndex<T>(s: seq<T>, k: nat, i: nat)
    requires k < |s| && i < |s|
    ensures |Move(s, k, i)| == |s|
    ensures forall j :: 0 <= j < |s| ==> MoveSource(j, k, i) < |s| && Move(s, k, i)[j] == s[MoveSource(j, k, i)]
  {
    var rest := s[..k] + s[k + 1..];
    var t := Move(s, k, i);
    forall j | 0 <= j < |s|
      ensures MoveSource(j, k, i) < |s| && t[j] == s[MoveSource(j, k, i)]
    {
      if j < i {
        assert t[j] == rest[j];
        RemoveIndex(s, k, j);
      } else if j > i {
        assert t[j] == rest[j - 1];
        RemoveIndex(s, k, j - 1);
      }
    }
  }

  /** Position `m` of `s` without its `k`-th element. */
  lemma RemoveIndex<T>(s: seq<T>, k: nat, m: nat)
    requires k < |s| && m + 1 < |s|
    ensures (s[..k] + s[k + 1..])[m] == s[if m < k then m else m + 1]
  {
  }

  /** No two positions read the same one. */
  lemma MoveSourceInjective(k: nat, i: nat, j1: nat, j2: nat)
    requires j1 < j2
    ensures MoveSource(j1, k, i) != MoveSource(j2, k, i)
  {
  }

  /** Moving keeps the elements, with their multiplicities. */
  lemma MoveMultiset<T>(s: seq<T>, k: nat, i: nat)
    requires k < |s| && i < |s|
    ensures multiset(Move(s, k, i)) == multiset(s)
  {
    var rest := s[..k] + s[k + 1..];
    var before, after := s[..k], s[k + 1..];
    assert s == before + [s[k]] + after;
    assert rest == rest[..i] + rest[i..];
    calc {
      multiset(Move(s, k, i));
      multiset(rest[..i] + [s[k]] + rest[i..]);
      multiset(rest[..i]) + multiset([s[k]]) + multiset(rest[i..]);
      multiset(rest[..i] + rest[i..]) + multiset([s[k]]);
      multiset(before) + multiset(after) + multiset([s[k]]);
      multiset(before + [s[k]] + after);
    }
  }

  /**
   * `insert_column` for a column already in the view: it is removed and
   * inserted again at the position. A position past the end is refused and
   * leaves the view as it was.
   */
  function InsertColumn(cols: seq<Column>, i: nat, k: nat): (r: seq<Column>)
    requires k < |cols|
    ensures |r| == |cols| && multiset(r) == multiset(cols)
    ensures i < |cols| ==> r[i] == cols[k]
    ensures i < |cols| && i <= k ==> forall j :: 0 <= j < i ==> r[j] == cols[j]
    ensures i >= |cols| ==> r == cols
    ensures DistinctIds(cols) ==> DistinctIds(r)
  {
    if i < |cols| then
      MoveIndex(cols, k, i);
      MoveMultiset(cols, k, i);
      assert forall j1, j2 :: 0 <= j1 < j2 < |cols| ==> MoveSource(j1, k, i) != MoveSource(j2, k, i) by {
        forall j1, j2 | 0 <= j1 < j2 < |cols| {
          MoveSourceInjective(k, i, j1, j2);
        }
      }
      Move(cols, k, i)
    else cols
  }

  /** Some column carries the id. */
  predicate HasColumn(cols: seq<Column>, id: string)
  {
    exists k :: 0 <= k < |cols| && cols[k].id == id
  }

  /** Rearranging the columns keeps every id. */
  lemma HasColumnPermuted(a: seq<Column>, b: seq<Column>, id: string)
    requires multiset(a) == multiset(b) && HasColumn(a, id)
    ensures HasColumn(b, id)
  {
    var k :| 0 <= k < |a| && a[k].id == id;
    assert a[k] in multiset(b);
    var m :| 0 <= m < |b| && b[m] == a[k];
  }

  /** The reordering loop of `sort_columns` from the `start`-th id on. */
  function PlaceFrom(cols: seq<Column>, ids: seq<string>, start: nat): (r: seq<Column>)
    ensures |r| == |cols| && multiset(r) == multiset(cols)
    ensures DistinctIds(cols) ==> DistinctIds(r)
    decreases |ids| - start
  {
    if start >= |ids| then cols
    else
      var next := match FindColumn(cols, ids[start])
        case None => cols
        case Some(k) => InsertColumn(cols, start, k);
      PlaceFrom(next, ids, start + 1)
  }

  /** The visibility loop of `sort_columns`: a column is shown exactly when its id is listed. */
  function ShowListed(cols: seq<Column>, ids: seq<string>): (r: seq<Column>)
    ensures |r| == |cols|
    ensures forall k :: 0 <= k < |cols| ==> r[k].id == cols[k].id && (r[k].visible <==> cols[k].id in ids)
  {
    seq(|cols|, k requires 0 <= k < |cols| => cols[k].(visible := cols[k].id in ids))
  }

  /**
   * `sort_columns`: each listed id's column is moved to the id's position,
   * in list order, skipping ids without a column; then exactly the listed
   * columns are shown. The columns themselves are only rearranged.
   */
  function SortColumns(cols: seq<Column>, ids: seq<string>): (r: seq<Column>)
    ensures |r| == |cols|
    ensures forall k :: 0 <= k < |r| ==> (r[k].visible <==> r[k].id in ids)
    ensures DistinctIds(cols) ==> DistinctIds(r)
  {
    ShowListed(PlaceFrom(cols, ids, 0), ids)
  }

  /** Sorting loses and invents no column: the ids before and after are the same. */
  lemma SortColumnsKeepsIds(cols: seq<Column>, ids: seq<string>, id: string)
    ensures HasColumn(cols, id) <==> HasColumn(SortColumns(cols, ids), id)
  {
    var placed := PlaceFrom(cols, ids, 0);
    if HasColumn(cols, id) {
      HasColumnPermuted(cols, placed, id);
    }
    if HasColumn(placed, id) {
      HasColumnPermuted(placed, cols, id);
    }
  }

  /** `reset_columns`: the default columns in their default order. */
  function ResetColumns(cols: seq<Column>): (r: seq<Column>)
    ensures forall k :: 0 <= k < |r| ==> (r[k].visible <==> r[k].id in DEFAULT_IDS)
  {
    SortColumns(cols, DEFAULT_IDS)
  }

  predicate IsVisible(c: Column) { c.visible }

  function IdOf(c: Column): string { c.id }

  /** `columns`: the ids of the visible columns, in view order. */
  function Columns(cols: seq<Column>): (r: seq<string>)
    ensures forall k :: 0 <= k < |r| ==> exists c :: c in cols && c.visible && c.id == r[k]
    ensures forall j :: 0 <= j < |cols| && cols[j].visible ==> cols[j].id in r
    ensures IsSubsequence(r, Map(cols, IdOf))
    ensures |r| == |Filter(cols, IsVisible)|
  {
    var shown := Filter(cols, IsVisible);
    assert forall k :: 0 <= k < |shown| ==> shown[k] in cols && shown[k].visible;
    MapFilterIsSubsequence(cols, IsVisible, IdOf);
    Map(shown, IdOf)
  }

  /**
   * The reordering loop puts each listed id at its position, provided the
   * listed ids are distinct and all have a column: positions before
   * `start` already hold their ids, and the column for the next id is
   * found at or after its position, so moving it leaves them in place.
   */
  lemma {:induction false} PlaceFromFront(cols: seq<Column>, ids: seq<string>, start: nat)
    requires start <= |ids|
    requires Traits.Distinct(ids)
    requires forall id :: id in ids ==> HasColumn(cols, id)
    requires start <= |cols| && forall i :: 0 <= i < start ==> cols[i].id == ids[i]
    ensures |ids| <= |PlaceFrom(cols, ids, start)|
    ensures forall i :: 0 <= i < |ids| ==> PlaceFrom(cols, ids, start)[i].id == ids[i]
    decreases |ids| - start
  {
    if start < |ids| {
      var next := PlaceOne(cols, ids, start);
      PlaceFromFront(next, ids, start + 1);
      var r := PlaceFrom(next, ids, start + 1);
      assert forall i :: 0 <= i < |ids| ==> r[i].id == ids[i];
    } else {
      assert PlaceFrom(cols, ids, start) == cols;
    }
  }

  /** One round of the reordering loop keeps the conditions of `PlaceFromFront` for the next id. */
  lemma PlaceOne(cols: seq<Column>, ids: seq<string>, start: nat) returns (next: seq<Column>)
    requires start < |ids|
    requires Traits.Distinct(ids)
    requires forall id :: id in ids ==> HasColumn(cols, id)
    requires start <= |cols| && forall i :: 0 <= i < start ==> cols[i].id == ids[i]
    ensures PlaceFrom(cols, ids, start) == PlaceFrom(next, ids, start + 1)
    ensures forall id :: id in ids ==> HasColumn(next, id)
    ensures start + 1 <= |next| && forall i :: 0 <= i < start + 1 ==> next[i].id == ids[i]
  {
    var k := FoundAtOrAfter(cols, ids, start);
    next := InsertColumn(cols, start, k);
    forall id | id in ids
      ensures HasColumn(next, id)
    {
      HasColumnPermuted(cols, next, id);
    }
  }

  /** The next id's column is not among the placed ones: it is found at or after its position. */
  lemma FoundAtOrAfter(cols: seq<Column>, ids: seq<string>, start: nat) returns (k: nat)
    requires start < |ids|
    requires Traits.Distinct(ids)
    requires HasColumn(cols, ids[start])
    requires start <= |cols| && forall i :: 0 <= i < start ==> cols[i].id == ids[i]
    ensures start <= k < |cols| && FindColumn(cols, ids[start]) == Some(k)
  {
    k := FindColumn(cols, ids[start]).value;
    assert forall i :: 0 <= i < start ==> cols[i].id != ids[start];
  }

  /**
   * For distinct ids that all name columns of a view without repeated ids,
   * sorting puts the listed columns first, in list order, shown, and hides
   * every other column.
   */
  lemma SortColumnsLayout(cols: seq<Column>, ids: seq<string>)
    requires DistinctIds(cols) && Traits.Distinct(ids)
    requires forall id :: id in ids ==> HasColumn(cols, id)
    ensures |ids| <= |SortColumns(cols, ids)|
    ensures forall i :: 0 <= i < |ids| ==> SortColumns(cols, ids)[i].id == ids[i] && SortColumns(cols, ids)[i].visible
    ensures forall k :: |ids| <= k < |SortColumns(cols, ids)| ==> !SortColumns(cols, ids)[k].visible
  {
    var placed := PlaceFrom(cols, ids, 0);
    PlaceFromFront(cols, ids, 0);
    var r := ShowListed(placed, ids);
    assert r == SortColumns(cols, ids);
  }

  /**
   * Setting the columns and reading them back gives the same list, when
   * the ids are distinct names of existing columns and the view has no two
   * columns with one id.
   */
  lemma SetThenGetColumns(cols: seq<Column>, ids: seq<string>)
    requires DistinctIds(cols) && Traits.Distinct(ids)
    requires forall id :: id in ids ==> HasColumn(cols, id)
    ensures Columns(SortColumns(cols, ids)) == ids
  {
    SortColumnsLayout(cols, ids);
    var r := SortColumns(cols, ids);
    ShownPrefix(r, |ids|);
    assert Map(r[..|ids|], IdOf) == ids;
  }

  /** When the first n columns are shown and the rest hidden, the shown ones are the first n. */
  lemma ShownPrefix(r: seq<Column>, n: nat)
    requires n <= |r|
    requires forall i :: 0 <= i < n ==> r[i].visible
    requires forall k :: n <= k < |r| ==> !r[k].visible
    ensures Filter(r, IsVisible) == r[..n]
  {
    FilterPrefix(r, n, IsVisible);
  }

  /** After a reset, the visible columns are the default ones in their order, for a view that has them all. */
  lemma ResetShowsDefaults(cols: seq<Column>)
    requires DistinctIds(cols)
    requires forall id :: id in DEFAULT_IDS ==> HasColumn(cols, id)
    ensures Columns(ResetColumns(cols)) == DEFAULT_IDS
  {
    SetThenGetColumns(cols, DEFAULT_IDS);
  }

  /** The direction of a sort. */
  datatype SortType = Ascending | Descending

  /** The view's sorter: its primary sort column, if any, and the order. */
  datatype Sorter = Sorter(primary: Option<Column>, order: SortType)

  /**
   * `sorting`: the primary column's id, or "" when there is none, and
   * whether the order is ascending. Without a primary column the sorter
   * reports ascending order.
   */
  function GetSorting(s: Sorter): (r: (string, bool))
    ensures s.primary.None? ==> r == ("", true)
    ensures s.primary.Some? ==> r.0 == s.primary.value.id && (r.1 <==> s.order == Ascending)
  {
    match s.primary
    case None => ("", true)
    case Some(c) => (c.id, s.order == Ascending)
  }

  /** `set_sorting`: sort by the first column with the id, or by none when there is no such column. */
  function SetSorting(cols: seq<Column>, id: string, ascending: bool): (s: Sorter)
    ensures s.primary.Some? <==> exists k :: 0 <= k < |cols| && cols[k].id == id
    ensures s.primary.Some? ==> s.primary.value.id == id && s.primary.value in cols
    ensures s.order == Ascending <==> ascending
  {
    var col := match FindColumn(cols, id) case None => None case Some(k) => Some(cols[k]);
    Sorter(col, if ascending then Ascending else Descending)
  }

  /** The saved sorting comes back: setting a column id and order and reading them gives the same pair; an unknown id reads back as "" and ascending. */
  lemma SortingRoundTrip(cols: seq<Column>, id: string, ascending: bool)
    ensures (exists k :: 0 <= k < |cols| && cols[k].id == id) ==> GetSorting(SetSorting(cols, id, ascending)) == (id, ascending)
    ensures (forall k :: 0 <= k < |cols| ==> cols[k].id != id) ==> GetSorting(SetSorting(cols, id, ascending)) == ("", true)
  {
  }
}

=== FILE: pkg_data.dfy ===
/**
 * The package record of the Rust browser (src/pkg_data.rs): the status
 * bitset `PkgFlags` and the two constructors that build a record from a
 * sync-database package (with its local counterpart, if installed) and from
 * an AUR search result. Everything libalpm or the AUR would answer is an
 * input: install reason, reverse dependencies, versions, list fields.
 */
module PkgData {
  import opened Wrappers
  import opened Strings
  import opened Sorting

  /** `PkgFlags` as a bit set; every defined bit fits in one byte. */
  type Flags = bv8

  const EXPLICIT: Flags := 0x01
  const DEPENDENCY: Flags := 0x02
  const OPTIONAL: Flags := 0x04
  const ORPHAN: Flags := 0x08
  const NONE: Flags := 0x10
  const UPDATES: Flags := 0x20
  const INSTALLED: Flags := EXPLICIT | DEPENDENCY | OPTIONAL | ORPHAN
  const ALL: Flags := INSTALLED | NONE
  /** `PkgFlags::default()` is the empty set. */
  const DEFAULT_FLAGS: Flags := 0

  /** glib's `flags.intersects(other)`. */
  predicate Intersects(a: Flags, b: Flags)
  {
    a & b != 0
  }

  /** One of the four installed states, alone. */
  predicate IsSingleInstalledFlag(f: Flags)
  {
    f == EXPLICIT || f == DEPENDENCY || f == OPTIONAL || f == ORPHAN
  }

  /** `PkgValidation` keeps only the four defined bits (`from_bits_truncate`). */
  const VALIDATION_MASK: bv32 := 0x0F
  const VALIDATION_NONE: bv32 := 0x01

  const PACKAGER_UNKNOWN: string := "Unknown Packager"

  /** The separator of joined list fields (licenses, groups). */
  const LIST_SEPARATOR: string := " | "

  /** libalpm's install reason of a local package. */
  datatype Reason = Explicit | Depend

  /** What the sync database answers about a package. */
  datatype SyncPkg = SyncPkg(
    name: string,
    base: Option<string>,
    version: string,
    desc: Option<string>,
    url: Option<string>,
    licenses: seq<string>,
    groups: seq<string>,
    depends: seq<string>,
    optdepends: seq<string>,
    providesList: seq<string>,
    conflicts: seq<string>,
    replacesList: seq<string>,
    arch: Option<string>,
    packager: Option<string>,
    buildDate: int,
    downloadSize: int,
    installSize: int,
    hasScriptlet: bool,
    validationBits: bv32)

  /** What the local database answers about an installed package. */
  datatype LocalPkg = LocalPkg(
    reason: Reason,
    requiredBy: seq<string>,
    optionalFor: seq<string>,
    version: string,
    installDate: Option<int>)

  /** What the AUR RPC answers; `popularity` is the already formatted number. */
  datatype AurPkg = AurPkg(
    name: string,
    packageBase: string,
    version: string,
    description: Option<string>,
    popularity: string,
    numVotes: nat,
    outOfDate: Option<int>,
    url: Option<string>,
    license: seq<string>,
    groups: seq<string>,
    depends: seq<string>,
    optDepends: seq<string>,
    makeDepends: seq<string>,
    providesList: seq<string>,
    conflicts: seq<string>,
    replacesList: seq<string>,
    maintainer: Option<string>,
    lastModified: int)

  /** `PkgData`: the immutable record every view reads. */
  datatype PkgData = PkgData(
    flags: Flags,
    base: string,
    name: string,
    version: string,
    description: string,
    popularity: string,
    outOfDate: int,
    url: string,
    licenses: string,
    repository: string,
    groups: string,
    depends: seq<string>,
    optdepends: seq<string>,
    makedepends: seq<string>,
    providesList: seq<string>,
    conflicts: seq<string>,
    replacesList: seq<string>,
    architecture: string,
    packager: string,
    buildDate: int,
    installDate: int,
    downloadSize: int,
    installSize: int,
    hasScript: string,
    validation: bv32)

  /** The flag constants relate as the declaration promises. */
  lemma FlagConstants()
    ensures INSTALLED == 0x0F && ALL == 0x1F
    ensures !Intersects(UPDATES, ALL) && !Intersects(NONE, INSTALLED)
    ensures DEFAULT_FLAGS == 0
  {
  }

  /** A set intersects INSTALLED exactly when it holds one of the four installed flags. */
  lemma InstalledBits(f: Flags)
    ensures Intersects(f, INSTALLED) <==>
      Intersects(f, EXPLICIT) || Intersects(f, DEPENDENCY) || Intersects(f, OPTIONAL) || Intersects(f, ORPHAN)
  {
  }

  /**
   * The status of an installed package: explicit installs win; otherwise
   * the first non-empty reverse-dependency list decides.
   */
  function InstalledStatus(local: LocalPkg): (f: Flags)
    ensures IsSingleInstalledFlag(f)
    ensures f == EXPLICIT <==> local.reason == Explicit
    ensures f == DEPENDENCY <==> local.reason != Explicit && |local.requiredBy| > 0
    ensures f == OPTIONAL <==> local.reason != Explicit && |local.requiredBy| == 0 && |local.optionalFor| > 0
    ensures f == ORPHAN <==> local.reason != Explicit && |local.requiredBy| == 0 && |local.optionalFor| == 0
  {
    if local.reason == Explicit then EXPLICIT
    else if |local.requiredBy| > 0 then DEPENDENCY
    else if |local.optionalFor| > 0 then OPTIONAL
    else ORPHAN
  }

  /** Sorted members joined by " | " (the `alpm_list_to_string` closure). */
  function JoinSorted(items: seq<string>): (r: string)
    ensures exists sorted :: IsSortedPermutation(sorted, items) && r == Join(sorted, LIST_SEPARATOR)
  {
    Join(Sort(items), LIST_SEPARATOR)
  }

  /** `PkgData::from_alpm`. */
  function FromAlpm(sync: SyncPkg, local: Option<LocalPkg>, repository: string): (r: PkgData)
    ensures local.None? ==> r.flags == NONE && r.version == sync.version && r.installDate == 0
    ensures local.Some? ==> r.flags == InstalledStatus(local.value)
    ensures local.Some? ==> r.version == local.value.version && r.installDate == local.value.installDate.UnwrapOr(0)
    ensures Intersects(r.flags, INSTALLED) <==> local.Some?
    ensures r.name == sync.name && r.repository == repository
    ensures r.base == sync.base.UnwrapOr("") && r.architecture == sync.arch.UnwrapOr("")
    ensures r.packager == sync.packager.UnwrapOr(PACKAGER_UNKNOWN)
    ensures IsSortedPermutation(r.depends, sync.depends) && IsSortedPermutation(r.optdepends, sync.optdepends)
    ensures IsSortedPermutation(r.providesList, sync.providesList) && IsSortedPermutation(r.conflicts, sync.conflicts)
    ensures IsSortedPermutation(r.replacesList, sync.replacesList)
    ensures r.licenses == JoinSorted(sync.licenses) && r.groups == JoinSorted(sync.groups)
    ensures r.makedepends == [] && r.popularity == "" && r.outOfDate == 0
    ensures (r.hasScript == "Yes" <==> sync.hasScriptlet) && (r.hasScript == "No" <==> !sync.hasScriptlet)
    ensures r.validation == Validation(sync.validationBits)
  {
    PkgData(
      flags := AlpmFlags(local),
      base := sync.base.UnwrapOr(""),
      name := sync.name,
      version := if local.Some? then local.value.version else sync.version,
      description := sync.desc.UnwrapOr(""),
      popularity := "",
      outOfDate := 0,
      url := sync.url.UnwrapOr(""),
      licenses := JoinSorted(sync.licenses),
      repository := repository,
      groups := JoinSorted(sync.groups),
      depends := Sort(sync.depends),
      optdepends := Sort(sync.optdepends),
      makedepends := [],
      providesList := Sort(sync.providesList),
      conflicts := Sort(sync.conflicts),
      replacesList := Sort(sync.replacesList),
      architecture := sync.arch.UnwrapOr(""),
      packager := sync.packager.UnwrapOr(PACKAGER_UNKNOWN),
      buildDate := sync.buildDate,
      installDate := if local.Some? then local.value.installDate.UnwrapOr(0) else 0,
      downloadSize := sync.downloadSize,
      installSize := sync.installSize,
      hasScript := if sync.hasScriptlet then "Yes" else "No",
      validation := Validation(sync.validationBits))
  }

  /** The status of a sync package: its installed state when there is a local package, else NONE. */
  function AlpmFlags(local: Option<LocalPkg>): (f: Flags)
    ensures local.None? ==> f == NONE
    ensures local.Some? ==> f == InstalledStatus(local.value)
    ensures Intersects(f, INSTALLED) <==> local.Some?
  {
    if local.Some? then InstalledStatus(local.value) else NONE
  }

  /** `PkgValidation::from_bits_truncate`: the undefined bits are dropped, the defined ones kept. */
  function Validation(bits: bv32): (v: bv32)
    ensures v & !VALIDATION_MASK == 0 && v & VALIDATION_MASK == bits & VALIDATION_MASK
  {
    bits & VALIDATION_MASK
  }

  /** `PkgData::from_aur`: never installed, always in repository "aur". */
  function FromAur(pkg: AurPkg): (r: PkgData)
    ensures r.flags == NONE && !Intersects(r.flags, INSTALLED)
    ensures r.repository == "aur" && r.architecture == "" && r.hasScript == ""
    ensures r.installDate == 0 && r.downloadSize == 0 && r.installSize == 0
    ensures r.name == pkg.name && r.base == pkg.packageBase && r.version == pkg.version
    ensures r.packager == pkg.maintainer.UnwrapOr(PACKAGER_UNKNOWN)
    ensures r.outOfDate == pkg.outOfDate.UnwrapOr(0) && r.buildDate == pkg.lastModified
    ensures StartsWith(r.popularity, pkg.popularity + " (")
    ensures r.popularity == pkg.popularity + " (" + Decimal(pkg.numVotes) + " votes)"
    ensures IsSortedPermutation(r.depends, pkg.depends) && IsSortedPermutation(r.optdepends, pkg.optDepends)
    ensures IsSortedPermutation(r.makedepends, pkg.makeDepends) && IsSortedPermutation(r.providesList, pkg.providesList)
    ensures IsSortedPermutation(r.conflicts, pkg.conflicts) && IsSortedPermutation(r.replacesList, pkg.replacesList)
    ensures r.licenses == JoinSorted(pkg.license) && r.groups == JoinSorted(pkg.groups)
    ensures r.validation == VALIDATION_NONE
  {
    var popularity := pkg.popularity + " (" + Decimal(pkg.numVotes) + " votes)";
    assert popularity[..|pkg.popularity + " ("|] == pkg.popularity + " (";
    PkgData(
      flags := NONE,
      base := pkg.packageBase,
      name := pkg.name,
      version := pkg.version,
      description := pkg.description.UnwrapOr(""),
      popularity := popularity,
      outOfDate := pkg.outOfDate.UnwrapOr(0),
      url := pkg.url.UnwrapOr(""),
      licenses := JoinSorted(pkg.license),
      repository := "aur",
      groups := JoinSorted(pkg.groups),
      depends := Sort(pkg.depends),
      optdepends := Sort(pkg.optDepends),
      makedepends := Sort(pkg.makeDepends),
      providesList := Sort(pkg.providesList),
      conflicts := Sort(pkg.conflicts),
      replacesList := Sort(pkg.replacesList),
      architecture := "",
      packager := pkg.maintainer.UnwrapOr(PACKAGER_UNKNOWN),
      buildDate := pkg.lastModified,
      installDate := 0,
      downloadSize := 0,
      installSize := 0,
      hasScript := "",
      validation := VALIDATION_NONE)
  }

  /** The vote count can be read back from the popularity text, between " (" and " votes)". */
  lemma AurVotesReadBack(pkg: AurPkg)
    ensures var p := FromAur(pkg).popularity;
      |pkg.popularity| + 2 <= |p| - 7
      && (forall i :: |pkg.popularity| + 2 <= i < |p| - 7 ==> '0' <= p[i] <= '9')
      && DecimalValue(p[|pkg.popularity| + 2..|p| - 7]) == pkg.numVotes
  {
    var p := FromAur(pkg).popularity;
    assert p[|pkg.popularity| + 2..|p| - 7] == Decimal(pkg.numVotes);
  }

  /** A list member that is safe to join: neither it nor its join with the separator's start contains " | ". */
  predicate SeparatorFree(item: string)
  {
    !Contains(item + LIST_SEPARATOR[..|LIST_SEPARATOR| - 1], LIST_SEPARATOR)
  }

  /**
   * A joined list field can be split back into its sorted members when no
   * member contains the separator, as the groups window does.
   */
  lemma JoinSortedSplits(items: seq<string>)
    requires |items| > 0
    requires forall k :: 0 <= k < |items| ==> SeparatorFree(items[k])
    ensures IsSortedPermutation(Split(JoinSorted(items), LIST_SEPARATOR), items)
  {
    var sorted := Sort(items);
    forall k | 0 <= k < |sorted|
      ensures SeparatorFree(sorted[k])
    {
      assert sorted[k] in multiset(items);
    }
    SplitJoin(sorted, LIST_SEPARATOR);
  }
}

=== FILE: pkg_history.dfy ===
/**
 * The plain-struct history of the Rust info pane (src/pkg_history.rs): a
 * list of packages and an optional `u32` index of the selected one.
 */
module PkgHistory {
  import opened Wrappers
  import opened Utf8
  import RustPkg = PkgObjects
  import HistoryList

  /** The list and the selected index. */
  datatype History = History(list: seq<RustPkg.PkgObject>, index: Option<nat>)

  /** The index is absent or points into the list, and `len() as u32` is exact. */
  predicate Valid(h: History)
  {
    |h.list| < U32_LIMIT && (h.index.None? || h.index.value < |h.list|)
  }

  /** `PkgHistory::default()`: nothing listed, nothing selected. */
  const DEFAULT: History := History([], None)

  lemma DefaultValid()
    ensures Valid(DEFAULT) && |DEFAULT.list| == 0 && DEFAULT.index.None?
  {
  }

  /** `can_select_previous`: a selection exists and is not the first entry. */
  predicate CanSelectPrevious(h: History)
  {
    h.index.Some? && h.index.value > 0
  }

  /** `can_select_next`: a selection exists and is not the last entry. */
  predicate CanSelectNext(h: History)
  {
    h.index.Some? && h.index.value + 1 < |h.list|
  }

  /** `init`: the list is cleared, then holds [item] at index 0, or stays empty with no index. */
  function Init(item: Option<RustPkg.PkgObject>): (r: History)
    ensures Valid(r)
    ensures item.Some? ==> r.list == [item.value] && r.index == Some(0)
    ensures item.None? ==> r == DEFAULT
    ensures SelectedItem(r) == item
  {
    match item
    case Some(x) => History([x], Some(0))
    case None => History([], None)
  }

  /** `select_previous`: moves back one and answers true when allowed, else answers false and changes nothing. */
  function SelectPrevious(h: History): (r: (History, bool))
    requires Valid(h)
    ensures Valid(r.0) && r.0.list == h.list
    ensures r.1 <==> CanSelectPrevious(h)
    ensures r.1 ==> r.0.index.Some? && r.0.index.value + 1 == h.index.value
    ensures !r.1 ==> r.0 == h
  {
    if CanSelectPrevious(h) then (h.(index := Some(h.index.value - 1)), true) else (h, false)
  }

  /** `select_next`: moves forward one and answers true when allowed, else answers false and changes nothing. */
  function SelectNext(h: History): (r: (History, bool))
    requires Valid(h)
    ensures Valid(r.0) && r.0.list == h.list
    ensures r.1 <==> CanSelectNext(h)
    ensures r.1 ==> r.0.index == Some(h.index.value + 1)
    ensures !r.1 ==> r.0 == h
  {
    if CanSelectNext(h) then (h.(index := Some(h.index.value + 1)), true) else (h, false)
  }

  /** A step forward undone by a step back restores the state. */
  lemma NextThenPrevious(h: History)
    requires Valid(h) && CanSelectNext(h)
    ensures SelectPrevious(SelectNext(h).0) == (h, true)
  {
  }

  /** `selected_item`: the entry at the index, or None without a selection. */
  function SelectedItem(h: History): (r: Option<RustPkg.PkgObject>)
    ensures h.index.None? ==> r.None?
    ensures h.index.Some? && h.index.value < |h.list| ==> r == Some(h.list[h.index.value])
    ensures h.index.Some? && h.index.value >= |h.list| ==> r.None?
  {
    match h.index
    case None => None
    case Some(i) => if i < |h.list| then Some(h.list[i]) else None
  }

  /** `set_selected_item`: selects the first entry with an equal name and answers true, else changes nothing. */
  function SetSelectedItem(h: History, item: RustPkg.PkgObject): (r: (History, bool))
    requires Valid(h)
    ensures Valid(r.0) && r.0.list == h.list
    ensures r.1 <==> exists k :: 0 <= k < |h.list| && HistoryList.Name(h.list[k]) == HistoryList.Name(item)
    ensures r.1 ==> r.0.index == HistoryList.FindName(h.list, HistoryList.Name(item))
    ensures !r.1 ==> r.0 == h
  {
    match HistoryList.FindName(h.list, HistoryList.Name(item))
    case Some(k) => (h.(index := Some(k)), true)
    case None => (h, false)
  }

  /**
   * `truncate_and_append`: when the selection is not the last entry the
   * list is cut just after it; then the item is appended and selected.
   */
  function TruncateAndAppend(h: History, item: RustPkg.PkgObject): (r: History)
    requires Valid(h) && |h.list| + 1 < U32_LIMIT
    ensures Valid(r)
    ensures CanSelectNext(h) ==> r.list == h.list[..h.index.value + 1] + [item]
    ensures !CanSelectNext(h) ==> r.list == h.list + [item]
    ensures r.index == Some(|r.list| - 1) && SelectedItem(r) == Some(item)
  {
    var list := if CanSelectNext(h) then h.list[..h.index.value + 1] else h.list;
    History(list + [item], Some(|list|))
  }

  /** Appending after a selection keeps the path to it, so a step back returns to it. */
  lemma AppendThenBack(h: History, item: RustPkg.PkgObject)
    requires Valid(h) && |h.list| + 1 < U32_LIMIT && h.index.Some?
    ensures var r := TruncateAndAppend(h, item);
      r.list[..h.index.value + 1] == h.list[..h.index.value + 1] &&
      SelectPrevious(r) == (r.(index := h.index), true)
  {
  }

  /**
   * The two histories agree: the struct's index is the object's position
   * with None for INVALID, and appending a package not yet listed does the
   * same to both.
   */
  lemma AgreesWithHistoryList(h: History, item: RustPkg.PkgObject)
    requires Valid(h) && |h.list| + 1 < U32_LIMIT
    requires HistoryList.FindName(h.list, HistoryList.Name(item)).None?
    ensures var g := HistoryList.HistoryState(h.list, if h.index.Some? then h.index.value else HistoryList.INVALID);
      HistoryList.Valid(g) &&
      HistoryList.SetCurrentOrMakeLast(g, item) ==
        HistoryList.HistoryState(TruncateAndAppend(h, item).list, TruncateAndAppend(h, item).index.value)
  {
  }
}

=== FILE: pkg_object.dfy ===
/**
 * The package object of the Rust browser (src/pkg_object.rs): a package
 * record plus the update an update check may have found, and the flags it
 * shows. Its other views are in the modules PkgObjectVersion,
 * PkgObjectStatus, PkgObjectUrls and PkgObjectFiles.
 */
module PkgObjects {
  import opened Wrappers
  import opened Strings
  import opened Sorting
  import opened PkgData

  /** A package record plus the newer version an update check may have found. */
  datatype PkgObject = PkgObject(data: PkgData, updateVersion: Option<string>)

  /** `flags()`: the stored flags, with UPDATES added while an update is known. */
  function DisplayFlags(o: PkgObject): (f: Flags)
    ensures o.updateVersion.None? ==> f == o.data.flags
    ensures o.updateVersion.Some? ==> Intersects(f, UPDATES)
    ensures f & !UPDATES == o.data.flags & !UPDATES
  {
    match o.updateVersion
    case None => o.data.flags
    case Some(_) => o.data.flags | UPDATES
  }
}

=== FILE: pkg_object_files.dfy ===
/**
 * The lists a package object reads from the system (src/pkg_object.rs):
 * which package-cache files belong to the package, the sorted file list,
 * the backup entries, the package's log lines and the reverse-dependency
 * lists. The pacman root directory, the database answers and the log-line
 * pattern are inputs.
 */
module PkgObjectFiles {
  import opened Wrappers
  import opened Strings
  import opened Sorting
  import opened PkgData
  import opened PkgObjects
  import opened PkgObjectUrls

  /** Rust's `Path::file_name`: the last component, unless it is "..", "." alone, or absent. */
  function FileName(path: string): (name: Option<string>)
    ensures name.Some? ==> name.value != "" && name.value != ".." && !Contains(name.value, "/")
  {
    var parts := Filter(Split(path, "/"), (c: string) => c != "" && c != ".");
    if |parts| == 0 then None
    else
      var last := parts[|parts| - 1];
      if last == ".." then None
      else
        assert last in Split(path, "/");
        Some(last)
  }

  const PACKAGE_SUFFIX: string := ".pkg.tar.zst"

  /** The cache-file test of `cache_future`: a ".pkg.tar.zst" whose name minus three '-' fields is the package. */
  predicate IsCacheFileOf(path: string, pkgName: string)
  {
    match FileName(path)
    case None => false
    case Some(f) => RSplitNLast(f, 4, '-') == pkgName && EndsWith(f, PACKAGE_SUFFIX)
  }

  /** The package files of `pkgName` among the cached paths, in cache order. */
  function CacheFiles(cache: seq<string>, pkgName: string): (r: seq<string>)
    ensures forall i :: 0 <= i < |r| ==> r[i] in cache && IsCacheFileOf(r[i], pkgName)
    ensures forall i :: 0 <= i < |cache| && IsCacheFileOf(cache[i], pkgName) ==> cache[i] in r
    ensures IsSubsequence(r, cache)
  {
    FilterIsSubsequence(cache, (p: string) => IsCacheFileOf(p, pkgName));
    Filter(cache, (p: string) => IsCacheFileOf(p, pkgName))
  }

  /** pacman's cache file name for a package build. */
  function CacheFileName(name: string, version: string, release: string, arch: string): string
  {
    name + "-" + version + "-" + release + "-" + arch + PACKAGE_SUFFIX
  }

  lemma LastIndexOfAfter(a: string, x: char, b: string)
    requires x !in b
    ensures LastIndexOf(a + [x] + b, x) == Some(|a|)
  {
    var s := a + [x] + b;
    assert s[|a|] == x;
    var r := LastIndexOf(s, x);
    assert r.Some?;
  }

  /**
   * A cache file named the way pacman names it belongs to exactly the
   * package it was built from, even when the package name itself contains
   * dashes, as long as version, release and architecture do not.
   */
  lemma {:induction false} CacheFileNameOwner(path: string, dir: string, name: string, version: string, release: string, arch: string)
    requires '-' !in version && '-' !in release && '-' !in arch + PACKAGE_SUFFIX
    ensures RSplitNLast(CacheFileName(name, version, release, arch), 4, '-') == name
  {
    var tail := arch + PACKAGE_SUFFIX;
    var s := CacheFileName(name, version, release, arch);
    var a2 := name + "-" + version + "-" + release;
    assert s == a2 + ['-'] + tail;
    LastIndexOfAfter(a2, '-', tail);
    assert s[..|a2|] == a2;
    var a1 := name + "-" + version;
    assert a2 == a1 + ['-'] + release;
    LastIndexOfAfter(a1, '-', release);
    assert a2[..|a1|] == a1;
    assert a1 == name + ['-'] + version;
    LastIndexOfAfter(name, '-', version);
    assert a1[..|name|] == name;
    calc {
      RSplitNLast(s, 4, '-');
      RSplitNLast(a2, 3, '-');
      RSplitNLast(a1, 2, '-');
      RSplitNLast(name, 1, '-');
    }
  }

  /** Which database `pkg()` consults: the local one for installed packages. */
  datatype Db = LocalDb | SyncDb

  function LookupDb(flags: Flags): (db: Db)
    ensures db == LocalDb <==> Intersects(flags, INSTALLED)
  {
    if Intersects(flags, INSTALLED) then LocalDb else SyncDb
  }

  /** `required_by()`/`optional_for()`: the database's answer sorted, or empty when the lookup fails. */
  function SortedNames(answer: Option<seq<string>>): (r: seq<string>)
    ensures answer.None? ==> r == []
    ensures answer.Some? ==> IsSortedPermutation(r, answer.value)
  {
    match answer
    case None => []
    case Some(names) => Sort(names)
  }

  /** `files()`: every file name prefixed with the pacman root directory, sorted. */
  function Files(rootDir: string, answer: Option<seq<string>>): (r: seq<string>)
    ensures answer.None? ==> r == []
    ensures answer.Some? ==> IsSortedPermutation(r, Map(answer.value, (f: string) => rootDir + f))
    ensures forall i :: 0 <= i < |r| ==> StartsWith(r[i], rootDir)
  {
    match answer
    case None => []
    case Some(names) =>
      var paths := Map(names, (f: string) => rootDir + f);
      var r := Sort(paths);
      forall i | 0 <= i < |r|
        ensures StartsWith(r[i], rootDir)
      {
        assert r[i] in multiset(paths);
        var k :| 0 <= k < |paths| && paths[k] == r[i];
        assert r[i][..|rootDir|] == rootDir;
      }
      r
  }

  /** One backup entry: the file's full path, its recorded hash, and its package. */
  datatype PkgBackup = PkgBackup(filename: string, hash: string, package: string)

  function BackupFilename(b: PkgBackup): string { b.filename }

  /** `backup()`: each (name, hash) from the database becomes an entry under the root directory, sorted by path. */
  function Backup(rootDir: string, pkgName: string, answer: Option<seq<(string, string)>>): (r: seq<PkgBackup>)
    ensures answer.None? ==> r == []
    ensures answer.Some? ==>
      multiset(r) == multiset(Map(answer.value, (e: (string, string)) => PkgBackup(rootDir + e.0, e.1, pkgName)))
    ensures SortedBy(r, BackupFilename)
    ensures forall i :: 0 <= i < |r| ==> r[i].package == pkgName && StartsWith(r[i].filename, rootDir)
  {
    match answer
    case None => []
    case Some(entries) =>
      var items := Map(entries, (e: (string, string)) => PkgBackup(rootDir + e.0, e.1, pkgName));
      var r := SortBy(items, BackupFilename);
      forall i | 0 <= i < |r|
        ensures r[i].package == pkgName && StartsWith(r[i].filename, rootDir)
      {
        assert r[i] in multiset(items);
        var k :| 0 <= k < |items| && items[k] == r[i];
        assert r[i].filename[..|rootDir|] == rootDir;
      }
      r
  }

  /** The fields the log-line pattern of `log_future` captures. */
  datatype LogCaptures = LogCaptures(date: string, time: string, action: string, name: string, rest: string)

  /** The entry `log_future` shows for one captured line. */
  function LogEntry(c: LogCaptures): string
  {
    "[" + c.date + "  " + c.time + "]  " + c.action + " " + c.name + " " + c.rest
  }

  /** A log line about exactly this package. */
  predicate IsPackageLogLine(line: string, pkgName: string, parse: string -> Option<LogCaptures>)
  {
    Contains(line, pkgName) && parse(line).Some? && parse(line).value.name == pkgName
  }

  /**
   * `log_future()`: the lines about this package, newest first, rendered
   * from the pattern's captures; an unreadable log gives nothing.
   */
  function PackageLog(log: Option<seq<string>>, pkgName: string, parse: string -> Option<LogCaptures>)
    : (r: seq<string>)
    ensures log.None? ==> r == []
    ensures log.Some? ==> r == Reverse(Map(Filter(log.value, (l: string) => IsPackageLogLine(l, pkgName, parse)),
                                         (l: string) => if parse(l).Some? then LogEntry(parse(l).value) else ""))
  {
    match log
    case None => []
    case Some(lines) =>
      var keep := (l: string) => IsPackageLogLine(l, pkgName, parse);
      var render := (l: string) => if parse(l).Some? then LogEntry(parse(l).value) else "";
      FilterReverse(lines, keep);
      MapReverse(Filter(lines, keep), render);
      Map(Filter(Reverse(lines), keep), render)
  }

  lemma MapReverse<T, U>(s: seq<T>, f: T -> U)
    ensures Map(Reverse(s), f) == Reverse(Map(s, f))
  {
  }
}

=== FILE: pkg_object_status.dfy ===
/**
 * The install status of a package object (src/pkg_object.rs `status()`,
 * `status_icon()`, `status_icon_symbolic()`): a name and an icon for each
 * single installed flag, and the name's inverse.
 */
module PkgObjectStatus {
  import opened Wrappers
  import opened Strings
  import opened Sorting
  import opened PkgData
  import opened PkgObjects

  /** `status()`: the name of an exact single installed flag, else "not installed". */
  function Status(flags: Flags): (s: string)
    ensures s != "not installed" <==> IsSingleInstalledFlag(flags)
  {
    if flags == EXPLICIT then "explicit"
    else if flags == DEPENDENCY then "dependency"
    else if flags == OPTIONAL then "optional"
    else if flags == ORPHAN then "orphan"
    else "not installed"
  }

  /** The flag a status name stands for: the inverse of `Status`. */
  function StatusFlag(name: string): Option<Flags>
  {
    if name == "explicit" then Some(EXPLICIT)
    else if name == "dependency" then Some(DEPENDENCY)
    else if name == "optional" then Some(OPTIONAL)
    else if name == "orphan" then Some(ORPHAN)
    else None
  }

  /** Status names determine the flag they came from. */
  lemma StatusRoundTrip(flags: Flags)
    ensures IsSingleInstalledFlag(flags) ==> StatusFlag(Status(flags)) == Some(flags)
    ensures !IsSingleInstalledFlag(flags) ==> StatusFlag(Status(flags)) == None
  {
  }

  /** `status_icon()`: "pkg-<status>" for an exact single installed flag, else "". */
  function StatusIcon(flags: Flags): (s: string)
    ensures s == "" <==> !IsSingleInstalledFlag(flags)
    ensures s != "" ==> s == "pkg-" + Status(flags)
  {
    if IsSingleInstalledFlag(flags) then "pkg-" + Status(flags) else ""
  }

  /** `status_icon_symbolic()`: "status-<status>-symbolic" for an exact single installed flag, else "". */
  function StatusIconSymbolic(flags: Flags): (s: string)
    ensures s == "" <==> !IsSingleInstalledFlag(flags)
    ensures s != "" ==> s == "status-" + Status(flags) + "-symbolic"
  {
    if IsSingleInstalledFlag(flags) then "status-" + Status(flags) + "-symbolic" else ""
  }

  /**
   * The status getters read the stored flags, not `flags()`: every record
   * built from the local database reports its status whether or not an
   * update is known, although its displayed flags are no longer a single
   * installed flag once UPDATES is added.
   */
  lemma StatusIgnoresUpdateOverlay(sync: SyncPkg, local: LocalPkg, repo: string, update: string)
    ensures var o := PkgObject(FromAlpm(sync, Some(local), repo), Some(update));
      Status(o.data.flags) != "not installed" && Status(DisplayFlags(o)) == "not installed"
  {
    var o := PkgObject(FromAlpm(sync, Some(local), repo), Some(update));
    assert IsSingleInstalledFlag(o.data.flags);
  }
}

=== FILE: pkg_object_urls.dfy ===
/**
 * The addresses and dates a package object renders (src/pkg_object.rs):
 * the web page, the PKGBUILD locations, and the install and build dates
 * with the zero-date sentinel. The configured repositories, whether paru is
 * installed, the user cache directory and the date formatter are inputs.
 */
module PkgObjectUrls {
  import opened Wrappers
  import opened Strings
  import opened Sorting
  import opened PkgData
  import opened PkgObjects

  /** `package_url()`: the AUR page, the archlinux.org page of a configured repository, or "". */
  function PackageUrl(data: PkgData, configuredRepos: seq<string>): (url: string)
    ensures data.repository == "aur" ==> url == "https://aur.archlinux.org/packages/" + data.name
    ensures data.repository != "aur" && data.repository in configuredRepos ==>
      url == "https://www.archlinux.org/packages/" + data.repository + "/" + data.architecture + "/" + data.name + "/"
    ensures url == "" <==> data.repository != "aur" && data.repository !in configuredRepos
  {
    if data.repository == "aur" then "https://aur.archlinux.org/packages/" + data.name
    else if data.repository in configuredRepos then
      "https://www.archlinux.org/packages/" + data.repository + "/" + data.architecture + "/" + data.name + "/"
    else ""
  }

  /** The name a PKGBUILD is filed under: the base name when there is one. */
  function PkgbuildName(data: PkgData): (name: string)
    ensures data.base != "" ==> name == data.base
    ensures data.base == "" ==> name == data.name
  {
    if data.base == "" then data.name else data.base
  }

  /** Rust's `Path::join` of a relative path: a '/' is inserted unless the directory is empty or ends in one. */
  function PathJoin(dir: string, relative: string): (path: string)
    ensures EndsWith(path, relative) && StartsWith(path, dir)
  {
    var path := if dir == "" || EndsWith(dir, "/") then dir + relative else dir + "/" + relative;
    assert path[|path| - |relative|..] == relative;
    assert path[..|dir|] == dir;
    path
  }

  /**
   * `pkgbuild_urls()`: the (page, raw file) pair for the PKGBUILD. AUR and
   * configured repositories point to their web front-ends; "local" has none;
   * any other repository points to paru's clone when paru is installed.
   */
  function PkgbuildUrls(data: PkgData, configuredRepos: seq<string>, paruInstalled: bool, userCacheDir: string)
    : (urls: (string, string))
    ensures data.repository == "aur" ==>
      urls == ("https://aur.archlinux.org/cgit/aur.git/tree/PKGBUILD?h=" + PkgbuildName(data),
               "https://aur.archlinux.org/cgit/aur.git/plain/PKGBUILD?h=" + PkgbuildName(data))
    ensures data.repository != "aur" && data.repository in configuredRepos ==>
      urls == ("https://gitlab.archlinux.org/archlinux/packaging/packages/" + PkgbuildName(data) + "/-/blob/main/PKGBUILD",
               "https://gitlab.archlinux.org/archlinux/packaging/packages/" + PkgbuildName(data) + "/-/raw/main/PKGBUILD")
    ensures data.repository == "local" && "local" !in configuredRepos ==> urls == ("", "")
    ensures data.repository !in ["aur", "local"] && data.repository !in configuredRepos ==>
      urls.0 == "file://" + urls.1 && (urls.1 == "" <==> !paruInstalled)
  {
    var name := PkgbuildName(data);
    var repo := data.repository;
    if repo == "aur" then
      ("https://aur.archlinux.org/cgit/aur.git/tree/PKGBUILD?h=" + name,
       "https://aur.archlinux.org/cgit/aur.git/plain/PKGBUILD?h=" + name)
    else if repo in configuredRepos then
      ("https://gitlab.archlinux.org/archlinux/packaging/packages/" + name + "/-/blob/main/PKGBUILD",
       "https://gitlab.archlinux.org/archlinux/packaging/packages/" + name + "/-/raw/main/PKGBUILD")
    else if repo == "local" then ("", "")
    else
      var raw := if paruInstalled then PathJoin(userCacheDir, "paru/clone/repo/" + repo + "/" + name + "/PKGBUILD") else "";
      ("file://" + raw, raw)
  }

  /**
   * `date_to_string()`: zero stands for "no date" and renders as ""; any
   * other date goes to the (local-time) formatter.
   */
  function DateToString(date: int, format: string, render: (int, string) -> string): (s: string)
    ensures date == 0 ==> s == ""
    ensures date != 0 ==> s == render(date, format)
  {
    if date == 0 then "" else render(date, format)
  }

  /** The date formats the getters use. */
  const DATE_FORMAT: string := "%d %B %Y %H:%M"

  /**
   * What is left of `s` after `rsplitn(n, sep)` has split off up to `n - 1`
   * pieces from the right, i.e. the last item that iterator yields.
   */
  function RSplitNLast(s: string, n: nat, sep: char): (r: string)
    ensures StartsWith(s, r)
  {
    if n <= 1 then s
    else match LastIndexOf(s, sep)
      case None => s
      case Some(i) =>
        var r := RSplitNLast(s[..i], n - 1, sep);
        assert s[..i][..|r|] == s[..|r|];
        r
  }
}

=== FILE: pkg_object_version.dfy ===
/**
 * The version a package object shows (src/pkg_object.rs `version()`): the
 * stored version, followed by an arrow and the newer version while an
 * update is known, and how that text splits back into both versions.
 */
module PkgObjectVersion {
  import opened Wrappers
  import opened Strings
  import opened Sorting
  import opened PkgData
  import opened PkgObjects

  /** The separator between the installed and the available version: a space, the arrow U+2192, a space. */
  const VERSION_ARROW: string := [' ', 0x2192 as char, ' ']

  /** `version()`: the stored version, followed by the arrow separator and the update when one is known. */
  function DisplayVersion(o: PkgObject): (v: string)
    ensures o.updateVersion.None? ==> v == o.data.version
    ensures o.updateVersion.Some? ==>
      StartsWith(v, o.data.version) && v[|o.data.version|..] == VERSION_ARROW + o.updateVersion.value
  {
    match o.updateVersion
    case None => o.data.version
    case Some(update) =>
      var v := o.data.version + VERSION_ARROW + update;
      assert v[..|o.data.version|] == o.data.version;
      v
  }

  /** Splits a displayed version back into installed and available versions. */
  function ParseDisplayVersion(v: string): (r: (string, Option<string>))
    ensures r.1.None? ==> r.0 == v && !Contains(v, VERSION_ARROW)
    ensures r.1.Some? ==> r.0 + VERSION_ARROW + r.1.value == v
  {
    SplitOnce(v, VERSION_ARROW)
  }

  /**
   * No arrow separator inside the version, nor one that starts in the
   * version and would run on into an appended separator.
   */
  predicate ArrowFree(version: string)
  {
    !Contains(version + VERSION_ARROW[..|VERSION_ARROW| - 1], VERSION_ARROW)
  }

  /** The displayed version determines both versions, as long as the installed one holds no arrow. */
  lemma DisplayVersionRoundTrip(o: PkgObject)
    requires ArrowFree(o.data.version)
    ensures ParseDisplayVersion(DisplayVersion(o)) == (o.data.version, o.updateVersion)
  {
    var v := DisplayVersion(o);
    NoOccurrenceInPrefix(o.data.version, VERSION_ARROW[..|VERSION_ARROW| - 1], VERSION_ARROW);
    match o.updateVersion
    case None =>
    case Some(update) =>
      var p := o.data.version;
      assert v == p + VERSION_ARROW + update;
      assert OccursAt(v, VERSION_ARROW, |p|) by {
        assert v[|p|..|p| + |VERSION_ARROW|] == VERSION_ARROW;
      }
      forall j: nat | j < |p|
        ensures !OccursAt(v, VERSION_ARROW, j)
      {
        if OccursAt(v, VERSION_ARROW, j) {
          EarlyOccurrenceLiesInPrefix(p, VERSION_ARROW, update, j);
        }
      }
      assert Find(v, VERSION_ARROW) == Some(|p|);
      assert v[..|p|] == p;
      assert v[|p| + |VERSION_ARROW|..] == update;
  }
}

=== FILE: proto_pacview.dfy ===
/**
 * The earliest single-file prototype (pacview.py): the package object's
 * status and date strings, the filters and string sorter of its column
 * view, and the repository names and classification of
 * `populate_pkg_objects`. Its search filter compares the typed text, as
 * typed, against the lower-cased description; `FilterBySearchAsWritten`
 * keeps that behaviour and `FilterBySearch` lower-cases the text first, as
 * the second Python version does on entry.
 */
module ProtoPacview {
  import opened Wrappers
  import opened Strings
  import opened Sorting
  import opened PkgData
  import AppObjectTypes
  import AppPacview

  /** What the prototype's `PkgObject` exposes to the view. */
  datatype ProtoItem = ProtoItem(
    name: string,
    description: string,
    repository: string,
    status: Flags,
    date: int,
    depends: seq<string>,
    optdepends: seq<string>)

  /** The filter state of the prototype's column view (no group search yet). */
  datatype ProtoFilter = ProtoFilter(
    repo: string,
    status: Flags,
    search: string,
    byName: bool,
    byDesc: bool,
    byDeps: bool,
    byOptdeps: bool)

  /** The property defaults: every repository, every status, no search, searching by name only. */
  const DEFAULT_FILTER: ProtoFilter := ProtoFilter("", ALL, "", true, false, false, false)

  /** `status_string`: a name for an exact single installed value only, as in the second Python version. */
  function StatusString(status: Flags): (s: string)
    ensures s != "" <==> IsSingleInstalledFlag(status)
    ensures s == AppObjectTypes.Status(status)
  {
    if status == EXPLICIT then "explicit"
    else if status == DEPENDENCY then "dependency"
    else if status == OPTIONAL then "optional"
    else if status == ORPHAN then "orphan"
    else ""
  }

  /** `date_string`: "" for the zero date, else the formatter's text. */
  function DateString(date: int, render: int -> string): (s: string)
    ensures date == 0 ==> s == ""
    ensures date != 0 ==> s == render(date)
  {
    if date != 0 then render(date) else ""
  }

  /** `filter_by_repo`: everything for "", otherwise the repository must equal the selection exactly. */
  predicate FilterByRepo(item: ProtoItem, f: ProtoFilter)
  {
    f.repo == "" || item.repository == f.repo
  }

  /** `filter_by_status`: the bitwise AND of status and mask is non-zero. */
  predicate FilterByStatus(item: ProtoItem, f: ProtoFilter)
  {
    Intersects(item.status, f.status)
  }

  /** The field tests of the search filter, for a given search text. */
  predicate SearchFieldsMatch(item: ProtoItem, f: ProtoFilter, text: string)
  {
    (f.byName && Contains(item.name, text))
    || (f.byDesc && Contains(Lower(item.description), text))
    || (f.byDeps && AppPacview.AnyContains(item.depends, text))
    || (f.byOptdeps && AppPacview.AnyContains(item.optdepends, text))
  }

  /**
   * `filter_by_search` as written: the text stored by `on_search` is the
   * entry text unchanged, and it is looked for in the lower-cased description.
   */
  predicate FilterBySearchAsWritten(item: ProtoItem, f: ProtoFilter)
  {
    f.search == "" || SearchFieldsMatch(item, f, f.search)
  }

  /** A search for "GTK" in the description "GTK toolkit" fails, since "GTK" never occurs in "gtk toolkit". */
  lemma UpperCaseDescriptionSearchFails()
    ensures var item := ProtoItem("gtk4", "GTK toolkit", "extra", EXPLICIT, 0, [], []);
      var f := ProtoFilter("", ALL, "GTK", false, true, false, false);
      OccursAt(item.description, f.search, 0) && !FilterBySearchAsWritten(item, f)
  {
    var d := Lower("GTK toolkit");
    assert d == "gtk toolkit";
    forall i: nat | i <= |d|
      ensures !OccursAt(d, "GTK", i)
    {
      if i + 3 <= |d| {
        assert d[i..i + 3][0] == d[i];
        assert d[i] != 'G';
      }
    }
    assert "GTK toolkit"[0..3] == "GTK";
  }

  /** Any text containing an upper-case ASCII letter never matches a description through this filter. */
  lemma UpperCaseNeverInLowered(description: string, text: string, k: nat)
    requires k < |text| && 'A' <= text[k] <= 'Z'
    ensures !Contains(Lower(description), text)
  {
    var d := Lower(description);
    forall i: nat | i <= |d|
      ensures !OccursAt(d, text, i)
    {
      if i + |text| <= |d| {
        assert d[i..i + |text|][k] == d[i + k];
      }
    }
  }

  /** The corrected search: the text is lower-cased before the field tests, as the second Python version does. */
  predicate FilterBySearch(item: ProtoItem, f: ProtoFilter)
  {
    f.search == "" || SearchFieldsMatch(item, f, Lower(f.search))
  }

  /** With the correction, a description search finds the text in any letter case. */
  lemma DescriptionSearchIgnoresCase(item: ProtoItem, f: ProtoFilter, i: nat)
    requires f.byDesc && OccursAt(Lower(item.description), Lower(f.search), i)
    ensures FilterBySearch(item, f)
  {
  }

  /** The correction changes nothing for text that is already lower-case. */
  lemma CorrectionKeepsLowerCaseSearches(item: ProtoItem, f: ProtoFilter)
    requires Lower(f.search) == f.search
    ensures FilterBySearch(item, f) <==> FilterBySearchAsWritten(item, f)
  {
  }

  /** The three filters together, with the corrected search. */
  predicate Shown(item: ProtoItem, f: ProtoFilter)
  {
    FilterByRepo(item, f) && FilterByStatus(item, f) && FilterBySearch(item, f)
  }

  /** With the defaults every classified package is shown. */
  lemma DefaultShowsClassified(item: ProtoItem)
    requires IsSingleInstalledFlag(item.status) || item.status == NONE
    ensures Shown(item, DEFAULT_FILTER)
  {
  }

  /** `sort_by_str` of the prototype: -1, 1 or 0 by the case-sensitive order of the values. */
  function SortByStr(a: string, b: string): (r: int)
    ensures r == -1 || r == 0 || r == 1
    ensures r == 0 <==> a == b
    ensures r == -1 <==> LexLt(a, b)
    ensures r == 1 <==> LexLt(b, a)
  {
    LexLeTotal(a, b);
    LexLtAsymmetric(a, b);
    if LexLt(a, b) then -1
    else if LexLt(b, a) then 1
    else 0
  }

  /** The case-sensitive sorter agrees with the later case-insensitive one on lower-case values. */
  lemma SortByStrOnLowerCase(a: string, b: string)
    requires Lower(a) == a && Lower(b) == b
    ensures SortByStr(a, b) == AppPacview.SortByStr(a, b)
  {
  }

  /** `populate_pkg_objects`: every sync-directory entry, cut at its first '.', names a repository. */
  function DbNames(entries: seq<string>): (r: seq<string>)
    ensures |r| == |entries|
    ensures forall i :: 0 <= i < |r| ==> StartsWith(entries[i], r[i]) && !Contains(r[i], ".")
    ensures forall i :: 0 <= i < |r| ==> r[i] == entries[i] || OccursAt(entries[i], ".", |r[i]|)
  {
    Map(entries, AppPacview.RepoName)
  }

  /** The second Python version keeps exactly the names of the ".db" entries, in order. */
  lemma SecondVersionKeepsDbFiles(entries: seq<string>)
    ensures AppPacview.DbNames(entries) == DbNames(Filter(entries, AppPacview.IsDbFile))
  {
  }

  /** What the local database answers; `reason` is pyalpm's raw integer. */
  datatype ProtoLocalInfo = ProtoLocalInfo(reason: int, requiredBy: seq<string>, optionalFor: seq<string>, installDate: int)

  /**
   * The status pass of `populate_pkg_objects` for one object: the status
   * follows the reason-0/reason-1 chain, and the install date is copied for
   * every locally found package, whatever its reason.
   */
  function Populate(name: string, localDb: map<string, ProtoLocalInfo>): (r: (Flags, int))
    ensures name !in localDb ==> r == (NONE, 0)
    ensures name in localDb ==> r.1 == localDb[name].installDate
    ensures name in localDb ==> var info := localDb[name];
      r.0 == AppPacview.Classify(Some(AppPacview.LocalInfo(info.reason, info.requiredBy, info.optionalFor)))
  {
    if name in localDb then
      var info := localDb[name];
      var status :=
        if info.reason == 0 then EXPLICIT
        else if info.reason == 1 then
          if |info.requiredBy| > 0 then DEPENDENCY
          else if |info.optionalFor| > 0 then OPTIONAL
          else ORPHAN
        else NONE;
      (status, info.installDate)
    else (NONE, 0)
  }

  /** A locally found package with an unknown reason keeps NONE but still shows its install date. */
  lemma UnknownReasonKeepsDate(name: string, localDb: map<string, ProtoLocalInfo>)
    requires name in localDb && localDb[name].reason != 0 && localDb[name].reason != 1
    ensures Populate(name, localDb).0 == NONE
    ensures Populate(name, localDb).1 == localDb[name].installDate
  {
  }
}

=== FILE: search_bar.dfy ===
/**
 * The search bar (src/search_bar.rs): the search mode and property with
 * their key bindings, the AUR error indicator, and when the "changed" and
 * "aur-search" signals fire. Widgets are reduced to the state the handlers
 * set; the delay timer is a pending flag that fires later.
 */
module SearchBar {
  import opened Wrappers
  import opened Traits

  datatype SearchMode = All | Any | Exact

  datatype SearchProp = Name | NameDesc | Groups | Deps | Optdeps | Provides | Files

  /** The modes in declaration order, as the enum iterator yields them. */
  const MODES: seq<SearchMode> := [All, Any, Exact]

  /** The properties in declaration order. */
  const PROPS: seq<SearchProp> := [Name, NameDesc, Groups, Deps, Optdeps, Provides, Files]

  /** Every mode and every property is listed, so cycling is defined everywhere. */
  lemma EnumsListed(m: SearchMode, p: SearchProp)
    ensures m in MODES && p in PROPS
  {
  }

  /** No mode or property is listed twice. */
  lemma EnumsDistinct()
    ensures Distinct(MODES) && Distinct(PROPS)
  {
  }

  /** The two signals the bar emits. */
  datatype Signal = Changed | AurSearch

  /** The state the handlers read and write. */
  datatype Bar = Bar(text: string, mode: SearchMode, prop: SearchProp,
                     defaultMode: SearchMode, defaultProp: SearchProp,
                     enabled: bool, revealed: bool,
                     errorClass: bool, errorLabel: string, errorVisible: bool,
                     clearVisible: bool, timerPending: bool)

  /** A handler's result: the new state and the signals emitted, in order. */
  datatype Step = Step(bar: Bar, signals: seq<Signal>)

  /** The "changed" emission of the mode and prop notify handlers. */
  function ChangedIfText(text: string): (s: seq<Signal>)
    ensures |s| <= 1 && (s == [Changed] <==> text != "")
  {
    if text != "" then [Changed] else []
  }

  /** `search.set-mode`: the mode is stored; a search is redone only when there is text. */
  function SetMode(b: Bar, m: SearchMode): (r: Step)
    ensures r.bar == b.(mode := m)
    ensures r.signals == ChangedIfText(b.text)
  {
    Step(b.(mode := m), ChangedIfText(b.text))
  }

  /** `search.set-prop`: as for the mode. */
  function SetProp(b: Bar, p: SearchProp): (r: Step)
    ensures r.bar == b.(prop := p)
    ensures r.signals == ChangedIfText(b.text)
  {
    Step(b.(prop := p), ChangedIfText(b.text))
  }

  /** The key bindings of the bar; `CtrlDigit(n)` is Ctrl with the digit key n. */
  datatype Key = CtrlM | CtrlShiftM | CtrlL | CtrlN | CtrlE | CtrlP | CtrlShiftP | CtrlDigit(n: nat) | CtrlR

  /** `search.reset-params`: the default mode, then the default property. */
  function ResetParams(b: Bar): (r: Step)
    ensures r.bar.mode == b.defaultMode && r.bar.prop == b.defaultProp
    ensures r.bar.text == b.text
    ensures r.signals == ChangedIfText(b.text) + ChangedIfText(b.text)
  {
    var s1 := SetMode(b, b.defaultMode);
    var s2 := SetProp(s1.bar, b.defaultProp);
    Step(s2.bar, s1.signals + s2.signals)
  }

  /** The mode after the given one: All, Any, Exact, then All again. */
  function CycleMode(m: SearchMode): SearchMode
  {
    match m
    case All => Any
    case Any => Exact
    case Exact => All
  }

  /** The mode before the given one. */
  function ReverseCycleMode(m: SearchMode): SearchMode
  {
    match m
    case All => Exact
    case Any => All
    case Exact => Any
  }

  /** The property after the given one, in declaration order, wrapping at the end. */
  function CycleProp(p: SearchProp): SearchProp
  {
    match p
    case Name => NameDesc
    case NameDesc => Groups
    case Groups => Deps
    case Deps => Optdeps
    case Optdeps => Provides
    case Provides => Files
    case Files => Name
  }

  /** The property before the given one. */
  function ReverseCycleProp(p: SearchProp): SearchProp
  {
    match p
    case Name => Files
    case NameDesc => Name
    case Groups => NameDesc
    case Deps => Groups
    case Optdeps => Deps
    case Provides => Optdeps
    case Files => Provides
  }

  /**
   * The tables above are what the key handlers' iterator chains compute:
   * `iter().cycle().skip_while(!= current).nth(1)` is the next value of the
   * declaration-order cycle, and the same on the reversed iterator the
   * previous one.
   */
  lemma CycleTablesAgree(m: SearchMode, p: SearchProp)
    ensures m in MODES && p in PROPS
    ensures CycleMode(m) == NextOf(MODES, m) && ReverseCycleMode(m) == PreviousOf(MODES, m)
    ensures CycleProp(p) == NextOf(PROPS, p) && ReverseCycleProp(p) == PreviousOf(PROPS, p)
  {
    EnumsListed(m, p);
    ModeTableAgrees(m);
    PropTableAgrees(p);
  }

  /** The mode tables against the declaration-order cycle. */
  lemma ModeTableAgrees(m: SearchMode)
    ensures m in MODES
    ensures CycleMode(m) == NextOf(MODES, m) && ReverseCycleMode(m) == PreviousOf(MODES, m)
  {
    EnumsDistinct();
    var i := ModeNumber(m);
    assert MODES[i] == m;
    NextAt(MODES, i);
    PreviousAt(MODES, i);
  }

  /** The property tables against the declaration-order cycle. */
  lemma PropTableAgrees(p: SearchProp)
    ensures p in PROPS
    ensures CycleProp(p) == NextOf(PROPS, p) && ReverseCycleProp(p) == PreviousOf(PROPS, p)
  {
    EnumsDistinct();
    var i := PropNumber(p);
    assert PROPS[i] == p;
    NextAt(PROPS, i);
    PreviousAt(PROPS, i);
  }

  /** Where each mode sits in the declaration order. */
  lemma ModeIndices(m: SearchMode)
    ensures m in MODES
    ensures FirstIndex(MODES, m) == LastIndex(MODES, m) == ModeNumber(m)
  {
    EnumsListed(m, Name);
    EnumsDistinct();
    DistinctIndices(MODES, m);
    assert MODES[ModeNumber(m)] == m;
  }

  /** Where each property sits in the declaration order. */
  lemma PropIndices(p: SearchProp)
    ensures p in PROPS
    ensures FirstIndex(PROPS, p) == LastIndex(PROPS, p) == PropNumber(p)
  {
    EnumsListed(All, p);
    EnumsDistinct();
    DistinctIndices(PROPS, p);
    assert PROPS[PropNumber(p)] == p;
  }

  /** The declaration position of a mode. */
  function ModeNumber(m: SearchMode): nat
  {
    match m
    case All => 0
    case Any => 1
    case Exact => 2
  }

  /** The declaration position of a property. */
  function PropNumber(p: SearchProp): nat
  {
    match p
    case Name => 0
    case NameDesc => 1
    case Groups => 2
    case Deps => 3
    case Optdeps => 4
    case Provides => 5
    case Files => 6
  }

  /**
   * A key press: Ctrl+M / Ctrl+Shift+M step the mode forward / back
   * cyclically, Ctrl+L/N/E pick a mode, Ctrl+P / Ctrl+Shift+P step the
   * property, Ctrl+1 to Ctrl+7 pick the property of that number, Ctrl+R
   * resets. Other digits have no binding. Each key sets one parameter and
   * so emits "changed" at most once, except Ctrl+R which sets both.
   */
  function KeyPress(b: Bar, key: Key): (r: Step)
    ensures key == CtrlM ==> r.bar.mode == CycleMode(b.mode)
    ensures key == CtrlShiftM ==> r.bar.mode == ReverseCycleMode(b.mode)
    ensures key == CtrlP ==> r.bar.prop == CycleProp(b.prop)
    ensures key == CtrlShiftP ==> r.bar.prop == ReverseCycleProp(b.prop)
    ensures key.CtrlDigit? && 1 <= key.n <= |PROPS| ==> r.bar.prop == PROPS[key.n - 1]
    ensures key.CtrlDigit? && !(1 <= key.n <= |PROPS|) ==> r == Step(b, [])
    ensures key == CtrlR ==> r.bar.mode == b.defaultMode && r.bar.prop == b.defaultProp
    ensures r.bar.text == b.text
    ensures key != CtrlR ==> r.signals == ChangedIfText(b.text) || r.signals == []
  {
    match key
    case CtrlM => SetMode(b, CycleMode(b.mode))
    case CtrlShiftM => SetMode(b, ReverseCycleMode(b.mode))
    case CtrlL => SetMode(b, All)
    case CtrlN => SetMode(b, Any)
    case CtrlE => SetMode(b, Exact)
    case CtrlP => SetProp(b, CycleProp(b.prop))
    case CtrlShiftP => SetProp(b, ReverseCycleProp(b.prop))
    case CtrlDigit(n) => if 1 <= n <= |PROPS| then SetProp(b, PROPS[n - 1]) else Step(b, [])
    case CtrlR => ResetParams(b)
  }

  /** A key and its shifted partner undo each other. */
  lemma ShiftUndoes(b: Bar)
    ensures KeyPress(KeyPress(b, CtrlM).bar, CtrlShiftM).bar.mode == b.mode
    ensures KeyPress(KeyPress(b, CtrlShiftM).bar, CtrlM).bar.mode == b.mode
    ensures KeyPress(KeyPress(b, CtrlP).bar, CtrlShiftP).bar.prop == b.prop
    ensures KeyPress(KeyPress(b, CtrlShiftP).bar, CtrlP).bar.prop == b.prop
  {
  }

  /** Pressing Ctrl+P once per property brings the property back, and not sooner: the cycle visits all seven. */
  lemma PropCycleLength(b: Bar)
    ensures b.prop in PROPS
    ensures Iterate(PROPS, b.prop, |PROPS|) == b.prop
    ensures forall k :: 0 < k < |PROPS| ==> Iterate(PROPS, b.prop, k) != b.prop
  {
    EnumsListed(b.mode, b.prop);
    EnumsDistinct();
    FullCycle(PROPS, b.prop);
    var p := FirstIndex(PROPS, b.prop);
    forall k | 0 < k < |PROPS|
      ensures Iterate(PROPS, b.prop, k) != b.prop
    {
      IterateIndex(PROPS, p, k);
    }
  }

  /** A mode or property key never triggers a search over an empty text. */
  lemma EmptyTextKeysSilent(b: Bar, key: Key)
    requires b.text == ""
    ensures KeyPress(b, key).signals == []
  {
  }

  /**
   * `set_aur_status`: an error sets the error class and shows the message
   * without its last character (the trailing newline of the AUR reply) on a
   * visible button; success clears all three.
   */
  function SetAurStatus(b: Bar, status: Result<(), string>): (r: Bar)
    ensures status.Err? && status.error != "" ==> r.errorLabel + [status.error[|status.error| - 1]] == status.error
    ensures status.Err? && status.error == "" ==> r.errorLabel == ""
    ensures r.errorClass <==> status.Err?
    ensures r.errorVisible <==> status.Err?
    ensures status.Ok? ==> r.errorLabel == ""
    ensures r.(errorClass := b.errorClass, errorLabel := b.errorLabel, errorVisible := b.errorVisible) == b
  {
    match status
    case Err(e) =>
      var shown := if e == "" then e else e[..|e| - 1];
      b.(errorClass := true, errorLabel := shown, errorVisible := true)
    case Ok(_) => b.(errorClass := false, errorLabel := "", errorVisible := false)
  }

  /** Success after any error leaves no trace of it: the indicator is as if no error had happened. */
  lemma OkClearsError(b: Bar, e: string)
    ensures SetAurStatus(SetAurStatus(b, Err(e)), Ok(())) == SetAurStatus(b, Ok(()))
  {
  }

  /**
   * The text's changed handler: the clear button shows for a non-empty
   * text; any pending timer is cancelled; an empty text clears the AUR
   * status and emits "changed" then "aur-search" at once; otherwise the
   * delay timer is started.
   */
  function TextChanged(b: Bar, text: string): (r: Step)
    ensures r.bar.text == text
    ensures r.bar.clearVisible <==> text != ""
    ensures text == "" ==> r.signals == [Changed, AurSearch] && !r.bar.timerPending && !r.bar.errorVisible
    ensures text != "" ==> r.signals == [] && r.bar.timerPending
    ensures r.bar.mode == b.mode && r.bar.prop == b.prop
  {
    var b1 := b.(text := text, clearVisible := text != "", timerPending := false);
    if text == "" then Step(SetAurStatus(b1, Ok(())), [Changed, AurSearch])
    else Step(b1.(timerPending := true), [])
  }

  /** The delay timer firing: "changed" once, and the timer is gone. */
  function TimerFired(b: Bar): (r: Step)
    ensures !r.bar.timerPending
    ensures r.signals == (if b.timerPending then [Changed] else [])
    ensures r.bar.text == b.text
  {
    if b.timerPending then Step(b.(timerPending := false), [Changed]) else Step(b, [])
  }

  /** Typing in quick succession starts over the delay: two edits before it runs out give one "changed". */
  lemma EditsAreDebounced(b: Bar, t1: string, t2: string)
    requires t1 != "" && t2 != ""
    ensures var s1 := TextChanged(b, t1);
      var s2 := TextChanged(s1.bar, t2);
      var s3 := TimerFired(s2.bar);
      s1.signals + s2.signals + s3.signals == [Changed] && s3.bar.text == t2
  {
  }

  /** Activating the entry (Enter) asks for an AUR search when there is text. */
  function Activate(b: Bar): (s: seq<Signal>)
    ensures s == [AurSearch] <==> b.text != ""
    ensures s == [] <==> b.text == ""
  {
    if b.text != "" then [AurSearch] else []
  }

  /**
   * The enabled notify handler: the revealer follows; disabling empties the
   * text, which runs the changed handler when the text was not already
   * empty (setting an unchanged text emits nothing).
   */
  function SetEnabled(b: Bar, enabled: bool): (r: Step)
    ensures r.bar.enabled == enabled && r.bar.revealed == enabled
    ensures !enabled ==> r.bar.text == ""
    ensures enabled ==> r.bar.text == b.text && r.signals == []
    ensures !enabled && b.text != "" ==> r.signals == [Changed, AurSearch]
  {
    var b1 := b.(enabled := enabled, revealed := enabled);
    if !enabled && b.text != "" then TextChanged(b1, "") else Step(b1, [])
  }

  /** The clear button empties the text, with the same effect as deleting it. */
  function ClearClicked(b: Bar): (r: Step)
    ensures r.bar.text == "" && (b.text == "" || !r.bar.clearVisible)
    ensures b.text != "" ==> r == TextChanged(b, "")
  {
    if b.text != "" then TextChanged(b, "") else Step(b, [])
  }

  /**
   * The key-capture controller: a key typed elsewhere while the bar is
   * hidden, without Alt or Ctrl, and forwarded to the entry, enables the
   * bar. `forwarded` is whether the entry accepted the key.
   */
  function KeyCaptured(b: Bar, alt: bool, ctrl: bool, forwarded: bool): (r: Step)
    ensures r.bar.enabled <==> b.enabled || (!alt && !ctrl && forwarded)
    ensures b.enabled || alt || ctrl || !forwarded ==> r == Step(b, [])
  {
    if !(b.enabled || alt || ctrl) && forwarded then SetEnabled(b, true) else Step(b, [])
  }
}

=== FILE: sorting.dfy ===
/**
 * Ordering of strings and the sorting the browser applies to every list it
 * shows. Python's `sorted` and Rust's `sort`/`sort_unstable` on strings both
 * order by code point, which is the lexicographic order on characters
 * defined here.
 */
module Sorting {
  import opened Wrappers

  /** Lexicographic "less than or equal" on strings. */
  predicate LexLe(a: string, b: string)
    decreases |a|
  {
    |a| == 0 || (|b| > 0 && (a[0] < b[0] || (a[0] == b[0] && LexLe(a[1..], b[1..]))))
  }

  /** Strict lexicographic order. */
  predicate LexLt(a: string, b: string)
  {
    LexLe(a, b) && a != b
  }

  lemma {:induction false} LexLeReflexive(a: string)
    ensures LexLe(a, a)
    decreases |a|
  {
    if |a| > 0 {
      LexLeReflexive(a[1..]);
    }
  }

  lemma {:induction false} LexLeTotal(a: string, b: string)
    ensures LexLe(a, b) || LexLe(b, a)
    decreases |a|
  {
    if |a| > 0 && |b| > 0 && a[0] == b[0] {
      LexLeTotal(a[1..], b[1..]);
    }
  }

  lemma {:induction false} LexLeAntisymmetric(a: string, b: string)
    requires LexLe(a, b) && LexLe(b, a)
    ensures a == b
    decreases |a|
  {
    if |a| > 0 {
      LexLeAntisymmetric(a[1..], b[1..]);
      assert a == [a[0]] + a[1..] && b == [b[0]] + b[1..];
    }
  }

  lemma {:induction false} LexLeTransitive(a: string, b: string, c: string)
    requires LexLe(a, b) && LexLe(b, c)
    ensures LexLe(a, c)
    decreases |a|
  {
    if |a| > 0 && a[0] == b[0] && b[0] == c[0] {
      LexLeTransitive(a[1..], b[1..], c[1..]);
    }
  }

  /** The strict order is asymmetric. */
  lemma LexLtAsymmetric(a: string, b: string)
    ensures !(LexLt(a, b) && LexLt(b, a))
  {
    if LexLe(a, b) && LexLe(b, a) {
      LexLeAntisymmetric(a, b);
    }
  }

  /** `s` is ordered by `key`. */
  predicate SortedBy<T>(s: seq<T>, key: T -> string)
  {
    forall i, j :: 0 <= i < j < |s| ==> LexLe(key(s[i]), key(s[j]))
  }

  /** `s` is ordered. */
  predicate Sorted(s: seq<string>)
  {
    forall i, j :: 0 <= i < j < |s| ==> LexLe(s[i], s[j])
  }

  /** `r` holds the elements of `s`, each as often, ordered. */
  predicate IsSortedPermutation(r: seq<string>, s: seq<string>)
  {
    Sorted(r) && multiset(r) == multiset(s)
  }

  function Identity(s: string): string { s }

  /** Inserts `x` into the ordered sequence `s` before the first element with a larger key. */
  function Insert<T>(x: T, s: seq<T>, key: T -> string): (r: seq<T>)
    requires SortedBy(s, key)
    ensures SortedBy(r, key)
    ensures multiset(r) == multiset(s) + multiset{x}
    ensures |r| == |s| + 1
  {
    if |s| == 0 then [x]
    else if LexLe(key(x), key(s[0])) then
      InsertFront(x, s, key);
      [x] + s
    else
      var t := Insert(x, s[1..], key);
      InsertBehind(x, s, t, key);
      [s[0]] + t
  }

  /** An element no larger than the head goes in front. */
  lemma InsertFront<T>(x: T, s: seq<T>, key: T -> string)
    requires SortedBy(s, key) && |s| > 0 && LexLe(key(x), key(s[0]))
    ensures SortedBy([x] + s, key)
  {
    assert forall j :: 0 < j < |s| + 1 ==> ([x] + s)[j] == s[j - 1];
    forall j | 0 < j < |s| + 1
      ensures LexLe(key(x), key(([x] + s)[j]))
    {
      if j > 1 {
        LexLeTransitive(key(x), key(s[0]), key(s[j - 1]));
      }
    }
  }

  /** An element larger than the head goes into the tail, which stays after the head. */
  lemma InsertBehind<T>(x: T, s: seq<T>, t: seq<T>, key: T -> string)
    requires SortedBy(s, key) && |s| > 0 && !LexLe(key(x), key(s[0]))
    requires SortedBy(t, key) && multiset(t) == multiset(s[1..]) + multiset{x}
    ensures SortedBy([s[0]] + t, key)
    ensures multiset([s[0]] + t) == multiset(s) + multiset{x}
  {
    LexLeTotal(key(x), key(s[0]));
    assert s == [s[0]] + s[1..];
    forall j | 0 <= j < |t|
      ensures LexLe(key(s[0]), key(t[j]))
    {
      assert t[j] in multiset(s[1..]) + multiset{x};
      if t[j] != x {
        assert t[j] in s[1..];
      }
    }
  }


  /** Insertion sort by `key`; stable, which is one valid outcome of Rust's `sort_unstable_by`. */
  function SortBy<T>(s: seq<T>, key: T -> string): (r: seq<T>)
    ensures SortedBy(r, key)
    ensures multiset(r) == multiset(s)
    ensures |r| == |s|
  {
    if |s| == 0 then []
    else
      assert s == s[..|s| - 1] + [s[|s| - 1]];
      Insert(s[|s| - 1], SortBy(s[..|s| - 1], key), key)
  }

  /** Sorts strings in code point order (Python's `sorted`, Rust's `sort`). */
  function Sort(s: seq<string>): (r: seq<string>)
    ensures IsSortedPermutation(r, s)
  {
    var r := SortBy(s, Identity);
    assert forall i :: 0 <= i < |r| ==> Identity(r[i]) == r[i];
    r
  }

  /** There is only one ordered arrangement of a multiset of strings. */
  lemma {:induction false} SortedPermutationUnique(a: seq<string>, b: seq<string>)
    requires Sorted(a) && Sorted(b) && multiset(a) == multiset(b)
    ensures a == b
    decreases |a|
  {
    assert |b| == |a| by {
      assert |multiset(a)| == |a| && |multiset(b)| == |b|;
    }
    if |a| > 0 {
      SortedHeadsAgree(a, b);
      assert a == [a[0]] + a[1..] && b == [b[0]] + b[1..];
      TailMultiset(a);
      TailMultiset(b);
      SortedPermutationUnique(a[1..], b[1..]);
    }
  }

  lemma TailMultiset(a: seq<string>)
    requires |a| > 0
    ensures multiset(a[1..]) == multiset(a) - multiset{a[0]}
  {
    assert a == [a[0]] + a[1..];
  }

  /** Two ordered arrangements of one multiset start with the same element. */
  lemma SortedHeadsAgree(a: seq<string>, b: seq<string>)
    requires Sorted(a) && Sorted(b) && multiset(a) == multiset(b) && |a| > 0 && |b| > 0
    ensures a[0] == b[0]
  {
    assert a[0] in multiset(b);
    assert b[0] in multiset(a);
    var i :| 0 <= i < |b| && b[i] == a[0];
    var j :| 0 <= j < |a| && a[j] == b[0];
    LexLeReflexive(a[0]);
    LexLeReflexive(b[0]);
    assert LexLe(b[0], b[i]);
    assert LexLe(a[0], a[j]);
    LexLeAntisymmetric(a[0], b[0]);
  }

  /** Sorting an already ordered sequence changes nothing, so sorting is idempotent. */
  lemma SortOfSorted(s: seq<string>)
    requires Sorted(s)
    ensures Sort(s) == s
  {
    SortedPermutationUnique(Sort(s), s);
  }

  /** Keeps the elements satisfying `p`, in order. */
  function Filter<T>(s: seq<T>, p: T -> bool): (r: seq<T>)
    ensures |r| <= |s|
    ensures forall i :: 0 <= i < |r| ==> p(r[i]) && r[i] in s
    ensures forall i :: 0 <= i < |s| && p(s[i]) ==> s[i] in r
  {
    if |s| == 0 then []
    else
      var rest := Filter(s[1..], p);
      assert forall i :: 0 < i < |s| ==> s[i] == s[1..][i - 1];
      if p(s[0]) then [s[0]] + rest else rest
  }

  /**
   * `r` is `s` with some elements deleted and the rest in their order: each
   * element of `r` is matched, in turn, against the earliest element of `s`
   * left after the previous match.
   */
  ghost predicate IsSubsequence<T>(r: seq<T>, s: seq<T>)
    decreases |s|
  {
    if |r| == 0 then true
    else if |s| == 0 then false
    else if r[0] == s[0] then IsSubsequence(r[1..], s[1..])
    else IsSubsequence(r, s[1..])
  }

  /** Filtering only deletes elements: what it keeps stays in the original order. */
  lemma {:induction false} FilterIsSubsequence<T>(s: seq<T>, p: T -> bool)
    ensures IsSubsequence(Filter(s, p), s)
    decreases |s|
  {
    if |s| > 0 {
      var rest := Filter(s[1..], p);
      FilterIsSubsequence(s[1..], p);
      if p(s[0]) {
        assert Filter(s, p) == [s[0]] + rest;
        assert ([s[0]] + rest)[1..] == rest;
      } else {
        assert Filter(s, p) == rest;
        if |rest| > 0 {
          assert p(rest[0]);
        }
      }
    }
  }

  /** Dropping the first element of a subsequence leaves a subsequence. */
  lemma {:induction false} SubsequenceDropFirst<T>(r: seq<T>, t: seq<T>)
    requires |r| > 0 && IsSubsequence(r, t)
    ensures IsSubsequence(r[1..], t)
    decreases |t|, 1
  {
    if r[0] == t[0] {
      SubsequenceExtend(r[1..], t);
    } else {
      SubsequenceDropFirst(r, t[1..]);
      SubsequenceExtend(r[1..], t);
    }
  }

  /** A subsequence of a sequence's tail is a subsequence of the sequence. */
  lemma {:induction false} SubsequenceExtend<T>(x: seq<T>, t: seq<T>)
    requires |t| > 0 && IsSubsequence(x, t[1..])
    ensures IsSubsequence(x, t)
    decreases |t|, 0
  {
    if |x| > 0 && x[0] == t[0] {
      SubsequenceDropFirst(x, t[1..]);
    }
  }

  /** Filtering then mapping keeps the mapped images in order. */
  lemma {:induction false} MapFilterIsSubsequence<T, U>(s: seq<T>, p: T -> bool, f: T -> U)
    ensures IsSubsequence(Map(Filter(s, p), f), Map(s, f))
    decreases |s|
  {
    if |s| > 0 {
      var rest := Map(Filter(s[1..], p), f);
      MapFilterIsSubsequence(s[1..], p, f);
      assert Map(s, f) == [f(s[0])] + Map(s[1..], f);
      assert Map(s, f)[1..] == Map(s[1..], f);
      if p(s[0]) {
        assert Filter(s, p) == [s[0]] + Filter(s[1..], p);
        assert Map(Filter(s, p), f) == [f(s[0])] + rest;
        assert ([f(s[0])] + rest)[1..] == rest;
      } else {
        assert Filter(s, p) == Filter(s[1..], p);
        SubsequenceExtend(rest, Map(s, f));
      }
    }
  }

  /** How many elements of `s` pass the test. */
  function CountWhere<T>(s: seq<T>, p: T -> bool): nat
  {
    if |s| == 0 then 0 else (if p(s[0]) then 1 else 0) + CountWhere(s[1..], p)
  }

  /** Filtering keeps one element per passing element. */
  lemma {:induction false} FilterLength<T>(s: seq<T>, p: T -> bool)
    ensures |Filter(s, p)| == CountWhere(s, p)
    decreases |s|
  {
    if |s| > 0 {
      FilterLength(s[1..], p);
    }
  }

  /** Filtering distributes over concatenation. */
  lemma {:induction false} FilterAppend<T>(a: seq<T>, b: seq<T>, p: T -> bool)
    ensures Filter(a + b, p) == Filter(a, p) + Filter(b, p)
    decreases |a|
  {
    if |a| > 0 {
      assert (a + b)[1..] == a[1..] + b;
      assert (a + b)[0] == a[0];
      FilterAppend(a[1..], b, p);
      if p(a[0]) {
        calc {
          Filter(a + b, p);
          [a[0]] + Filter(a[1..] + b, p);
          [a[0]] + (Filter(a[1..], p) + Filter(b, p));
          ([a[0]] + Filter(a[1..], p)) + Filter(b, p);
          Filter(a, p) + Filter(b, p);
        }
      } else {
        assert Filter(a + b, p) == Filter(a[1..] + b, p);
        assert Filter(a, p) == Filter(a[1..], p);
      }
    } else {
      assert a + b == b;
    }
  }

  /** Filtering keeps a sequence whose every element passes. */
  lemma {:induction false} FilterAll<T>(s: seq<T>, p: T -> bool)
    requires forall i :: 0 <= i < |s| ==> p(s[i])
    ensures Filter(s, p) == s
  {
    if |s| > 0 {
      FilterAll(s[1..], p);
    }
  }

  /** Filtering empties a sequence whose every element fails. */
  lemma FilterNone<T>(s: seq<T>, p: T -> bool)
    requires forall i :: 0 <= i < |s| ==> !p(s[i])
    ensures Filter(s, p) == []
  {
  }

  /** Filtering keeps exactly a prefix whose elements all pass when the rest all fail. */
  lemma {:induction false} FilterPrefix<T>(s: seq<T>, n: nat, p: T -> bool)
    requires n <= |s|
    requires forall i :: 0 <= i < n ==> p(s[i])
    requires forall k :: n <= k < |s| ==> !p(s[k])
    ensures Filter(s, p) == s[..n]
  {
    if n == 0 {
      FilterNone(s, p);
    } else {
      PassFailTail(s, n, p);
      FilterPrefix(s[1..], n - 1, p);
      FilterKeepsHead(s, p);
      HeadAndPrefix(s, n);
    }
  }

  /** A passing first element stays first. */
  lemma FilterKeepsHead<T>(s: seq<T>, p: T -> bool)
    requires |s| > 0 && p(s[0])
    ensures Filter(s, p) == [s[0]] + Filter(s[1..], p)
  {
  }

  /** The first element followed by a prefix of the rest is a prefix. */
  lemma HeadAndPrefix<T>(s: seq<T>, n: nat)
    requires 0 < n <= |s|
    ensures [s[0]] + s[1..][..n - 1] == s[..n]
  {
  }

  /** Dropping the first element of a passing prefix leaves a passing prefix one shorter. */
  lemma PassFailTail<T>(s: seq<T>, n: nat, p: T -> bool)
    requires 0 < n <= |s|
    requires forall i :: 0 <= i < n ==> p(s[i])
    requires forall k :: n <= k < |s| ==> !p(s[k])
    ensures forall i :: 0 <= i < n - 1 ==> p(s[1..][i])
    ensures forall k :: n - 1 <= k < |s| - 1 ==> !p(s[1..][k])
  {
    var tail := s[1..];
    forall i | 0 <= i < n - 1
      ensures p(tail[i])
    {
      assert tail[i] == s[i + 1];
    }
    forall k | n - 1 <= k < |tail|
      ensures !p(tail[k])
    {
      assert tail[k] == s[k + 1];
    }
  }

  /** Reverses a sequence. */
  function Reverse<T>(s: seq<T>): (r: seq<T>)
    ensures |r| == |s|
    ensures forall i :: 0 <= i < |s| ==> r[i] == s[|s| - 1 - i]
  {
    seq(|s|, i requires 0 <= i < |s| => s[|s| - 1 - i])
  }

  /** Filtering the newest-first order gives the newest-first order of the filtered list. */
  lemma {:induction false} FilterReverse<T>(s: seq<T>, p: T -> bool)
    ensures Filter(Reverse(s), p) == Reverse(Filter(s, p))
    decreases |s|
  {
    if |s| > 0 {
      var init := s[..|s| - 1];
      var last := s[|s| - 1];
      assert s == init + [last];
      ReverseSnoc(init, last);
      FilterReverse(init, p);
      FilterAppend([last], Reverse(init), p);
      FilterAppend(init, [last], p);
      ReverseAppend(Filter(init, p), Filter([last], p));
      ReverseAtMostOne(Filter([last], p));
    }
  }

  /** Reversing moves the last element to the front. */
  lemma ReverseSnoc<T>(init: seq<T>, last: T)
    ensures Reverse(init + [last]) == [last] + Reverse(init)
  {
  }

  /** A sequence of at most one element is its own reverse. */
  lemma ReverseAtMostOne<T>(s: seq<T>)
    requires |s| <= 1
    ensures Reverse(s) == s
  {
  }

  lemma ReverseAppend<T>(a: seq<T>, b: seq<T>)
    ensures Reverse(a + b) == Reverse(b) + Reverse(a)
  {
  }

  /** Applies `f` to every element. */
  function Map<T, U>(s: seq<T>, f: T -> U): (r: seq<U>)
    ensures |r| == |s|
    ensures forall i :: 0 <= i < |s| ==> r[i] == f(s[i])
  {
    seq(|s|, i requires 0 <= i < |s| => f(s[i]))
  }

  /** Mapping a sequence taken apart at its head. */
  lemma MapCons<T, U>(s: seq<T>, f: T -> U)
    requires |s| > 0
    ensures Map(s, f) == [f(s[0])] + Map(s[1..], f)
  {
    assert Map(s, f) == [f(s[0])] + Map(s[1..], f);
  }

  /** Applies `f` and keeps the present results, in order (Rust's `filter_map`). */
  function FilterMap<T, U>(s: seq<T>, f: T -> Option<U>): (r: seq<U>)
    ensures |r| <= |s|
    ensures (forall j :: 0 <= j < |s| ==> f(s[j]).Some?) ==> |r| == |s|
  {
    if |s| == 0 then []
    else
      var rest := FilterMap(s[1..], f);
      assert forall j :: 0 < j < |s| ==> s[j] == s[1..][j - 1];
      match f(s[0])
      case Some(v) => [v] + rest
      case None => rest
  }

  /** Every kept result comes from some element. */
  lemma {:induction false} FilterMapFrom<T, U>(s: seq<T>, f: T -> Option<U>, k: nat)
    requires k < |FilterMap(s, f)|
    ensures exists j :: 0 <= j < |s| && f(s[j]) == Some(FilterMap(s, f)[k])
  {
    var rest := FilterMap(s[1..], f);
    if f(s[0]).Some? && k == 0 {
      assert f(s[0]) == Some(FilterMap(s, f)[0]);
    } else {
      var k' := if f(s[0]).Some? then k - 1 else k;
      assert FilterMap(s, f)[k] == rest[k'];
      FilterMapFrom(s[1..], f, k');
      var j :| 0 <= j < |s[1..]| && f(s[1..][j]) == Some(rest[k']);
      assert s[1..][j] == s[j + 1];
    }
  }

  /** Read newest first, result k is result |r|-1-k of the forward pass, and it comes from some element. */
  lemma ReverseFilterMapFrom<T, U>(s: seq<T>, f: T -> Option<U>, shown: seq<U>, k: nat)
    requires shown == Reverse(FilterMap(s, f)) && k < |shown|
    ensures |shown| == |FilterMap(s, f)|
    ensures shown[k] == FilterMap(s, f)[|FilterMap(s, f)| - 1 - k]
    ensures exists j :: 0 <= j < |s| && f(s[j]) == Some(shown[k])
  {
    FilterMapFrom(s, f, |FilterMap(s, f)| - 1 - k);
  }

  /** `filter_map` distributes over concatenation. */
  lemma {:induction false} FilterMapAppend<T, U>(a: seq<T>, b: seq<T>, f: T -> Option<U>)
    ensures FilterMap(a + b, f) == FilterMap(a, f) + FilterMap(b, f)
    decreases |a|
  {
    if |a| > 0 {
      assert (a + b)[1..] == a[1..] + b;
      assert (a + b)[0] == a[0];
      FilterMapAppend(a[1..], b, f);
    } else {
      assert a + b == b;
    }
  }

  /** `filter_map` over the reversed sequence gives the reversed results. */
  lemma {:induction false} FilterMapReverse<T, U>(s: seq<T>, f: T -> Option<U>)
    ensures FilterMap(Reverse(s), f) == Reverse(FilterMap(s, f))
    decreases |s|
  {
    if |s| > 0 {
      var init := s[..|s| - 1];
      var last := s[|s| - 1];
      assert s == init + [last];
      ReverseSnoc(init, last);
      FilterMapReverse(init, f);
      FilterMapAppend([last], Reverse(init), f);
      FilterMapAppend(init, [last], f);
      ReverseAppend(FilterMap(init, f), FilterMap([last], f));
      ReverseAtMostOne(FilterMap([last], f));
    }
  }
}

=== FILE: stats_dialog.dfy ===
/**
 * The statistics dialog (src/stats_dialog.rs): per-repository package
 * counts, installed counts and installed sizes, folded into one row per
 * listed repository and a final total row. Sizes are kept as numbers; their
 * decimal rendering is not modelled.
 */
module StatsDialog {
  import opened Strings
  import opened Sorting
  import opened PkgData
  import RustPkg = PkgObjects

  /** A row's numbers: packages, installed packages, installed size. */
  datatype Counts = Counts(packages: nat, installed: nat, size: int)

  const ZERO: Counts := Counts(0, 0, 0)

  function Plus(a: Counts, b: Counts): Counts
  {
    Counts(a.packages + b.packages, a.installed + b.installed, a.size + b.size)
  }

  /** What `pkg.repository()` reads. */
  function RepoOf(p: RustPkg.PkgObject): string
  {
    p.data.repository
  }

  /** `pkg.flags().intersects(PkgFlags::INSTALLED)`, on the flags with the update overlay. */
  predicate Installed(p: RustPkg.PkgObject)
  {
    Intersects(RustPkg.DisplayFlags(p), INSTALLED)
  }

  /** The overlay's UPDATES bit never makes a package count as installed. */
  lemma InstalledIgnoresUpdates(p: RustPkg.PkgObject)
    ensures Installed(p) <==> Intersects(p.data.flags, INSTALLED)
  {
    var f := RustPkg.DisplayFlags(p);
    assert f & !UPDATES == p.data.flags & !UPDATES;
    assert f & INSTALLED == (f & !UPDATES) & INSTALLED;
    assert p.data.flags & INSTALLED == (p.data.flags & !UPDATES) & INSTALLED;
  }

  /** One package's share of a repository's numbers. */
  function Contribution(p: RustPkg.PkgObject, repo: string): Counts
  {
    if RepoOf(p) != repo then ZERO
    else if Installed(p) then Counts(1, 1, p.data.installSize)
    else Counts(1, 0, 0)
  }

  /**
   * The inner fold of `update_ui` for one repository: every package of the
   * repository counts once; installed ones also count as installed and add
   * their installed size.
   */
  function RepoCounts(pkgs: seq<RustPkg.PkgObject>, repo: string): (c: Counts)
    ensures c.installed <= c.packages
  {
    if |pkgs| == 0 then ZERO
    else Plus(Contribution(pkgs[0], repo), RepoCounts(pkgs[1..], repo))
  }

  /**
   * The package count is how often the repository occurs among the
   * packages' repositories, and the installed count how often it occurs
   * among the installed packages' repositories.
   */
  lemma {:induction false} RepoCountsMeaning(pkgs: seq<RustPkg.PkgObject>, repo: string)
    ensures RepoCounts(pkgs, repo).packages == multiset(Map(pkgs, RepoOf))[repo]
    ensures RepoCounts(pkgs, repo).installed == multiset(Map(Filter(pkgs, Installed), RepoOf))[repo]
  {
    if |pkgs| > 0 {
      RepoCountsMeaning(pkgs[1..], repo);
      RepoNamesUnfold(pkgs);
    }
  }

  /** The repository names of a list, and of its installed part, taken apart at the head. */
  lemma RepoNamesUnfold(pkgs: seq<RustPkg.PkgObject>)
    requires |pkgs| > 0
    ensures Map(pkgs, RepoOf) == [RepoOf(pkgs[0])] + Map(pkgs[1..], RepoOf)
    ensures Installed(pkgs[0]) ==>
      Map(Filter(pkgs, Installed), RepoOf) == [RepoOf(pkgs[0])] + Map(Filter(pkgs[1..], Installed), RepoOf)
    ensures !Installed(pkgs[0]) ==> Map(Filter(pkgs, Installed), RepoOf) == Map(Filter(pkgs[1..], Installed), RepoOf)
  {
    MapCons(pkgs, RepoOf);
    var installed := Filter(pkgs, Installed);
    if Installed(pkgs[0]) {
      assert installed == [pkgs[0]] + Filter(pkgs[1..], Installed);
      MapCons(installed, RepoOf);
      assert installed[1..] == Filter(pkgs[1..], Installed);
    }
  }

  /** Appending a package adds its share: the fold read from the other end. */
  lemma {:induction false} RepoCountsAppend(pkgs: seq<RustPkg.PkgObject>, p: RustPkg.PkgObject, repo: string)
    ensures RepoCounts(pkgs + [p], repo) == Plus(RepoCounts(pkgs, repo), Contribution(p, repo))
  {
    if |pkgs| > 0 {
      assert (pkgs + [p])[1..] == pkgs[1..] + [p];
      RepoCountsAppend(pkgs[1..], p, repo);
    } else {
      assert (pkgs + [p])[1..] == [];
    }
  }

  /** The outer fold: the running totals over the listed repositories, in order. */
  function Totals(pkgs: seq<RustPkg.PkgObject>, repos: seq<string>): Counts
  {
    if |repos| == 0 then ZERO
    else Plus(Totals(pkgs, repos[..|repos| - 1]), RepoCounts(pkgs, repos[|repos| - 1]))
  }

  /** The label of a repository row: "AUR" for "aur", else the name in title case. */
  function RepoLabel(repo: string): (r: string)
    ensures repo == "aur" ==> r == "AUR"
    ensures repo != "aur" ==> r == Titlecase(repo)
  {
    if repo == "aur" then Upper(repo) else Titlecase(repo)
  }

  /** Repository names split into words at hyphens and spaces. */
  predicate IsWordBreak(c: char)
  {
    c == '-' || c == ' '
  }

  /** Position `i` of `word` begins a word: it is the first character or follows a break. */
  predicate StartsWord(word: string, i: int)
    requires 0 <= i < |word|
  {
    i == 0 || IsWordBreak(word[i - 1])
  }

  /**
   * Title case of a repository name: the first letter of every word
   * upper-cased, so "core-testing" becomes "Core-Testing"; every other
   * character is kept.
   */
  function Titlecase(word: string): (r: string)
    ensures |r| == |word|
    ensures |word| > 0 ==> r[0] == UpperChar(word[0])
    ensures forall i :: 0 <= i < |word| ==> r[i] == (if StartsWord(word, i) then UpperChar(word[i]) else word[i])
  {
    TitlecaseFrom(word, true)
  }

  /** `Titlecase` of the rest of a name, `atStart` telling whether a word begins here. */
  function TitlecaseFrom(rest: string, atStart: bool): (r: string)
    ensures |r| == |rest|
    ensures |rest| > 0 ==> r[0] == (if atStart then UpperChar(rest[0]) else rest[0])
    ensures forall i :: 0 < i < |rest| ==> r[i] == (if IsWordBreak(rest[i - 1]) then UpperChar(rest[i]) else rest[i])
  {
    if |rest| == 0 then ""
    else
      var tail := TitlecaseFrom(rest[1..], IsWordBreak(rest[0]));
      assert forall j :: 0 <= j < |rest| - 1 ==> rest[1..][j] == rest[j + 1];
      [if atStart then UpperChar(rest[0]) else rest[0]] + tail
  }

  /** A row of the statistics view. */
  datatype StatsRow = StatsRow(repo: string, counts: Counts)

  const TOTAL_LABEL: string := "<b>Total</b>"

  /** The sum of the rows' numbers. */
  function SumRows(rows: seq<StatsRow>): Counts
  {
    if |rows| == 0 then ZERO else Plus(SumRows(rows[..|rows| - 1]), rows[|rows| - 1].counts)
  }

  /** `update_ui`: a row per listed repository, then the total row. */
  function UpdateUi(repos: seq<string>, pkgs: seq<RustPkg.PkgObject>): (rows: seq<StatsRow>)
    ensures |rows| == |repos| + 1
    ensures forall k :: 0 <= k < |repos| ==> rows[k] == StatsRow(RepoLabel(repos[k]), RepoCounts(pkgs, repos[k]))
    ensures rows[|repos|] == StatsRow(TOTAL_LABEL, SumRows(rows[..|repos|]))
  {
    var perRepo := seq(|repos|, k requires 0 <= k < |repos| => StatsRow(RepoLabel(repos[k]), RepoCounts(pkgs, repos[k])));
    TotalsAreSums(pkgs, repos, perRepo);
    perRepo + [StatsRow(TOTAL_LABEL, Totals(pkgs, repos))]
  }

  /** The running totals are the sums of the per-repository rows. */
  lemma {:induction false} TotalsAreSums(pkgs: seq<RustPkg.PkgObject>, repos: seq<string>, rows: seq<StatsRow>)
    requires |rows| == |repos|
    requires forall k :: 0 <= k < |repos| ==> rows[k].counts == RepoCounts(pkgs, repos[k])
    ensures Totals(pkgs, repos) == SumRows(rows)
  {
    if |repos| > 0 {
      TotalsAreSums(pkgs, repos[..|repos| - 1], rows[..|rows| - 1]);
    }
  }

  /** The installed count never exceeds the package count, per row and in total. */
  lemma {:induction false} InstalledAtMostPackages(rows: seq<StatsRow>)
    requires forall k :: 0 <= k < |rows| ==> rows[k].counts.installed <= rows[k].counts.packages
    ensures SumRows(rows).installed <= SumRows(rows).packages
  {
    if |rows| > 0 {
      InstalledAtMostPackages(rows[..|rows| - 1]);
    }
  }

  /** A package of a repository that is not listed changes no row. */
  lemma UnlistedPackageIgnored(repos: seq<string>, pkgs: seq<RustPkg.PkgObject>, p: RustPkg.PkgObject)
    requires RepoOf(p) !in repos
    ensures UpdateUi(repos, [p] + pkgs) == UpdateUi(repos, pkgs)
  {
    var a := UpdateUi(repos, [p] + pkgs);
    var b := UpdateUi(repos, pkgs);
    forall k | 0 <= k < |repos|
      ensures a[k] == b[k]
    {
      SkipOtherRepo(pkgs, p, repos[k]);
    }
    assert a[..|repos|] == b[..|repos|];
  }

  /** A package of another repository adds nothing to a repository's numbers. */
  lemma SkipOtherRepo(pkgs: seq<RustPkg.PkgObject>, p: RustPkg.PkgObject, repo: string)
    requires RepoOf(p) != repo
    ensures RepoCounts([p] + pkgs, repo) == RepoCounts(pkgs, repo)
  {
    var all := [p] + pkgs;
    assert all[0] == p && all[1..] == pkgs;
    assert Contribution(p, repo) == ZERO;
    var rest := RepoCounts(pkgs, repo);
    assert RepoCounts(all, repo) == Plus(ZERO, rest);
    assert Plus(ZERO, rest) == Counts(rest.packages, rest.installed, rest.size);
  }
}

=== FILE: stats_window.dfy ===
/**
 * The earlier statistics window (src/stats_window.rs): the same numbers as
 * the dialog, computed with loops and running totals, and every repository
 * label in title case (including "aur").
 */
module StatsWindow {
  import opened PkgData
  import RustPkg = PkgObjects
  import opened StatsDialog

  /** One repository's numbers, counted in a single pass over the package list. */
  method CountRepo(pkgs: seq<RustPkg.PkgObject>, repo: string) returns (c: Counts)
    ensures c == RepoCounts(pkgs, repo)
  {
    c := ZERO;
    for j := 0 to |pkgs|
      invariant c == RepoCounts(pkgs[..j], repo)
    {
      RepoCountsAppend(pkgs[..j], pkgs[j], repo);
      assert pkgs[..j + 1] == pkgs[..j] + [pkgs[j]];
      c := Plus(c, Contribution(pkgs[j], repo));
    }
    assert pkgs[..|pkgs|] == pkgs;
  }

  /**
   * `StatsWindow::new`: a row per repository in input order with its
   * numbers, running totals, then the total row. The numbers agree with the
   * dialog's; only the label of "aur" differs.
   */
  method New(repos: seq<string>, pkgs: seq<RustPkg.PkgObject>) returns (rows: seq<StatsRow>)
    ensures |rows| == |repos| + 1
    ensures forall k :: 0 <= k < |repos| ==> rows[k] == StatsRow(Titlecase(repos[k]), RepoCounts(pkgs, repos[k]))
    ensures rows[|repos|] == StatsRow(TOTAL_LABEL, SumRows(rows[..|repos|]))
    ensures forall k :: 0 <= k <= |repos| ==> rows[k].counts == UpdateUi(repos, pkgs)[k].counts
    ensures forall k :: 0 <= k < |repos| && repos[k] != "aur" ==> rows[k] == UpdateUi(repos, pkgs)[k]
  {
    var perRepo, total := RepoRows(repos, pkgs);
    WindowRows(repos, pkgs, perRepo);
    rows := perRepo + [StatsRow(TOTAL_LABEL, total)];
  }

  /** The loop of `StatsWindow::new`: a row per repository and the running total. */
  method RepoRows(repos: seq<string>, pkgs: seq<RustPkg.PkgObject>) returns (rows: seq<StatsRow>, total: Counts)
    ensures |rows| == |repos|
    ensures forall k :: 0 <= k < |repos| ==> rows[k] == StatsRow(Titlecase(repos[k]), RepoCounts(pkgs, repos[k]))
    ensures total == Totals(pkgs, repos)
  {
    total := ZERO;
    rows := [];
    for i := 0 to |repos|
      invariant |rows| == i
      invariant forall k :: 0 <= k < i ==> rows[k] == StatsRow(Titlecase(repos[k]), RepoCounts(pkgs, repos[k]))
      invariant total == Totals(pkgs, repos[..i])
    {
      var counts := CountRepo(pkgs, repos[i]);
      TotalsStep(pkgs, repos, i);
      RowsStep(repos, pkgs, rows, i);
      total := Plus(total, counts);
      rows := rows + [StatsRow(Titlecase(repos[i]), counts)];
    }
    assert repos[..|repos|] == repos;
  }

  /** The per-repository rows followed by the total row satisfy everything `New` promises. */
  lemma WindowRows(repos: seq<string>, pkgs: seq<RustPkg.PkgObject>, perRepo: seq<StatsRow>)
    requires |perRepo| == |repos|
    requires forall k :: 0 <= k < |repos| ==> perRepo[k] == StatsRow(Titlecase(repos[k]), RepoCounts(pkgs, repos[k]))
    ensures var rows := perRepo + [StatsRow(TOTAL_LABEL, Totals(pkgs, repos))];
      && rows[|repos|] == StatsRow(TOTAL_LABEL, SumRows(rows[..|repos|]))
      && (forall k :: 0 <= k <= |repos| ==> rows[k].counts == UpdateUi(repos, pkgs)[k].counts)
      && (forall k :: 0 <= k < |repos| && repos[k] != "aur" ==> rows[k] == UpdateUi(repos, pkgs)[k])
  {
    RowsAgree(repos, pkgs, perRepo);
    var rows := perRepo + [StatsRow(TOTAL_LABEL, Totals(pkgs, repos))];
    assert rows[..|repos|] == perRepo;
    forall k | 0 <= k <= |repos|
      ensures rows[k].counts == UpdateUi(repos, pkgs)[k].counts
    {
      if k < |repos| {
        assert rows[k] == perRepo[k];
      }
    }
  }

  /** Per-repository rows with the window's labels have the dialog's numbers, and the dialog's labels except for "aur". */
  lemma RowsAgree(repos: seq<string>, pkgs: seq<RustPkg.PkgObject>, perRepo: seq<StatsRow>)
    requires |perRepo| == |repos|
    requires forall k :: 0 <= k < |repos| ==> perRepo[k] == StatsRow(Titlecase(repos[k]), RepoCounts(pkgs, repos[k]))
    ensures Totals(pkgs, repos) == SumRows(perRepo)
    ensures forall k :: 0 <= k < |repos| ==> perRepo[k].counts == UpdateUi(repos, pkgs)[k].counts
    ensures forall k :: 0 <= k < |repos| && repos[k] != "aur" ==> perRepo[k] == UpdateUi(repos, pkgs)[k]
    ensures UpdateUi(repos, pkgs)[|repos|].counts == SumRows(perRepo)
  {
    var dialog := UpdateUi(repos, pkgs);
    TotalsAreSums(pkgs, repos, perRepo);
    TotalsAreSums(pkgs, repos, dialog[..|repos|]);
  }

  /** The running total after one more repository. */
  lemma TotalsStep(pkgs: seq<RustPkg.PkgObject>, repos: seq<string>, i: nat)
    requires i < |repos|
    ensures Totals(pkgs, repos[..i + 1]) == Plus(Totals(pkgs, repos[..i]), RepoCounts(pkgs, repos[i]))
  {
    assert repos[..i + 1][..i] == repos[..i];
  }

  /** Appending the next repository's row keeps every earlier row. */
  lemma RowsStep(repos: seq<string>, pkgs: seq<RustPkg.PkgObject>, rows: seq<StatsRow>, i: nat)
    requires i < |repos| && |rows| == i
    requires forall k :: 0 <= k < i ==> rows[k] == StatsRow(Titlecase(repos[k]), RepoCounts(pkgs, repos[k]))
    ensures var next := rows + [StatsRow(Titlecase(repos[i]), RepoCounts(pkgs, repos[i]))];
      forall k :: 0 <= k < i + 1 ==> next[k] == StatsRow(Titlecase(repos[k]), RepoCounts(pkgs, repos[k]))
  {
    var next := rows + [StatsRow(Titlecase(repos[i]), RepoCounts(pkgs, repos[i]))];
    forall k | 0 <= k < i + 1
      ensures next[k] == StatsRow(Titlecase(repos[k]), RepoCounts(pkgs, repos[k]))
    {
      if k < i {
        assert next[k] == rows[k];
      }
    }
  }
}

=== FILE: strings.dfy ===
/**
 * String operations the browser relies on: substring search, prefix and
 * suffix tests, splitting at a separator, joining with a separator, and
 * ASCII case mapping. Strings are sequences of characters; the byte-level
 * view needed for the text widgets lives in the Utf8 module.
 */
module Strings {
  import opened Wrappers

  /** `sub` occurs in `s` starting at position `i`. */
  predicate OccursAt<T(==)>(s: seq<T>, sub: seq<T>, i: nat)
  {
    i + |sub| <= |s| && s[i..i + |sub|] == sub
  }

  /** Substring test (Python's `in`, Rust's `str::contains`). */
  predicate Contains<T(==)>(s: seq<T>, sub: seq<T>)
  {
    exists i: nat | i <= |s| :: OccursAt(s, sub, i)
  }

  predicate StartsWith<T(==)>(s: seq<T>, prefix: seq<T>)
  {
    |prefix| <= |s| && s[..|prefix|] == prefix
  }

  predicate EndsWith<T(==)>(s: seq<T>, suffix: seq<T>)
  {
    |suffix| <= |s| && s[|s| - |suffix|..] == suffix
  }

  /** A concatenation starts with its left part and ends with its right part. */
  lemma AppendStartsEnds<T>(a: seq<T>, b: seq<T>)
    ensures StartsWith(a + b, a) && EndsWith(a + b, b)
  {
    assert (a + b)[..|a|] == a;
    assert (a + b)[|a|..] == b;
  }

  /** A non-empty sequence taken apart at its head, in front of more. */
  lemma ConsAppend<T>(a: seq<T>, t: seq<T>)
    requires |a| > 0
    ensures [a[0]] + (a[1..] + t) == a + t
  {
    assert a == [a[0]] + a[1..];
  }

  /** The head and tail of a concatenation with a non-empty left part. */
  lemma AppendTail<T>(a: seq<T>, t: seq<T>)
    requires |a| > 0
    ensures (a + t)[0] == a[0] && (a + t)[1..] == a[1..] + t
    ensures forall x :: x in a[1..] ==> x in a
  {
    assert a == [a[0]] + a[1..];
  }

  /** Putting the same text in front keeps a prefix a prefix. */
  lemma PrefixUnderPrefix<T>(a: seq<T>, s: seq<T>, w: seq<T>)
    requires StartsWith(s, w)
    ensures StartsWith(a + s, a + w)
  {
    assert (a + s)[..|a| + |w|] == a + s[..|w|];
  }

  /** Putting text in front does not change how a text ends, for a suffix no longer than it. */
  lemma SuffixUnderPrefix<T>(a: seq<T>, s: seq<T>, e: seq<T>)
    requires |e| <= |s|
    ensures EndsWith(a + s, e) <==> EndsWith(s, e)
  {
    assert (a + s)[|a + s| - |e|..] == s[|s| - |e|..];
  }

  /** A character that does not occur does not occur as a one-character substring. */
  lemma NotInNotContains<T>(s: seq<T>, c: T)
    requires c !in s
    ensures !Contains(s, [c])
  {
    forall i: nat | i <= |s|
      ensures !OccursAt(s, [c], i)
    {
      if i + 1 <= |s| {
        assert s[i..i + 1] == [s[i]];
      }
    }
  }

  /** A character missing from `s` rules out every substring that holds it. */
  lemma AbsentCharNoOccurrence<T>(s: seq<T>, sub: seq<T>, j: nat)
    requires j < |sub| && sub[j] !in s
    ensures !Contains(s, sub)
  {
    forall i: nat | i <= |s|
      ensures !OccursAt(s, sub, i)
    {
      if i + |sub| <= |s| {
        assert s[i..i + |sub|][j] == s[i + j];
      }
    }
  }

  /** A prefix of a prefix. */
  lemma ShorterPrefix<T>(s: seq<T>, p: seq<T>, q: seq<T>)
    requires StartsWith(s, p + q)
    ensures StartsWith(s, p)
  {
    assert s[..|p|] == (p + q)[..|p|];
  }

  /** A prefix of `s` occurs in `a + s` right after `a`. */
  lemma PrefixAfter<T>(a: seq<T>, s: seq<T>, p: seq<T>)
    requires StartsWith(s, p)
    ensures OccursAt(a + s, p, |a|)
  {
    assert (a + s)[|a|..|a| + |p|] == s[..|p|];
  }

  /** Nothing starting inside `a` can be an occurrence of a pattern whose first element `a` lacks. */
  lemma FirstAbsentInPrefix<T>(a: seq<T>, t: seq<T>, sub: seq<T>, i: nat)
    requires |sub| > 0 && sub[0] !in a && i < |a|
    ensures !OccursAt(a + t, sub, i)
  {
    if i + |sub| <= |a + t| {
      assert (a + t)[i..i + |sub|][0] == a[i];
    }
  }

  /** The first position at or after `from` where `sub` occurs. */
  function FindFrom<T(==)>(s: seq<T>, sub: seq<T>, from: nat): (r: Option<nat>)
    decreases |s| + 1 - from
    ensures r.Some? ==> from <= r.value && OccursAt(s, sub, r.value)
    ensures r.Some? ==> forall j: nat :: from <= j < r.value ==> !OccursAt(s, sub, j)
    ensures r.None? ==> forall j: nat :: from <= j ==> !OccursAt(s, sub, j)
  {
    if from + |sub| > |s| then None
    else if s[from..from + |sub|] == sub then Some(from)
    else FindFrom(s, sub, from + 1)
  }

  /** The first occurrence of `sub` in `s` (Python's `str.find`, Rust's `str::find`). */
  function Find<T(==)>(s: seq<T>, sub: seq<T>): (r: Option<nat>)
    ensures r.Some? <==> Contains(s, sub)
    ensures r.Some? ==> OccursAt(s, sub, r.value)
    ensures r.Some? ==> forall j: nat :: j < r.value ==> !OccursAt(s, sub, j)
  {
    FindFrom(s, sub, 0)
  }

  /** The last position of element `x` in `s` (Rust's `rfind` for one character). */
  function LastIndexOf<T(==)>(s: seq<T>, x: T): (r: Option<nat>)
    ensures r.Some? ==> r.value < |s| && s[r.value] == x
    ensures r.Some? ==> forall j :: r.value < j < |s| ==> s[j] != x
    ensures r.None? ==> x !in s
  {
    if |s| == 0 then None
    else if s[|s| - 1] == x then Some(|s| - 1)
    else LastIndexOf(s[..|s| - 1], x)
  }

  /** Joins `parts` with `sep` between consecutive parts (Python's `sep.join`, Rust's `join`). */
  function Join<T>(parts: seq<seq<T>>, sep: seq<T>): seq<T>
  {
    if |parts| == 0 then []
    else if |parts| == 1 then parts[0]
    else parts[0] + sep + Join(parts[1..], sep)
  }

  /** A join starts with its first part. */
  lemma JoinStartsWithFirst<T>(parts: seq<seq<T>>, sep: seq<T>)
    requires |parts| > 0
    ensures StartsWith(Join(parts, sep), parts[0])
  {
    if |parts| > 1 {
      assert (parts[0] + sep + Join(parts[1..], sep))[..|parts[0]|] == parts[0];
    }
  }

  /**
   * Splits `s` at every occurrence of the non-empty separator `sep`, scanning
   * left to right (Rust's `str::split`, Python's `str.split(sep)`).
   */
  function Split<T(==)>(s: seq<T>, sep: seq<T>): (r: seq<seq<T>>)
    requires |sep| > 0
    decreases |s|
    ensures |r| > 0
    ensures forall k :: 0 <= k < |r| ==> !Contains(r[k], sep)
  {
    match Find(s, sep)
    case None => [s]
    case Some(i) =>
      FirstOccurrenceGivesSepFreePrefix(s, sep, i);
      [s[..i]] + Split(s[i + |sep|..], sep)
  }

  /** The part before the first occurrence of `sep` contains no `sep`. */
  lemma FirstOccurrenceGivesSepFreePrefix<T>(s: seq<T>, sep: seq<T>, i: nat)
    requires |sep| > 0
    requires OccursAt(s, sep, i)
    requires forall j: nat :: j < i ==> !OccursAt(s, sep, j)
    ensures !Contains(s[..i], sep)
  {
    forall j: nat | j <= i && OccursAt(s[..i], sep, j)
      ensures false
    {
      assert s[..i][j..j + |sep|] == s[j..j + |sep|];
      assert OccursAt(s, sep, j);
    }
  }

  /** Joining the pieces of a split with the same separator gives back the string. */
  lemma {:induction false} JoinSplit<T>(s: seq<T>, sep: seq<T>)
    requires |sep| > 0
    ensures Join(Split(s, sep), sep) == s
    decreases |s|
  {
    match Find(s, sep)
    case None =>
    case Some(i) =>
      var rest := s[i + |sep|..];
      JoinSplit(rest, sep);
      assert Split(s, sep) == [s[..i]] + Split(rest, sep);
      assert s == s[..i] + sep + rest;
  }

  /** Splitting a join of separator-free, non-separator pieces gives back the pieces. */
  lemma {:induction false} SplitJoin<T>(parts: seq<seq<T>>, sep: seq<T>)
    requires |sep| > 0 && |parts| > 0
    requires forall k :: 0 <= k < |parts| ==> !Contains(parts[k] + sep[..|sep| - 1], sep)
    ensures Split(Join(parts, sep), sep) == parts
    decreases |parts|
  {
    if |parts| == 1 {
      NoOccurrenceInPrefix(parts[0], sep[..|sep| - 1], sep);
      assert Find(parts[0], sep).None?;
    } else {
      var s := Join(parts, sep);
      var p := parts[0];
      assert s == p + sep + Join(parts[1..], sep);
      assert OccursAt(s, sep, |p|) by {
        assert s[|p|..|p| + |sep|] == sep;
      }
      forall j: nat | j < |p|
        ensures !OccursAt(s, sep, j)
      {
        if OccursAt(s, sep, j) {
          EarlyOccurrenceLiesInPrefix(p, sep, Join(parts[1..], sep), j);
        }
      }
      assert Find(s, sep) == Some(|p|);
      assert s[..|p|] == p;
      assert s[|p| + |sep|..] == Join(parts[1..], sep);
      SplitJoin(parts[1..], sep);
      assert Split(s, sep) == [p] + Split(Join(parts[1..], sep), sep);
      assert parts == [p] + parts[1..];
    }
  }

  /** A join taken apart at its first part. */
  lemma JoinCons<T>(x: seq<T>, rest: seq<seq<T>>, sep: seq<T>)
    requires |rest| > 0
    ensures Join([x] + rest, sep) == x + sep + Join(rest, sep)
  {
    assert ([x] + rest)[1..] == rest;
  }

  /** A join taken apart at its first three parts. */
  lemma JoinThreeCons<T>(a: seq<T>, b: seq<T>, c: seq<T>, rest: seq<seq<T>>, sep: seq<T>)
    requires |rest| > 0
    ensures Join([a, b, c] + rest, sep) == a + sep + b + sep + c + sep + Join(rest, sep)
  {
    JoinCons(c, rest, sep);
    JoinCons(b, [c] + rest, sep);
    JoinCons(a, [b] + ([c] + rest), sep);
    assert [a, b, c] + rest == [a] + ([b] + ([c] + rest));
  }

  /** Lines without a newline, joined with newlines, split back into the same lines. */
  lemma SplitJoinLines(lines: seq<string>)
    requires |lines| > 0
    requires forall k :: 0 <= k < |lines| ==> '\n' !in lines[k]
    ensures Split(Join(lines, "\n"), "\n") == lines
  {
    forall k | 0 <= k < |lines|
      ensures !Contains(lines[k] + "\n"[..0], "\n")
    {
      assert lines[k] + "\n"[..0] == lines[k];
      NotInNotContains(lines[k], '\n');
    }
    SplitJoin(lines, "\n");
  }

  /** An occurrence of `sep` in `p + sep + t` that starts inside `p` lies inside `p + sep[..|sep|-1]`. */
  lemma EarlyOccurrenceLiesInPrefix<T>(p: seq<T>, sep: seq<T>, t: seq<T>, j: nat)
    requires |sep| > 0 && j < |p|
    requires OccursAt(p + sep + t, sep, j)
    ensures Contains(p + sep[..|sep| - 1], sep)
  {
    var u := p + sep[..|sep| - 1];
    assert j + |sep| <= |u|;
    forall k | 0 <= k < |sep|
      ensures u[j + k] == sep[k]
    {
      assert (p + sep + t)[j + k] == sep[k];
    }
    assert u[j..j + |sep|] == sep;
    assert OccursAt(u, sep, j);
  }

  /** If `p + q` has no occurrence of `sep`, neither does `p`. */
  lemma NoOccurrenceInPrefix<T>(p: seq<T>, q: seq<T>, sep: seq<T>)
    requires !Contains(p + q, sep)
    ensures !Contains(p, sep)
  {
    forall j: nat | j <= |p| && OccursAt(p, sep, j)
      ensures false
    {
      assert (p + q)[j..j + |sep|] == p[j..j + |sep|];
      assert OccursAt(p + q, sep, j);
    }
  }

  /** Splits at the first occurrence of `sep` (Python's `s.split(sep, 1)`). */
  function SplitOnce<T(==)>(s: seq<T>, sep: seq<T>): (r: (seq<T>, Option<seq<T>>))
    ensures r.1.None? ==> r.0 == s && !Contains(s, sep)
    ensures r.1.Some? ==> r.0 + sep + r.1.value == s
    ensures r.1.Some? ==> forall j: nat :: j < |r.0| ==> !OccursAt(s, sep, j)
  {
    match Find(s, sep)
    case None => (s, None)
    case Some(i) =>
      assert s == s[..i] + sep + s[i + |sep|..];
      (s[..i], Some(s[i + |sep|..]))
  }

  /** The part before the first `sep`, or the whole string (Python's `s.split(sep)[0]`). */
  function BeforeFirst<T(==)>(s: seq<T>, sep: seq<T>): (r: seq<T>)
    requires |sep| > 0
    ensures StartsWith(s, r)
    ensures !Contains(r, sep)
    ensures r == s || OccursAt(s, sep, |r|)
  {
    match Find(s, sep)
    case None => s
    case Some(i) =>
      FirstOccurrenceGivesSepFreePrefix(s, sep, i);
      s[..i]
  }

  /** ASCII lower-casing of one character. */
  function LowerChar(c: char): char
  {
    if 'A' <= c <= 'Z' then (c as int + 32) as char else c
  }

  /** ASCII upper-casing of one character. */
  function UpperChar(c: char): char
  {
    if 'a' <= c <= 'z' then (c as int - 32) as char else c
  }

  /** Lower-cases every ASCII letter of `s`; other characters are kept. */
  function Lower(s: string): (r: string)
    ensures |r| == |s|
    ensures forall i :: 0 <= i < |s| ==> r[i] == LowerChar(s[i])
  {
    seq(|s|, i requires 0 <= i < |s| => LowerChar(s[i]))
  }

  /** Upper-cases every ASCII letter of `s`; other characters are kept. */
  function Upper(s: string): (r: string)
    ensures |r| == |s|
    ensures forall i :: 0 <= i < |s| ==> r[i] == UpperChar(s[i])
  {
    seq(|s|, i requires 0 <= i < |s| => UpperChar(s[i]))
  }

  /** Lower-casing twice is lower-casing once. */
  lemma LowerIdempotent(s: string)
    ensures Lower(Lower(s)) == Lower(s)
  {
  }

  /** Lower-casing commutes with concatenation. */
  lemma LowerAppend(a: string, b: string)
    ensures Lower(a + b) == Lower(a) + Lower(b)
  {
  }

  /** Lower-casing keeps every occurrence of a substring. */
  lemma LowerKeepsOccurrence(s: string, sub: string, i: nat)
    requires OccursAt(s, sub, i)
    ensures OccursAt(Lower(s), Lower(sub), i)
  {
    assert Lower(s)[i..i + |sub|] == Lower(s[i..i + |sub|]);
  }

  /** A decimal rendering of a natural number, most significant digit first. */
  function Decimal(n: nat): (r: string)
    ensures |r| > 0
    ensures forall i :: 0 <= i < |r| ==> '0' <= r[i] <= '9'
    ensures r[0] == '0' ==> n == 0
    ensures DecimalValue(r) == n
  {
    if n < 10 then [Digit(n)]
    else
      var r := Decimal(n / 10) + [Digit(n % 10)];
      assert r[..|r| - 1] == Decimal(n / 10);
      r
  }

  function Digit(d: nat): (c: char)
    requires d < 10
    ensures '0' <= c <= '9' && c as int - '0' as int == d
  {
    ('0' as int + d) as char
  }

  /** The value of a string of decimal digits. */
  function DecimalValue(s: string): nat
    requires forall i :: 0 <= i < |s| ==> '0' <= s[i] <= '9'
  {
    if |s| == 0 then 0
    else 10 * DecimalValue(s[..|s| - 1]) + (s[|s| - 1] as int - '0' as int)
  }

  /** "{n} {word}" with an "s" appended unless `n` is exactly one. */
  function CountLabel(n: nat, word: string): (r: string)
    ensures StartsWith(r, Decimal(n) + " " + word)
    ensures EndsWith(r, "s") <==> n != 1 || EndsWith(word, "s")
    ensures |r| == |Decimal(n) + " " + word| + (if n == 1 then 0 else 1)
  {
    var r := Decimal(n) + " " + word + (if n == 1 then "" else "s");
    SuffixOfAppend(Decimal(n) + " ", word, if n == 1 then "" else "s");
    r
  }

  /** The one-character suffix test on `a + w + t` looks at `t`, else at `w`. */
  lemma SuffixOfAppend(a: string, w: string, t: string)
    requires |a| > 0 && a[|a| - 1] != 's'
    ensures EndsWith(a + w + t, "s") <==> EndsWith(t, "s") || (|t| == 0 && EndsWith(w, "s"))
  {
    var r := a + w + t;
    if |t| > 0 {
      assert r[|r| - 1..] == t[|t| - 1..];
    } else if |w| > 0 {
      assert r[|r| - 1..] == w[|w| - 1..];
    } else {
      assert r[|r| - 1..] == a[|a| - 1..];
    }
  }

  /** The position of the first newline, or the length when there is none. */
  function LineEnd(s: string): (i: nat)
    ensures i <= |s|
    ensures forall j :: 0 <= j < i ==> s[j] != '\n'
    ensures i < |s| ==> s[i] == '\n'
  {
    if |s| == 0 || s[0] == '\n' then 0 else 1 + LineEnd(s[1..])
  }

  /** A line taken from before a newline loses one carriage return at its end. */
  function StripCr(line: string): string
  {
    if |line| > 0 && line[|line| - 1] == '\r' then line[..|line| - 1] else line
  }

  /**
   * Rust's `str::lines`: the text cut at each newline, a carriage return
   * just before a newline dropped with it, and no empty last line for a
   * text that ends with a newline (an empty text has no lines).
   */
  function TextLines(s: string): (r: seq<string>)
    decreases |s|
    ensures forall k :: 0 <= k < |r| ==> '\n' !in r[k]
    ensures s != "" ==> |r| > 0
  {
    if s == "" then []
    else
      var i := LineEnd(s);
      if i == |s| then [s] else [StripCr(s[..i])] + TextLines(s[i + 1..])
  }

  /** Each line followed by a newline. */
  function Terminated(lines: seq<string>): string
  {
    if |lines| == 0 then "" else lines[0] + "\n" + Terminated(lines[1..])
  }

  /**
   * Cutting a text written as newline-terminated lines gives the lines back,
   * when no line holds a newline or ends with a carriage return.
   */
  lemma {:induction false} TextLinesTerminated(lines: seq<string>)
    requires forall k :: 0 <= k < |lines| ==> '\n' !in lines[k] && !EndsWith(lines[k], "\r")
    ensures TextLines(Terminated(lines)) == lines
  {
    if |lines| > 0 {
      TextLinesCons(lines[0], Terminated(lines[1..]));
      TextLinesTerminated(lines[1..]);
      assert lines == [lines[0]] + lines[1..];
    }
  }

  /** A first line without newline or final carriage return comes out as it is. */
  lemma TextLinesCons(l: string, rest: string)
    requires '\n' !in l && !EndsWith(l, "\r")
    ensures TextLines(l + "\n" + rest) == [l] + TextLines(rest)
  {
    var s := l + "\n" + rest;
    assert s == l + ("\n" + rest);
    LineEndAt(l, "\n" + rest);
    assert s[..|l|] == l && s[|l| + 1..] == rest;
    assert |s| > |l| && s != "";
    assert TextLines(s) == [StripCr(s[..|l|])] + TextLines(s[|l| + 1..]);
    assert StripCr(l) == l by {
      if |l| > 0 {
        assert l[|l| - 1..] == [l[|l| - 1]];
      }
    }
  }

  /** A newline-free part followed by a newline ends its first line. */
  lemma {:induction false} LineEndAt(l: string, rest: string)
    requires '\n' !in l && |rest| > 0 && rest[0] == '\n'
    ensures LineEnd(l + rest) == |l|
  {
    if |l| > 0 {
      assert (l + rest)[1..] == l[1..] + rest;
      LineEndAt(l[1..], rest);
    }
  }
}

=== FILE: text_layout.dfy ===
/**
 * The earlier Pango-layout text widget (src/text_layout.rs). Its selection
 * ends are `i32` values with -1 for "unset", and offsets are converted with
 * `as usize` (a negative value wraps to a huge offset) and `as i32`. As in
 * the later widget, the byte index under the pointer and the regular
 * expressions' matches are inputs.
 */
module TextLayout {
  import opened Wrappers
  import opened Utf8
  import TextWidget

  /** 2^31: `i32` holds `-I32_HALF .. I32_HALF - 1`. */
  const I32_HALF: int := 0x8000_0000

  type I32 = i: int | -I32_HALF <= i < I32_HALF

  /** Rust's `as i32` on a `usize`: keeps the low 32 bits, read as two's complement. */
  function AsI32(n: nat): (r: I32)
    ensures n < I32_HALF ==> r == n
  {
    var low := AsU32(n);
    if low < I32_HALF then low else low - U32_LIMIT
  }

  /** A link: its URL and its byte range. */
  datatype Link = Link(url: Bytes, start: nat, end: nat)

  /** The state the model tracks. */
  datatype Layout = Layout(
    ptype: TextWidget.PropType,
    text: Bytes,
    links: seq<Link>,
    selStart: I32,
    selEnd: I32,
    isSelecting: bool,
    pressedLink: Option<Bytes>)

  /** `set_text`: the links for the row's type, "None" for an empty link list, and both selection ends reset to -1. */
  function SetText(l: Layout, text: Bytes, m: TextWidget.Matches): (r: Layout)
    requires l.ptype == TextWidget.LinkList && |text| > 0 ==> TextWidget.MatchesInText(text, m)
    requires l.ptype == TextWidget.Packager ==> TextWidget.MatchesInText(text, m)
    ensures r.ptype == l.ptype && r.selStart == -1 && r.selEnd == -1
    ensures r.isSelecting == l.isSelecting && r.pressedLink == l.pressedLink
    ensures r.text == (if l.ptype == TextWidget.LinkList && |text| == 0 then TextWidget.NoneText() else text)
    ensures l.ptype == TextWidget.Link ==> r.links == [Link(text, 0, |text|)]
    ensures l.ptype == TextWidget.LinkList ==> |r.links| == (if |text| == 0 then 0 else |m.names|)
    ensures l.ptype == TextWidget.LinkList && |text| > 0 ==> forall k :: 0 <= k < |r.links| ==>
      r.links[k] == Link(Ascii("pkg://") + text[m.names[k].start..m.names[k].end], m.names[k].start, m.names[k].end)
    ensures l.ptype == TextWidget.Packager ==> |r.links| == (if m.email.Some? then 1 else 0)
    ensures l.ptype == TextWidget.Packager && m.email.Some? ==>
      var (start, end) := m.email.value;
      r.links[0] == Link(Ascii("mailto:") + text[start..end], start, end)
    ensures l.ptype !in {TextWidget.Link, TextWidget.Packager, TextWidget.LinkList} ==> r.links == []
  {
    var (shown, links) :=
      match l.ptype
      case Link => (text, [Link(text, 0, |text|)])
      case Packager =>
        (text, match m.email
          case None => []
          case Some(range) => [Link(Ascii("mailto:") + text[range.0..range.1], range.0, range.1)])
      case LinkList =>
        if |text| == 0 then (TextWidget.NoneText(), [])
        else (text, seq(|m.names|, k requires 0 <= k < |m.names| =>
          Link(Ascii("pkg://") + text[m.names[k].start..m.names[k].end], m.names[k].start, m.names[k].end)))
      case _ => (text, []);
    l.(text := shown, links := links, selStart := -1, selEnd := -1)
  }

  /** A link covers byte `index` (read as `usize`). */
  predicate Covers(link: Link, index: I32)
  {
    link.start <= I32AsUsize(index) < link.end
  }

  /** `link_at_index`: the URL of the first link covering the index, when the point is inside the layout. */
  function LinkAtIndex(links: seq<Link>, inside: bool, index: I32): (r: Option<Bytes>)
    ensures !inside ==> r.None?
    ensures inside && r.None? <==> inside && forall k :: 0 <= k < |links| ==> !Covers(links[k], index)
    ensures r.Some? ==>
      exists k :: 0 <= k < |links| && links[k].url == r.value && Covers(links[k], index)
        && forall j :: 0 <= j < k ==> !Covers(links[j], index)
  {
    if !inside || |links| == 0 then None
    else if Covers(links[0], index) then Some(links[0].url)
    else
      var rest := LinkAtIndex(links[1..], inside, index);
      if rest.Some? then
        var k :| 0 <= k < |links[1..]| && links[1..][k].url == rest.value && Covers(links[1..][k], index)
          && forall j :: 0 <= j < k ==> !Covers(links[1..][j], index);
        assert links[k + 1] == links[1..][k];
        rest
      else rest
  }

  /** A negative index never lies on a link: as `usize` it is beyond every real text. */
  lemma NegativeIndexHitsNothing(links: seq<Link>, inside: bool, index: I32)
    requires index < 0
    requires forall k :: 0 <= k < |links| ==> links[k].end < USIZE_LIMIT - I32_HALF
    ensures LinkAtIndex(links, inside, index).None?
  {
  }

  /** `select-all` and the triple click: from 0 to the text's length as `i32`. */
  function SelectAll(l: Layout): (r: Layout)
    ensures r.selStart == 0 && (|l.text| < I32_HALF ==> r.selEnd == |l.text|)
    ensures r.(selEnd := l.selEnd, selStart := l.selStart) == l
  {
    l.(selStart := 0, selEnd := AsI32(|l.text|))
  }

  /**
   * A primary-button press with `n` clicks at `index`, away from links: one
   * click anchors the selection at the index with the end unset and starts
   * selecting; two select the word around the index (the whole text if the
   * text cannot be cut there); three select everything.
   */
  method Pressed(l: Layout, n: int, inside: bool, index: I32) returns (r: Layout)
    ensures r.pressedLink == LinkAtIndex(l.links, inside, index)
    ensures LinkAtIndex(l.links, inside, index).Some? || n !in {1, 2, 3} ==>
      r == l.(pressedLink := LinkAtIndex(l.links, inside, index))
    ensures LinkAtIndex(l.links, inside, index).None? && n == 1 ==>
      r.selStart == index && r.selEnd == -1 && r.isSelecting && r.text == l.text
    ensures LinkAtIndex(l.links, inside, index).None? && n == 1 ==>
      r == l.(selStart := index, selEnd := -1, isSelecting := true, pressedLink := None)
    ensures LinkAtIndex(l.links, inside, index).None? && n == 2 ==>
      r == l.(selStart := r.selStart, selEnd := r.selEnd, pressedLink := None)
    ensures LinkAtIndex(l.links, inside, index).None? && n == 2 && |l.text| < I32_HALF ==>
      r.selStart >= 0 && r.selEnd >= 0 &&
      (SplitAtChecked(l.text, index).Some? ==> IsWordAround(l.text, index, r.selStart, r.selEnd)) &&
      (SplitAtChecked(l.text, index).None? ==> r.selStart == 0 && r.selEnd == |l.text|)
    ensures LinkAtIndex(l.links, inside, index).None? && n == 3 ==>
      r == SelectAll(l).(pressedLink := None)
  {
    var link := LinkAtIndex(l.links, inside, index);
    r := l;
    if link.None? {
      if n == 1 {
        r := l.(selStart := index, selEnd := -1, isSelecting := true);
      } else if n == 2 {
        var offset := I32AsUsize(index);
        var start, end := WordBounds(l.text, offset);
        if |l.text| < I32_HALF {
          assert SplitAtChecked(l.text, offset) == SplitAtChecked(l.text, index);
        }
        r := l.(selStart := AsI32(start), selEnd := AsI32(end));
      } else if n == 3 {
        r := SelectAll(l);
      }
    }
    r := r.(pressedLink := link);
  }

  /** Release: a selection in progress that has no end or is empty is reset to (-1, -1); selecting stops; the pressed link fires if still under the pointer. */
  function Released(l: Layout, inside: bool, index: I32): (r: (Layout, Option<Bytes>))
    ensures !r.0.isSelecting && r.0.pressedLink.None? && r.0.text == l.text && r.0.links == l.links
    ensures l.isSelecting && (l.selEnd == -1 || l.selStart == l.selEnd) ==> r.0.selStart == -1 && r.0.selEnd == -1
    ensures !(l.isSelecting && (l.selEnd == -1 || l.selStart == l.selEnd)) ==>
      r.0.selStart == l.selStart && r.0.selEnd == l.selEnd
    ensures r.1.Some? <==> l.pressedLink.Some? && LinkAtIndex(l.links, inside, index) == l.pressedLink
    ensures r.1.Some? ==> r.1 == l.pressedLink
  {
    var reset :=
      if l.isSelecting && (l.selEnd == -1 || l.selStart == l.selEnd) then l.(selStart := -1, selEnd := -1) else l;
    var launched :=
      if l.pressedLink.Some? && LinkAtIndex(l.links, inside, index) == l.pressedLink then l.pressedLink else None;
    (reset.(isSelecting := false, pressedLink := None), launched)
  }

  /** A double click on a word, released where no selection is in progress, leaves the word selected. */
  method DoubleClickKeepsWord(l: Layout, inside: bool, index: I32) returns (r: Layout)
    requires LinkAtIndex(l.links, inside, index).None? && !l.isSelecting
    requires |l.text| < I32_HALF && SplitAtChecked(l.text, index).Some?
    ensures r.selStart >= 0 && r.selEnd >= 0 && IsWordAround(l.text, index, r.selStart, r.selEnd)
    ensures r.text == l.text && r.links == l.links && !r.isSelecting
  {
    var pressed := Pressed(l, 2, inside, index);
    r := Released(pressed, inside, index).0;
  }

  /** A single click released without moving leaves no selection. */
  method ClickWithoutDragSelectsNothing(l: Layout, inside: bool, index: I32) returns (r: Layout)
    requires LinkAtIndex(l.links, inside, index).None?
    ensures r.selStart == -1 && r.selEnd == -1 && !r.isSelecting
  {
    var pressed := Pressed(l, 1, inside, index);
    r := Released(pressed, inside, index).0;
  }

  /** The `text.copy` action is enabled iff both ends are set and differ. */
  predicate CopyEnabled(l: Layout)
  {
    l.selStart != -1 && l.selEnd != -1 && l.selStart != l.selEnd
  }

  function Min(a: nat, b: nat): nat { if a <= b then a else b }

  function Max(a: nat, b: nat): nat { if a <= b then b else a }

  /** `text.copy`: the text between the ends (as `usize`) in either order, when that slice is valid. */
  function CopyText(l: Layout): (r: Option<Bytes>)
    ensures 0 <= l.selStart && 0 <= l.selEnd ==>
      r == Get(l.text, Min(l.selStart, l.selEnd), Max(l.selStart, l.selEnd))
    ensures l.selStart == -1 && l.selEnd == -1 && |l.text| < I32_HALF ==> r.None?
  {
    var s := I32AsUsize(l.selStart);
    var e := I32AsUsize(l.selEnd);
    Get(l.text, Min(s, e), Max(s, e))
  }

  /** After `set_text` nothing can be copied; after selecting all of a non-empty text, copying yields it. */
  lemma CopyAfterSetTextAndSelectAll(l: Layout, text: Bytes, m: TextWidget.Matches)
    requires l.ptype == TextWidget.LinkList && |text| > 0 ==> TextWidget.MatchesInText(text, m)
    requires l.ptype == TextWidget.Packager ==> TextWidget.MatchesInText(text, m)
    ensures !CopyEnabled(SetText(l, text, m))
    ensures |text| < I32_HALF ==> CopyText(SetText(l, text, m)).None?
    ensures var r := SelectAll(SetText(l, text, m));
      0 < |r.text| < I32_HALF ==> CopyEnabled(r) && CopyText(r) == Some(r.text)
  {
    var r := SelectAll(SetText(l, text, m));
    assert r.text[0..|r.text|] == r.text;
  }
}

=== FILE: text_widget.dfy ===
/**
 * The selectable, link-aware text of the Rust property rows
 * (src/text_widget.rs). Text is UTF-8 bytes and every position is a byte
 * offset. Pango's point-to-index mapping is an input: each gesture is given
 * the byte index under the pointer and whether the point is inside the
 * layout. The link and e-mail regular expressions are inputs too: their
 * matches arrive as byte ranges.
 */
module TextWidget {
  import opened Wrappers
  import opened Strings
  import opened Utf8

  /**
   * How a row's text is interpreted. The enum is declared in
   * src/info_row.rs; it lives here because the row module builds on this one.
   */
  datatype PropType = Text | Title | Link | Packager | LinkList | Error

  /** Marks " [INSTALLED]" after installed dependencies. */
  const INSTALLED_LABEL: string := " [INSTALLED]"

  /** Separates the entries of a link list. */
  const LINK_SPACER: string := "     "

  /** A link or comment range: target text, version text, and `u32` byte offsets. */
  datatype TextTag = TextTag(text: Bytes, version: Bytes, start: nat, end: nat)

  /** The widget state the model tracks. */
  datatype Widget = Widget(
    ptype: PropType,
    text: Bytes,
    links: seq<TextTag>,
    comments: seq<TextTag>,
    focusLink: Option<nat>,
    selStart: Option<nat>,
    selEnd: Option<nat>,
    hasSelection: bool,
    isSelecting: bool,
    isClicked: bool,
    pressedLink: Option<TextTag>,
    canExpand: bool,
    expanded: bool,
    layoutMaxIndex: nat)

  /** The label's bytes. */
  function InstalledLabel(): (r: Bytes)
    ensures |r| == 12
  {
    Ascii(INSTALLED_LABEL)
  }

  /**
   * `str::match_indices`: the start of every non-overlapping occurrence of
   * `pattern` at or after `from`, scanning left to right.
   */
  function MatchIndices(text: Bytes, pattern: Bytes, from: nat): (r: seq<nat>)
    requires |pattern| > 0
    decreases |text| + 1 - from
    ensures forall k :: 0 <= k < |r| ==> from <= r[k] && OccursAt(text, pattern, r[k])
    ensures forall k :: 0 < k < |r| ==> r[k - 1] + |pattern| <= r[k]
    ensures |r| == 0 <==> forall j: nat :: from <= j ==> !OccursAt(text, pattern, j)
    ensures |r| > 0 ==> forall j: nat :: from <= j < r[0] ==> !OccursAt(text, pattern, j)
  {
    match FindFrom(text, pattern, from)
    case None => []
    case Some(i) =>
      var rest := MatchIndices(text, pattern, i + |pattern|);
      [i] + rest
  }

  /** The comment tag of an occurrence at byte `i`: its `u32` start and `checked_add` end. */
  function CommentTag(i: nat): (t: TextTag)
    ensures i + 12 < U32_LIMIT ==> t.start == i && t.end == i + 12
  {
    TextTag(InstalledLabel(), [], AsU32(i), AsU32(i + 12))
  }

  /** A match of the link-list expression: the bare name's byte range and the version text after it. */
  datatype NameMatch = NameMatch(start: nat, end: nat, version: Bytes)

  /** A regular-expression match lies inside the text, in order. */
  predicate InText(text: Bytes, start: nat, end: nat)
  {
    start <= end <= |text|
  }

  /** The link of a link-list match: "pkg://" + the name, at the name's `u32` range. */
  function PackageLink(text: Bytes, m: NameMatch): (t: TextTag)
    requires InText(text, m.start, m.end)
    ensures t.text == Ascii("pkg://") + text[m.start..m.end] && t.version == m.version
    ensures m.end < U32_LIMIT ==> t.start == m.start && t.end == m.end
  {
    TextTag(Ascii("pkg://") + text[m.start..m.end], m.version, AsU32(m.start), AsU32(m.end))
  }

  /** The result of the regular expressions for the text being set. */
  datatype Matches = Matches(email: Option<(nat, nat)>, names: seq<NameMatch>)

  /** The regular expressions can only report ranges inside the text. */
  predicate MatchesInText(text: Bytes, m: Matches)
  {
    (m.email.Some? ==> InText(text, m.email.value.0, m.email.value.1))
    && forall k :: 0 <= k < |m.names| ==> InText(text, m.names[k].start, m.names[k].end)
  }

  /** The packager row's e-mail link, when the e-mail expression matched. */
  function EmailLink(text: Bytes, m: Matches): (r: seq<TextTag>)
    requires MatchesInText(text, m)
    ensures |r| <= 1 && (r == [] <==> m.email.None?)
    ensures m.email.Some? ==>
      var (start, end) := m.email.value;
      r[0].text == Ascii("mailto:") + text[start..end] && r[0].version == []
      && (end < U32_LIMIT ==> r[0].start == start && r[0].end == end)
  {
    match m.email
    case None => []
    case Some(range) =>
      [TextTag(Ascii("mailto:") + text[range.0..range.1], [], AsU32(range.0), AsU32(range.1))]
  }

  /** The link-list row's links, one per name match, in match order. */
  function NameLinks(text: Bytes, m: Matches): (r: seq<TextTag>)
    requires MatchesInText(text, m)
    ensures |r| == |m.names|
    ensures forall k :: 0 <= k < |r| ==> r[k] == PackageLink(text, m.names[k])
    ensures forall k :: 0 <= k < |r| ==>
      r[k].text == Ascii("pkg://") + text[m.names[k].start..m.names[k].end] && r[k].version == m.names[k].version
  {
    seq(|m.names|, k requires 0 <= k < |m.names| => PackageLink(text, m.names[k]))
  }

  /** The link-list row's comments, one per " [INSTALLED]" occurrence, in text order. */
  function InstalledComments(text: Bytes): (r: seq<TextTag>)
    ensures |r| == |MatchIndices(text, InstalledLabel(), 0)|
    ensures forall k :: 0 <= k < |r| ==>
      OccursAt(text, InstalledLabel(), MatchIndices(text, InstalledLabel(), 0)[k]) &&
      r[k] == CommentTag(MatchIndices(text, InstalledLabel(), 0)[k])
  {
    var marks := MatchIndices(text, InstalledLabel(), 0);
    seq(|marks|, k requires 0 <= k < |marks| => CommentTag(marks[k]))
  }

  /** The text shown for an empty link list. */
  function NoneText(): (r: Bytes)
    ensures |r| == 4
  {
    Ascii("None")
  }

  /**
   * `set_text`: builds the link and comment lists for the row's type,
   * replaces an empty link list by "None", focuses the first link if there
   * is one, and clears the selection and the expansion.
   */
  function SetText(w: Widget, text: Bytes, m: Matches): (r: Widget)
    requires w.ptype == LinkList && |text| > 0 ==> MatchesInText(text, m)
    requires w.ptype == Packager ==> MatchesInText(text, m)
    ensures r.ptype == w.ptype
    ensures r.text == (if w.ptype == LinkList && |text| == 0 then NoneText() else text)
    ensures w.ptype == Link ==> r.links == [TextTag(text, [], 0, AsU32(|text|))]
    ensures w.ptype == LinkList && |text| == 0 ==> r.links == [] && r.comments == []
    ensures w.ptype == Packager ==> r.links == EmailLink(text, m) && r.comments == []
    ensures w.ptype == LinkList && |text| > 0 ==>
      r.links == NameLinks(text, m) && r.comments == InstalledComments(text)
    ensures w.ptype !in {Link, Packager, LinkList} ==> r.links == [] && r.comments == []
    ensures |r.links| > 0 ==> r.focusLink == Some(0)
    ensures |r.links| == 0 ==> r.focusLink == w.focusLink
    ensures r.selStart.None? && r.selEnd.None? && !r.hasSelection && !r.expanded
    ensures r.isSelecting == w.isSelecting && r.isClicked == w.isClicked && r.pressedLink == w.pressedLink
    ensures r.canExpand == w.canExpand && r.layoutMaxIndex == w.layoutMaxIndex
  {
    match w.ptype
    case Link => WithText(w, text, [TextTag(text, [], 0, AsU32(|text|))], [])
    case Packager => WithText(w, text, EmailLink(text, m), [])
    case LinkList =>
      if |text| == 0 then WithText(w, NoneText(), [], [])
      else WithText(w, text, NameLinks(text, m), InstalledComments(text))
    case _ => WithText(w, text, [], [])
  }

  /** The common tail of `set_text`: store the lists, focus the first link, clear selection and expansion. */
  function WithText(w: Widget, shown: Bytes, links: seq<TextTag>, comments: seq<TextTag>): (r: Widget)
    ensures r.ptype == w.ptype && r.text == shown && r.links == links && r.comments == comments
    ensures |links| > 0 ==> r.focusLink == Some(0)
    ensures |links| == 0 ==> r.focusLink == w.focusLink
    ensures r.selStart.None? && r.selEnd.None? && !r.hasSelection && !r.expanded
  {
    w.(text := shown, links := links, comments := comments,
       focusLink := if |links| > 0 then Some(0) else w.focusLink,
       selStart := None, selEnd := None, hasSelection := false, expanded := false)
  }

  /** Each comment of a link list covers exactly the twelve bytes of one " [INSTALLED]" in the text. */
  lemma CommentsCoverLabels(w: Widget, text: Bytes, m: Matches, k: nat)
    requires w.ptype == LinkList && |text| > 0 && MatchesInText(text, m) && |text| + 12 < U32_LIMIT
    requires k < |SetText(w, text, m).comments|
    ensures var c := SetText(w, text, m).comments[k];
      c.end - c.start == 12 && text[c.start..c.end] == InstalledLabel()
  {
    var marks := MatchIndices(text, InstalledLabel(), 0);
    assert OccursAt(text, InstalledLabel(), marks[k]);
  }

  /**
   * Each link of a packager or link-list row points at the text under it:
   * "mailto:" or "pkg://" followed by exactly the bytes its range covers.
   */
  lemma LinksTargetTheirLabels(w: Widget, text: Bytes, m: Matches, k: nat)
    requires w.ptype in {Packager, LinkList} && |text| > 0 && MatchesInText(text, m) && |text| < U32_LIMIT
    requires k < |SetText(w, text, m).links|
    ensures var l := SetText(w, text, m).links[k];
      l.start <= l.end <= |text|
      && l.text == Ascii(if w.ptype == Packager then "mailto:" else "pkg://") + text[l.start..l.end]
  {
    if w.ptype == Packager {
      assert SetText(w, text, m).links == EmailLink(text, m);
    } else {
      assert SetText(w, text, m).links == NameLinks(text, m);
      assert InText(text, m.names[k].start, m.names[k].end);
    }
  }

  /** `text.select-all` (and the triple click's selection): the whole text. */
  function SelectAll(w: Widget): (r: Widget)
    ensures r.selStart == Some(0) && r.selEnd == Some(|w.text|) && r.hasSelection
    ensures r.text == w.text && r.links == w.links && r.focusLink == w.focusLink
  {
    w.(selStart := Some(0), selEnd := Some(|w.text|), hasSelection := true)
  }

  /** `text.select-none`: no selection. */
  function SelectNone(w: Widget): (r: Widget)
    ensures r.selStart.None? && r.selEnd.None? && !r.hasSelection
    ensures r.text == w.text && r.links == w.links && r.focusLink == w.focusLink
  {
    w.(selStart := None, selEnd := None, hasSelection := false)
  }

  function Min(a: nat, b: nat): nat { if a <= b then a else b }

  function Max(a: nat, b: nat): nat { if a <= b then b else a }

  /** `selected_text`: the text between the two ends in either order, if both are set and on character boundaries. */
  function SelectedText(w: Widget): (r: Option<Bytes>)
    ensures w.selStart.None? || w.selEnd.None? ==> r.None?
    ensures w.selStart.Some? && w.selEnd.Some? ==> r == Get(w.text, Min(w.selStart.value, w.selEnd.value), Max(w.selStart.value, w.selEnd.value))
  {
    if w.selStart.Some? && w.selEnd.Some? then
      Get(w.text, Min(w.selStart.value, w.selEnd.value), Max(w.selStart.value, w.selEnd.value))
    else None
  }

  /** Selecting everything selects exactly the text; selecting nothing yields no text. */
  lemma SelectAllSelectsText(w: Widget)
    ensures SelectedText(SelectAll(w)) == Some(w.text)
    ensures SelectedText(SelectNone(w)).None?
  {
    assert w.text[0..|w.text|] == w.text;
  }

  /** The direction of a selection does not matter. */
  lemma SelectedTextSymmetric(w: Widget)
    requires w.selStart.Some? && w.selEnd.Some?
    ensures SelectedText(w.(selStart := w.selEnd, selEnd := w.selStart)) == SelectedText(w)
  {
  }

  /** `text.expand`: expands an expandable, contracted text; otherwise nothing changes. */
  function Expand(w: Widget): (r: Widget)
    ensures r.expanded == (w.expanded || w.canExpand)
    ensures r.(expanded := w.expanded) == w
  {
    if w.canExpand && !w.expanded then w.(expanded := true) else w
  }

  /** `text.contract`: contracts an expandable, expanded text; otherwise nothing changes. */
  function Contract(w: Widget): (r: Widget)
    ensures r.expanded == (w.expanded && !w.canExpand)
    ensures r.(expanded := w.expanded) == w
  {
    if w.canExpand && w.expanded then w.(expanded := false) else w
  }

  /** `text.previous-link`: one link back when the focus is above 0 (`checked_sub`). */
  function PreviousLink(w: Widget): (r: Widget)
    ensures w.focusLink.Some? && w.focusLink.value > 0 ==> r == w.(focusLink := Some(w.focusLink.value - 1))
    ensures w.focusLink.None? || w.focusLink.value == 0 ==> r == w
  {
    match w.focusLink
    case Some(i) => if i > 0 then w.(focusLink := Some(i - 1)) else w
    case None => w
  }

  /** The next link exists and ends within the laid-out text (`layout_max_index as u32`). */
  predicate CanFocusNext(w: Widget)
  {
    w.focusLink.Some? && w.focusLink.value + 1 < USIZE_LIMIT
    && w.focusLink.value + 1 < |w.links|
    && w.links[w.focusLink.value + 1].end <= AsU32(w.layoutMaxIndex)
  }

  /** `text.next-link`: one link forward when that link exists and is visible. */
  function NextLink(w: Widget): (r: Widget)
    ensures CanFocusNext(w) ==> r == w.(focusLink := Some(w.focusLink.value + 1))
    ensures !CanFocusNext(w) ==> r == w
  {
    if CanFocusNext(w) then w.(focusLink := Some(w.focusLink.value + 1)) else w
  }

  /** Moving the focus forward and back again restores the state. */
  lemma NextThenPreviousLink(w: Widget)
    requires CanFocusNext(w)
    ensures PreviousLink(NextLink(w)) == w
  {
  }

  /** `focus_link`: the focused link, if the index is set and inside the list. */
  function FocusLink(w: Widget): (r: Option<TextTag>)
    ensures r.Some? <==> w.focusLink.Some? && w.focusLink.value < |w.links|
    ensures r.Some? ==> r.value == w.links[w.focusLink.value]
  {
    match w.focusLink
    case Some(i) => if i < |w.links| then Some(w.links[i]) else None
    case None => None
  }

  /** A link covers byte `index` (compared as `u32`). */
  predicate Covers(link: TextTag, index: nat)
  {
    link.start <= AsU32(index) < link.end
  }

  /** `link_at_xy`: the first link covering the index, when the point is inside the layout. */
  function LinkAt(links: seq<TextTag>, inside: bool, index: nat): (r: Option<TextTag>)
    ensures !inside ==> r.None?
    ensures r.Some? ==> r.value in links && Covers(r.value, index)
    ensures inside && r.None? ==> forall k :: 0 <= k < |links| ==> !Covers(links[k], index)
    ensures inside && r.Some? ==> exists k :: 0 <= k < |links| && links[k] == r.value && forall j :: 0 <= j < k ==> !Covers(links[j], index)
  {
    if !inside || |links| == 0 then None
    else if Covers(links[0], index) then
      assert links[0] == links[0];
      Some(links[0])
    else
      var rest := LinkAt(links[1..], inside, index);
      if rest.Some? then
        var k :| 0 <= k < |links[1..]| && links[1..][k] == rest.value && forall j :: 0 <= j < k ==> !Covers(links[1..][j], index);
        assert links[k + 1] == rest.value;
        rest
      else rest
  }

  /**
   * A press of the primary button with `n` clicks at byte `index`. Away
   * from links, a double click selects the word around the index (the whole
   * text when the index is not a character boundary), and a triple click
   * selects everything. The link under the pointer is remembered.
   */
  method Pressed(w: Widget, n: int, inside: bool, index: nat) returns (r: Widget)
    ensures r.pressedLink == LinkAt(w.links, inside, index)
    ensures LinkAt(w.links, inside, index).None? && n == 2 ==>
      r == w.(isClicked := true, hasSelection := true, selStart := r.selStart, selEnd := r.selEnd, pressedLink := None)
    ensures LinkAt(w.links, inside, index).None? && n == 2 ==>
      r.isClicked && r.hasSelection && r.selStart.Some? && r.selEnd.Some? &&
      (SplitAtChecked(w.text, index).Some? ==> IsWordAround(w.text, index, r.selStart.value, r.selEnd.value)) &&
      (SplitAtChecked(w.text, index).None? ==> r.selStart == Some(0) && r.selEnd == Some(|w.text|))
    ensures LinkAt(w.links, inside, index).None? && n == 3 ==>
      r == SelectAll(w).(isClicked := true, pressedLink := None)
    ensures LinkAt(w.links, inside, index).Some? || (n != 2 && n != 3) ==>
      r == w.(pressedLink := LinkAt(w.links, inside, index))
  {
    var link := LinkAt(w.links, inside, index);
    r := w;
    if link.None? {
      if n == 2 {
        var start, end := WordBounds(w.text, index);
        r := w.(isClicked := true, selStart := Some(start), selEnd := Some(end), hasSelection := true);
      } else if n == 3 {
        r := SelectAll(w).(isClicked := true);
      }
    }
    r := r.(pressedLink := link);
  }

  /** Start of a drag: away from links it starts selecting, anchoring at the index unless a multi-click just selected. */
  function DragBegin(w: Widget, inside: bool, index: nat): (r: Widget)
    ensures LinkAt(w.links, inside, index).Some? ==> r == w
    ensures LinkAt(w.links, inside, index).None? ==> r.isSelecting
    ensures LinkAt(w.links, inside, index).None? && !w.isClicked ==> r.selStart == Some(index) && r.selEnd.None?
    ensures w.isClicked ==> r.selStart == w.selStart && r.selEnd == w.selEnd
  {
    if LinkAt(w.links, inside, index).None? then
      var anchored := if w.isClicked then w else w.(selStart := Some(index), selEnd := None);
      anchored.(isSelecting := true)
    else w
  }

  /** Drag motion: the selection's moving end follows the pointer. */
  function DragUpdate(w: Widget, index: nat): (r: Widget)
    ensures r.selEnd == Some(index) && r.hasSelection
    ensures r.selStart == w.selStart && r.text == w.text
  {
    w.(selEnd := Some(index), hasSelection := true)
  }

  /** End of a drag: a selection without an end, or with equal ends, is dropped. */
  function DragEnd(w: Widget): (r: Widget)
    ensures !r.isSelecting
    ensures w.selEnd.None? || w.selStart == w.selEnd ==> r.selStart.None? && r.selEnd.None? && !r.hasSelection
    ensures w.selEnd.Some? && w.selStart != w.selEnd ==> r == w.(isSelecting := false)
  {
    var cleared := if w.selEnd.None? || w.selStart == w.selEnd then SelectNone(w) else w;
    cleared.(isSelecting := false)
  }

  /** A plain drag from one index to another keeps a selection exactly when the two differ. */
  lemma DragKeepsSelectionIffMoved(w: Widget, inside: bool, i: nat, j: nat)
    requires LinkAt(w.links, inside, i).None? && !w.isClicked
    ensures var r := DragEnd(DragUpdate(DragBegin(w, inside, i), j));
      (r.hasSelection <==> i != j) && (i != j ==> r.selStart == Some(i) && r.selEnd == Some(j))
  {
  }

  /** A drag that follows a double click keeps the word it selected. */
  lemma DoubleClickSurvivesDragBegin(w: Widget, inside: bool, index: nat)
    requires w.isClicked
    ensures DragBegin(w, inside, index).selStart == w.selStart
    ensures DragBegin(w, inside, index).selEnd == w.selEnd
  {
  }

  /** Release: clears the click flag and activates the pressed link if the pointer is still on it. */
  function Released(w: Widget, inside: bool, index: nat): (r: (Widget, Option<TextTag>))
    ensures !r.0.isClicked && r.0.pressedLink.None?
    ensures r.1.Some? <==> w.pressedLink.Some? && LinkAt(w.links, inside, index) == w.pressedLink
    ensures r.1.Some? ==> r.1 == w.pressedLink
    ensures r.0 == w.(isClicked := false, pressedLink := None)
  {
    var launched := if w.pressedLink.Some? && LinkAt(w.links, inside, index) == w.pressedLink then w.pressedLink else None;
    (w.(isClicked := false, pressedLink := None), launched)
  }
}

=== FILE: traits.dfy ===
/**
 * Cyclic stepping through an enum's values (src/traits.rs,
 * `EnumClassExt::next_nick`/`previous_nick`, and the same iterator chain in
 * the search bar's key bindings). The values are given in declaration
 * order. Both functions search an endless cycle, so a value that is not
 * among them would loop forever: being present is a precondition.
 */
module Traits {
  /** The first position of `v`. */
  function FirstIndex<T(==)>(values: seq<T>, v: T): (i: nat)
    requires v in values
    ensures i < |values| && values[i] == v
    ensures v !in values[..i]
  {
    if values[0] == v then 0 else 1 + FirstIndex(values[1..], v)
  }

  /** The last position of `v`. */
  function LastIndex<T(==)>(values: seq<T>, v: T): (i: nat)
    requires v in values
    ensures i < |values| && values[i] == v
    ensures v !in values[i + 1..]
  {
    if values[|values| - 1] == v then |values| - 1 else LastIndex(values[..|values| - 1], v)
  }

  /** `next_nick`: the value after the first occurrence, wrapping from the last to the first. */
  function NextOf<T(==)>(values: seq<T>, v: T): (r: T)
    requires v in values
    ensures FirstIndex(values, v) + 1 < |values| ==> r == values[FirstIndex(values, v) + 1]
    ensures FirstIndex(values, v) + 1 == |values| ==> r == values[0]
  {
    var i := FirstIndex(values, v);
    if i + 1 < |values| then values[i + 1] else values[0]
  }

  /**
   * `previous_nick`: the reversed cycle is searched, so the value before the
   * last occurrence, wrapping from the first to the last.
   */
  function PreviousOf<T(==)>(values: seq<T>, v: T): (r: T)
    requires v in values
    ensures LastIndex(values, v) > 0 ==> r == values[LastIndex(values, v) - 1]
    ensures LastIndex(values, v) == 0 ==> r == values[|values| - 1]
  {
    var j := LastIndex(values, v);
    if j == 0 then values[|values| - 1] else values[j - 1]
  }

  /** No value occurs twice. */
  predicate Distinct<T(==)>(values: seq<T>)
  {
    forall i, j :: 0 <= i < j < |values| ==> values[i] != values[j]
  }

  /** With distinct values the first and last positions coincide. */
  lemma DistinctIndices<T>(values: seq<T>, v: T)
    requires Distinct(values) && v in values
    ensures FirstIndex(values, v) == LastIndex(values, v)
  {
  }

  /** The position after p in a cycle of n. */
  function Successor(p: nat, n: nat): (r: nat)
    requires p < n
    ensures r < n
  {
    if p + 1 < n then p + 1 else 0
  }

  /** The position before p in a cycle of n. */
  function Predecessor(p: nat, n: nat): (r: nat)
    requires p < n
    ensures r < n
  {
    if p == 0 then n - 1 else p - 1
  }

  /** Stepping back and stepping forward undo each other. */
  lemma StepsUndo(p: nat, n: nat)
    requires p < n
    ensures Successor(Predecessor(p, n), n) == p
    ensures Predecessor(Successor(p, n), n) == p
  {
  }

  /** In a distinct list the step from position p goes to the next position, wrapping at the end. */
  lemma NextAt<T>(values: seq<T>, p: nat)
    requires Distinct(values) && p < |values|
    ensures NextOf(values, values[p]) == values[Successor(p, |values|)]
  {
    assert FirstIndex(values, values[p]) == p;
  }

  /** In a distinct list the step back from position p goes to the previous position, wrapping at the start. */
  lemma PreviousAt<T>(values: seq<T>, p: nat)
    requires Distinct(values) && p < |values|
    ensures PreviousOf(values, values[p]) == values[Predecessor(p, |values|)]
  {
    DistinctIndices(values, values[p]);
    assert FirstIndex(values, values[p]) == p;
  }

  /** With distinct values, stepping back then forward returns to the start, and so does forward then back. */
  lemma NextPreviousInverse<T>(values: seq<T>, v: T)
    requires Distinct(values) && v in values
    ensures NextOf(values, PreviousOf(values, v)) == v
    ensures PreviousOf(values, NextOf(values, v)) == v
  {
    var p := FirstIndex(values, v);
    PreviousAt(values, p);
    NextAt(values, Predecessor(p, |values|));
    NextAt(values, p);
    PreviousAt(values, Successor(p, |values|));
    StepsUndo(p, |values|);
  }

  /** k forward steps from a value. */
  function Iterate<T(==)>(values: seq<T>, v: T, k: nat): (r: T)
    requires v in values
    ensures r in values
  {
    if k == 0 then v else NextOf(values, Iterate(values, v, k - 1))
  }

  /** A position below 2n brought back into 0..n-1 by one wrap. */
  function Wrap(i: nat, n: nat): (r: nat)
    requires i < 2 * n
    ensures r < n && (r == i || r == i - n)
  {
    if i < n then i else i - n
  }

  /** Wrapping then stepping is stepping then wrapping. */
  lemma SuccessorOfWrap(i: nat, n: nat)
    requires 0 < i < 2 * n
    ensures Successor(Wrap(i - 1, n), n) == Wrap(i, n)
  {
  }

  /**
   * Forward steps walk the positions in order: up to a full round, k steps
   * from position p reach position p + k, wrapping once past the end.
   */
  lemma {:induction false} IterateIndex<T>(values: seq<T>, p: nat, k: nat)
    requires Distinct(values) && p < |values| && k <= |values|
    ensures Iterate(values, values[p], k) == values[Wrap(p + k, |values|)]
  {
    if k > 0 {
      IterateIndex(values, p, k - 1);
      NextAt(values, Wrap(p + k - 1, |values|));
      SuccessorOfWrap(p + k, |values|);
    }
  }

  /** A full round of forward steps returns to the start. */
  lemma FullCycle<T>(values: seq<T>, v: T)
    requires Distinct(values) && v in values
    ensures Iterate(values, v, |values|) == v
  {
    var p := FirstIndex(values, v);
    IterateIndex(values, p, |values|);
  }
}

=== FILE: utf8.dfy ===
/**
 * The byte-level view of text used by the two text widgets: text is a
 * sequence of UTF-8 bytes, positions are byte offsets, and slicing is only
 * allowed at character boundaries (Rust's `str::get` and
 * `str::split_at_checked`). Also the word-under-cursor rule shared by the
 * double-click handlers.
 */
module Utf8 {
  import opened Wrappers

  type Byte = b: int | 0 <= b < 256

  type Bytes = seq<Byte>

  /** 2^32: the range of Rust's `u32`; `x as u32` keeps `x % U32_LIMIT`. */
  const U32_LIMIT: int := 0x1_0000_0000

  /** Rust's `as u32` on a non-negative value: the low 32 bits, so small values are kept. */
  function AsU32(n: nat): (r: nat)
    ensures r < U32_LIMIT
    ensures n < U32_LIMIT ==> r == n
  {
    n % U32_LIMIT
  }

  /** 2^64: the range of Rust's `usize` on a 64-bit target. */
  const USIZE_LIMIT: int := 0x1_0000_0000_0000_0000

  /** Rust's `as usize` on an `i32`: negative values wrap around to huge offsets. */
  function I32AsUsize(i: int): (r: nat)
    requires -0x8000_0000 <= i < 0x8000_0000
    ensures 0 <= i ==> r == i
    ensures i < 0 ==> r >= USIZE_LIMIT - 0x8000_0000
  {
    if i < 0 then i + USIZE_LIMIT else i
  }

  /** The bytes of an ASCII string literal. */
  function Ascii(s: string): (r: Bytes)
    requires forall i :: 0 <= i < |s| ==> s[i] as int < 128
    ensures |r| == |s| && forall i :: 0 <= i < |s| ==> r[i] == s[i] as int
  {
    seq(|s|, i requires 0 <= i < |s| => s[i] as int)
  }

  /** A UTF-8 continuation byte (0b10xx_xxxx) never starts a character. */
  predicate IsContinuation(b: Byte)
  {
    0x80 <= b < 0xC0
  }

  /** Rust's `str::is_char_boundary`: the start, the end, or a byte that starts a character. */
  predicate IsCharBoundary(t: Bytes, i: int)
  {
    i == 0 || i == |t| || (0 < i < |t| && !IsContinuation(t[i]))
  }

  /** Rust's `str::get(lo..hi)`: the slice when both ends are in range, ordered, and on boundaries. */
  function Get(t: Bytes, lo: int, hi: int): (r: Option<Bytes>)
    ensures r.Some? <==> 0 <= lo <= hi <= |t| && IsCharBoundary(t, lo) && IsCharBoundary(t, hi)
    ensures r.Some? ==> |r.value| == hi - lo && forall k :: 0 <= k < hi - lo ==> r.value[k] == t[lo + k]
  {
    if 0 <= lo <= hi <= |t| && IsCharBoundary(t, lo) && IsCharBoundary(t, hi) then Some(t[lo..hi])
    else None
  }

  /** Rust's `str::split_at_checked`: the halves before and after `i`, when `i` is a boundary. */
  function SplitAtChecked(t: Bytes, i: int): (r: Option<(Bytes, Bytes)>)
    ensures r.Some? <==> 0 <= i <= |t| && IsCharBoundary(t, i)
    ensures r.Some? ==> r.value.0 + r.value.1 == t && |r.value.0| == i
  {
    if 0 <= i <= |t| && IsCharBoundary(t, i) then
      assert t[..i] + t[i..] == t;
      Some((t[..i], t[i..]))
    else None
  }

  /** Rust's `u8::is_ascii_whitespace`: space, tab, line feed, form feed, carriage return. */
  predicate IsAsciiWhitespace(b: Byte)
  {
    b == 0x20 || b == 0x09 || b == 0x0A || b == 0x0C || b == 0x0D
  }

  /** Rust's `u8::is_ascii_punctuation`: the four ASCII punctuation ranges. */
  predicate IsAsciiPunctuation(b: Byte)
  {
    (0x21 <= b <= 0x2F) || (0x3A <= b <= 0x40) || (0x5B <= b <= 0x60) || (0x7B <= b <= 0x7E)
  }

  /** A byte that ends a word for double-click selection. */
  predicate IsWordSeparator(b: Byte)
  {
    IsAsciiWhitespace(b) || IsAsciiPunctuation(b)
  }

  /**
   * The characterisation of the word around offset `index`: the range from
   * `start` up to but excluding `end` contains `index`, holds no separator,
   * and is delimited by a separator or the end of the text on both sides.
   */
  predicate IsWordAround(t: Bytes, index: nat, start: nat, end: nat)
  {
    start <= index <= end <= |t|
    && (forall k :: start <= k < end ==> !IsWordSeparator(t[k]))
    && (start == 0 || IsWordSeparator(t[start - 1]))
    && (end == |t| || IsWordSeparator(t[end]))
  }

  /**
   * The selection a double click at byte offset `index` makes: the word
   * around `index` when the text can be split there, else the whole text.
   * The word's first byte is after the last separator before `index`; its
   * end is the first separator at or after `index`.
   */
  method WordBounds(t: Bytes, index: int) returns (start: nat, end: nat)
    ensures SplitAtChecked(t, index).Some? ==> IsWordAround(t, index, start, end)
    ensures SplitAtChecked(t, index).None? ==> start == 0 && end == |t|
  {
    if SplitAtChecked(t, index).None? {
      return 0, |t|;
    }
    // rposition over the bytes before `index`
    start := index;
    while start > 0 && !IsWordSeparator(t[start - 1])
      invariant 0 <= start <= index
      invariant forall k :: start <= k < index ==> !IsWordSeparator(t[k])
    {
      start := start - 1;
    }
    // position over the bytes from `index` on
    end := index;
    while end < |t| && !IsWordSeparator(t[end])
      invariant index <= end <= |t|
      invariant forall k :: index <= k < end ==> !IsWordSeparator(t[k])
    {
      end := end + 1;
    }
  }

  /** The word around an offset is unique: the characterisation pins down both ends. */
  lemma WordAroundUnique(t: Bytes, index: nat, s1: nat, e1: nat, s2: nat, e2: nat)
    requires IsWordAround(t, index, s1, e1) && IsWordAround(t, index, s2, e2)
    ensures s1 == s2 && e1 == e2
  {
  }
}

=== FILE: wrappers.dfy ===
/**
 * Small option and result types shared by every module of the model.
 */
module Wrappers {

  /** An optional value, standing for Rust's `Option<T>` and Python's `None`. */
  datatype Option<T> = None | Some(value: T) {

    /** The contained value, or `default` when there is none (Rust's `unwrap_or`). */
    function UnwrapOr(default: T): (r: T)
      ensures this.Some? ==> r == this.value
      ensures this.None? ==> r == default
    {
      match this
      case Some(v) => v
      case None => default
    }
  }

  /** The outcome of an operation that may fail with an error of type `E`. */
  datatype Result<T, E> = Ok(value: T) | Err(error: E)
}
